=== FILE: README.md ===
# container-mesh, modelled in Dafny

container-mesh is a load test for Ditto peer-to-peer meshes. A coordinator waits for a
quorum of peers, publishes an execution plan (the peer list, a connection graph, a start
time and a test duration) and then follows the peers through their lifecycle
`Init -> Ready -> Running -> Reporting -> Shutdown` through a shared heartbeats document.
Each peer writes timestamped records into a ring of `PEER_LOG_SIZE` slots in its own log.
It consumes the other peers' logs, folding message latencies into statistics, and reports them.
The repository holds two generations of the system:

- the Rust peer and coordinator at the top level (`peer/`, `coordinator/`, `common/`) and
  the first TypeScript peer library (`ts/`);
- the newer `container-mesh/` tree: Rust coordinator and consumer, shared defaults and
  min-heap, and a second TypeScript peer library.

This project models the sequential logic of both generations as pure functions over
immutable data, and proves what that logic promises. One Dafny module stands for one
source file or component:

| module | models |
|---|---|
| `RingScan`, `Consumer`, `Latency` | the ring-buffer consumer of `container-mesh/peer/src/consumer.rs` and its statistics fold |
| `TsConsumer` | the TypeScript consumer `container-mesh/ts/src/consumer.ts` |
| `LegacyConsumer` | the older append-only consumer `peer/src/consumer.rs` |
| `Producer`, `TsProducer`, `RingScenarios` | the producers `peer/src/producer.rs` and `container-mesh/ts/src/producer.ts`, and what a consumer reads after a series of sends |
| `TsContext`, `PeerContext`, `TsTypes`, `Defaults` | the peer contexts, the TypeScript types and the default values of `container-mesh/common/src/default.rs` |
| `Types` | `common/src/types.rs`: state names, peer identity, `short_peer_str`, undirected links, `to_dot` |
| `Graph`, `CoordGraph` | `complete_graph` and `spanning_tree` of `common/src/graph.rs`, and the older `coordinator/src/graph.rs` |
| `PeerSets`, `Coordinator`, `LegacyCoordinator` | the coordinator's peer set, heartbeat fold, quorum wait, start delay and plan generation, in both generations |
| `MinHeaps` | `container-mesh/common/src/minheap.rs` |
| `PeerMain` | the heartbeat thread, `connect_mesh` and `run_test` of `peer/src/main.rs` |
| `CmPeerTs`, `CmPeerCm` | `getCoordInfo`, `connectMesh`, `start` and the heartbeat timer of `ts/src/cmpeer.ts` and `container-mesh/ts/src/cmpeer.ts` |
| `Wrappers`, `Decimal`, `StrOrder`, `Sorting` | `Option`/`Result`, decimal `to_string`, Rust's `String` order, and the descending sort |

Several things become parameters:

- The Ditto store, its observers and the network are replaced by the values they deliver.
  A document is a map; an observer callback is a sequence of document values.
- Clock readings, the producer's stop-flag readings and random delays are parameters.
- The iteration order of a `HashMap` or `HashSet` is a parameter: any duplicate-free
  enumeration of its keys (`Types.Enumerates`).
- Panics, `unwrap` failures and thrown exceptions are the error arm of a `Result`.
- A run of an `async` TypeScript method is described by the steps it takes: events
  emitted, state transitions, and the heartbeat timer switched on and off.

## Model

| member | source | states |
|---|---|---|
| RingScan.IncrWrap | container-mesh/peer/src/consumer.rs:27-33 | the result is `i + 1`, or 0 once `i + 1` passes `max` |
| RingScan.IncrWrapIsSuccessorMod | container-mesh/ts/src/consumer.ts:142-148 | for `i <= max` the wrap is the successor modulo `max + 1`, stays in `0..max`, and is 0 exactly when `i == max` (same function in both consumers) |
| RingScan.KeyInjective | container-mesh/peer/src/consumer.rs:64 | distinct slot indices have distinct decimal keys, so the ring view of a log is well defined |
| RingScan.RingOf | container-mesh/peer/src/consumer.rs:64 | slot `j` holds a record exactly when the log has key `j.to_string()`, and then it is that record |
| RingScan.ScanFrom | container-mesh/peer/src/consumer.rs:63-79 | a scan that stops within its fuel is a finished loop: a run of records each no older than the one before, then the first slot that is empty or strictly older |
| RingScan.SaturatedRunsOut | container-mesh/peer/src/consumer.rs:63-68 | on a ring whose sixteen slots all hold records with one timestamp no older than the cursor, the loop never stops, whatever the fuel |
| RingScan.OutOfFuelIffSaturated | container-mesh/peer/src/consumer.rs:63-79 | the loop consumes more than `PEER_LOG_SIZE` records exactly when the ring is saturated, i.e. exactly when the source loops forever |
| RingScan.RunMonotone | container-mesh/peer/src/consumer.rs:65-78 | along the consumed run the timestamps never decrease |
| RingScan.FullLapSaturates | container-mesh/peer/src/consumer.rs:63-79 | a run that passes its own start slot again forces one timestamp on every slot |
| RingScan.StopIsFirstFailure | container-mesh/peer/src/consumer.rs:65-67 | the loop stops at the first failing slot: two stopping lengths are equal |
| RingScan.LastTsIsPrevTs | container-mesh/peer/src/consumer.rs:78 | the stop test compares against the last consumed record's timestamp, or the cursor's when nothing was consumed |
| RingScan.WalkFromUnique | container-mesh/peer/src/consumer.rs:63-79 | the outcome of a finished loop is determined by the ring and the cursor |
| RingScan.Consume | container-mesh/peer/src/consumer.rs:63-79 | on an unsaturated ring the loop ends, consuming at most `PEER_LOG_SIZE` records |
| RingScan.ConsumeNothing | container-mesh/peer/src/consumer.rs:65-67 | an empty or strictly older first slot stops the loop with nothing consumed and the cursor's timestamp kept |
| RingScan.ConsumeStartsAt | container-mesh/peer/src/consumer.rs:64-69 | a first slot no older than the cursor (equal timestamps included) is consumed first |
| Consumer.NewConsumer | container-mesh/peer/src/consumer.rs:36-45 | a new consumer has no cursors, fresh statistics and a zero total |
| Consumer.GetTsIdx | container-mesh/peer/src/consumer.rs:48-51 | the stored cursor, or `(0, 0)` for a peer without one |
| Consumer.SetConsumedTsIdx | container-mesh/peer/src/consumer.rs:54-57 | the stored cursor is the timestamp with `incr_wrap` of the index; other peers' cursors are untouched |
| Latency.Latencies | container-mesh/peer/src/consumer.rs:70 | each latency plus its record's timestamp is `now`; requires no record stamped after `now`, as the `u64` subtraction does; the earlier consumer (peer/src/consumer.rs:57) takes the same differences |
| Consumer.ConsumedNotAfter | container-mesh/peer/src/consumer.rs:70 | when no slot is stamped after `now`, no consumed record is |
| Consumer.ConsumedWalk | container-mesh/peer/src/consumer.rs:61-79 | the records consumed are those of the loop from the peer's cursor |
| Consumer.StoredCursor | container-mesh/peer/src/consumer.rs:80 | as written, the cursor stored after a walk is the last consumed timestamp with the index after the stop slot, always a slot index |
| Consumer.ProcessPeer | container-mesh/peer/src/consumer.rs:59-81 | the statistics are folded over the consumed records' latencies and the cursor becomes the stored cursor of that walk; every other cursor is kept |
| Consumer.ProcessPeerKeepsCursorsInRange | container-mesh/peer/src/consumer.rs:54-80 | every stored index stays below `PEER_LOG_SIZE` |
| Consumer.ProcessPeerKeepsOthers | container-mesh/peer/src/consumer.rs:83-90 | processing one peer leaves every other log of the document processable |
| Consumer.ProcessPeerDoc | container-mesh/peer/src/consumer.rs:83-91 | processing a document never lowers the event count |
| Consumer.ProcessPeerDocFrame | container-mesh/peer/src/consumer.rs:84-89 | afterwards there is a cursor for exactly the old peers plus every remote peer in the document; the local id and peers not in the document keep their cursors |
| Consumer.ProcessPeerDocCursors | container-mesh/peer/src/consumer.rs:84-89 | each remote peer's cursor is what processing that peer's log from its old cursor leaves |
| Consumer.GetMessageLatency | container-mesh/peer/src/consumer.rs:93-97 | the statistics are copied, with `distinct_peers` the number of cursors |
| Consumer.FreshDocDistinctPeers | container-mesh/peer/src/consumer.rs:83-97 | a fresh consumer's first document counts every peer in it except itself |
| Consumer.AsWrittenSkipsNextWrite | container-mesh/peer/src/consumer.rs:77-80 | as written: after consuming slot 0, the next pass starts at slot 2 and misses the record written next, into slot 1 |
| Consumer.ProcessPeerFixed | container-mesh/peer/src/consumer.rs:59-81 | corrected: the stored index is the slot that stopped the loop |
| Consumer.FixedReplayIsNoOp | container-mesh/peer/src/consumer.rs:59-81 | corrected: a pass over an unchanged log consumes nothing and leaves the cursor as it was |
| Consumer.FixedPicksUpNextWrite | container-mesh/peer/src/consumer.rs:59-81 | corrected: the next record written into the stop slot is the first one the next pass consumes |
| Consumer.FixedCountsNextWrite | container-mesh/peer/src/consumer.rs:59-81 | corrected, on the two-record scenario: the second pass counts the record in slot 1 |
| Latency.SeqMin | container-mesh/peer/src/consumer.rs:73 | the reference minimum of a list is an element no greater than any element |
| Latency.SeqMax | container-mesh/peer/src/consumer.rs:74 | the reference maximum of a list is an element no smaller than any element |
| Latency.Fold | container-mesh/peer/src/consumer.rs:70-75 | one record adds one event and its latency to the total, keeps the latency within `[min, max]`, and sets `avg = total / num_events` |
| Latency.FoldAll | container-mesh/peer/src/consumer.rs:63-79 | folding `k` latencies adds `k` events and leaves the mean as integer total over count |
| Latency.FoldAllSummary | container-mesh/peer/src/consumer.rs:70-75 | the folded total, minimum and maximum are those of the old statistics combined with the reference sum, minimum and maximum of the list |
| Latency.FreshFoldIsSummary | container-mesh/peer/src/consumer.rs:70-75 | from fresh statistics, the count, minimum, maximum and integer mean are exactly those of the latencies |
| Latency.NewTsTally | container-mesh/ts/src/types.ts:113-119 | `new LatencyStats()` has no events, minimum `Number.MAX_SAFE_INTEGER`, zero maximum, mean and distinct peers |
| Latency.TsFold | container-mesh/ts/src/consumer.ts:57-62 | one record adds one event, keeps its signed latency within `[min, max]`, and the mean times the count is the total (exact division) |
| Latency.TsFoldAll | container-mesh/ts/src/consumer.ts:51-66 | folding `k` latencies adds `k` events with the exact mean |
| Latency.TsFoldAllSummary | container-mesh/ts/src/consumer.ts:57-62 | the folded total, minimum and maximum agree with the reference definitions over the list |
| TsConsumer.NewTsConsumer | container-mesh/ts/src/consumer.ts:24-34 | a new consumer is not running, has no cursors and fresh statistics |
| TsConsumer.GetTsIdx | container-mesh/ts/src/consumer.ts:71-77 | the stored cursor, or `{ts: 0, i: 0}` |
| TsConsumer.TsLatencies | container-mesh/ts/src/consumer.ts:57 | each signed latency plus its record's timestamp is `now` |
| TsConsumer.ProcessPeer | container-mesh/ts/src/consumer.ts:47-83 | the same ring loop as the Rust consumer, folded with signed latencies; the stored cursor is the last timestamp with `incrWrap` of the stop index |
| TsConsumer.FutureRecordGivesNegativeLatency | container-mesh/ts/src/consumer.ts:57-60 | a record stamped after `now` is consumed and drives the minimum below zero |
| TsConsumer.ProcessPeerKeepsOthers | container-mesh/ts/src/consumer.ts:116-121 | processing one peer leaves the other logs processable |
| TsConsumer.ProcessLogs | container-mesh/ts/src/consumer.ts:116-122 | the loop over the logs never touches the local peer's cursor or `distinct_peers` |
| TsConsumer.ProcessLogsFrame | container-mesh/ts/src/consumer.ts:116-122 | after a document the consumer holds a cursor for exactly the old peers plus every other peer the document lists; the local peer and unlisted peers keep their cursors |
| TsConsumer.ProcessLogsCursors | container-mesh/ts/src/consumer.ts:116-122 | each listed remote peer's cursor is where processing that peer's log alone from its old cursor leaves it, whatever the iteration order |
| TsConsumer.Observe | container-mesh/ts/src/consumer.ts:106-124 | while stopped, or without a document, the observer changes nothing; while running, it processes the document's logs as `ProcessLogs` does |
| TsConsumer.Start | container-mesh/ts/src/consumer.ts:86-90 | `start` sets `running` and keeps cursors and statistics |
| TsConsumer.Stop | container-mesh/ts/src/consumer.ts:128-138 | `stop` clears `running` and returns the statistics unchanged, `distinct_peers` never assigned |
| TsConsumer.StoppedIgnoresDocuments | container-mesh/ts/src/consumer.ts:107-130 | after `stop`, no document changes the consumer |
| LegacyConsumer.RunFrom | peer/src/consumer.rs:50-65 | the records read are those under consecutive keys from the cursor, ending at the first missing key |
| LegacyConsumer.RunFromBounded | peer/src/consumer.rs:50-65 | the run is no longer than the log, so the unbounded loop ends |
| LegacyConsumer.NewLegacyConsumer | peer/src/consumer.rs:28-36 | no cursors and fresh statistics |
| LegacyConsumer.PeekNextIdx | peer/src/consumer.rs:38-41 | the stored index, or 0 |
| LegacyConsumer.ProcessPeer | peer/src/consumer.rs:47-67 | folds the run's latencies and stores the index of the first missing key; other cursors kept |
| LegacyConsumer.ReplayIsNoOp | peer/src/consumer.rs:49-66 | a pass over an unchanged log adds no events and keeps the cursor |
| LegacyConsumer.ReadsAppendedRecord | peer/src/consumer.rs:49-66 | a record written at the stored index is read by the next pass |
| LegacyConsumer.ProcessPeerDoc | peer/src/consumer.rs:69-74 | every log of the document, the peer's own included, gets a cursor |
| LegacyConsumer.GetMessageLatency | peer/src/consumer.rs:76-80 | statistics copied with `distinct_peers` the number of cursors |
| LegacyConsumer.FreshDocCountsEveryLog | peer/src/consumer.rs:69-80 | after one document a fresh consumer reports every log as a distinct peer, its own included |
| Producer.NewProducer | peer/src/producer.rs:20-28 | a new producer context has `msg_index` -1 and `finished` false |
| Producer.GetNextIndex | peer/src/producer.rs:32-38 | the index advances by one modulo `PEER_LOG_SIZE`, stays in range, and the result is the stored index |
| Producer.AdvanceFromNew | peer/src/producer.rs:25-38 | the `k`-th index a fresh producer uses is `(k - 1) mod PEER_LOG_SIZE`: 0, 1, …, 15, 0, … |
| Producer.RecordPathInjective | peer/src/producer.rs:47-51 | for ids without a quote, two record paths are equal exactly when peer id and index are |
| Producer.ProducerSend | peer/src/producer.rs:41-63 | a default record stamped `now` is written under the next index of this producer's own log, and nothing else changes |
| Producer.ProducerStop | peer/src/producer.rs:71-76 | only `finished` is raised |
| Producer.SendsBeforeStop | peer/src/producer.rs:82 | the number of sends is the number of `false` flag readings before the first `true` |
| Producer.ProducerLoop | peer/src/producer.rs:79-91 | the returned count equals the number of sends, which stop at the first `true` reading; the loop panics exactly when it sends while `min_msg_delay_msec >= max_msg_delay_msec`, the empty range `gen_range` rejects |
| Producer.LoopIsSends | peer/src/producer.rs:81-90 | a loop that returns has written exactly the records of its sends |
| TsProducer.NewTsProducer | container-mesh/ts/src/producer.ts:15-23 | a new producer has index 0, count 0 and is `finished` |
| TsProducer.GetNextIdx | container-mesh/ts/src/producer.ts:30-36 | pre-increment and wrap at `PEER_LOG_SIZE`: the result is `(index + 1) mod PEER_LOG_SIZE`, so a fresh producer first writes slot 1 |
| TsProducer.Produce | container-mesh/ts/src/producer.ts:44-58 | when `finished` nothing is written and no timer re-armed; otherwise the next slot of the own log gets a fresh record and the timer re-arms; the count never changes |
| TsProducer.Start | container-mesh/ts/src/producer.ts:60-64 | `start` clears `finished` |
| TsProducer.Stop | container-mesh/ts/src/producer.ts:67-71 | `stop` raises `finished` and returns the count |
| TsProducer.RunKeepsCount | container-mesh/ts/src/producer.ts:44-58 | as written: any number of timer firings leaves `msgCount` where it was |
| TsProducer.StopReportsZero | container-mesh/ts/src/producer.ts:44-71 | as written: a fresh producer that wrote at least one record reports 0 from `stop` |
| TsProducer.ProduceCounted | container-mesh/ts/src/producer.ts:44-58 | corrected: each record written adds one to the count |
| TsProducer.StopReportsProduced | container-mesh/ts/src/producer.ts:67-71 | corrected: `stop` reports exactly the number of records the timer chain wrote |
| TsProducer.RunIndex | container-mesh/ts/src/producer.ts:30-36 | after `k` firings the index has advanced by `k` modulo `PEER_LOG_SIZE` |
| RingScenarios.RingOfUpdate | peer/src/producer.rs:47-60 | writing slot `i` of a log changes slot `i` of its ring view and nothing else |
| RingScenarios.FreshSends | peer/src/producer.rs:41-63 | after `k` sends from a fresh producer each slot holds the record of the last send to it |
| RingScenarios.LastLapWalk | container-mesh/peer/src/consumer.rs:63-79 | from slot 0 over such a ring the loop reads the last lap and stops after it |
| RingScenarios.FreshScanReadsLastLap | container-mesh/peer/src/consumer.rs:59-81 | with strictly increasing send times, a fresh consumer's first pass over the log reads exactly the records of the last lap |
| RingScenarios.FreshScanCounts | container-mesh/peer/src/consumer.rs:59-81 | up to `PEER_LOG_SIZE` sends a fresh pass counts all `k` of them; one send past the lap it counts only the newest, in slot 0 |
| RingScenarios.ProducerFirstSends | peer/src/producer.rs:25-38 | the first two sends of a fresh producer fill slots 0 and 1, the logs of the cursor scenario |
| TsContext.NewTsPeerContext | container-mesh/ts/src/context.ts:27-41 | a new context knows nothing of the coordinator, uses `COORD_COLLECTION_NAME`, and starts in `Init` |
| TsContext.StateTransition | container-mesh/ts/src/context.ts:43-48 | throws exactly when the current state is not `from`, leaving the context as it was; otherwise the state becomes `to`, whatever `to` is |
| TsContext.TransitionNotRepeatable | container-mesh/ts/src/context.ts:43-48 | a transition succeeds again right after itself only when it is a self-loop |
| TsContext.LifecycleSucceeds | container-mesh/ts/src/context.ts:43-48 | from `Init`, the four transitions of the lifecycle all succeed in order and end in `Shutdown` |
| TsContext.ToPeer | container-mesh/ts/src/context.ts:50-57 | the peer record copies id, local address, local port and current state (the key the state is written under is on a "## Left out" line) |
| TsContext.ToPeerAfterTransition | container-mesh/ts/src/context.ts:43-57 | after a transition the peer record carries the new state and the same identity |
| PeerContext.NewPeerContext | peer/src/context.rs:35-52 | a new context has no coordinator address, document or information, is stamped with the clock, and starts in `Init` |
| PeerContext.GetPlan | peer/src/context.rs:54-57 | the plan is present exactly when the coordinator information and its plan are, and then it is that plan |
| PeerContext.StateTransition | peer/src/context.rs:59-69 | panics exactly when an expected state is given and differs from the current one; otherwise the state becomes the new one |
| PeerContext.TransitionUnchecked | peer/src/context.rs:65-67 | without an expected state every transition happens; with one it happens exactly from that state |
| PeerContext.ChainedTransitions | peer/src/context.rs:65-67 | a chain of transitions each expecting the state the previous one set never panics and ends in the last state |
| Defaults.DefaultCoordinatorInfo | container-mesh/common/src/default.rs:19-27 | the heartbeat collection name, an interval of 5 seconds, and no plan |
| Defaults.DefaultExecutionPlan | container-mesh/common/src/default.rs:29-45 | start ten seconds after the clock reading, 60 seconds long, delays 900 and 1100 ms, the default collection names, no peers and no connections |
| Defaults.DefaultPeerRecord | container-mesh/common/src/default.rs:47-53 | stamped with the clock, empty payload; `new PeerRecord()` (container-mesh/ts/src/types.ts:87-90) builds the same record |
| Defaults.DefaultsConsistent | container-mesh/common/src/default.rs:11-40 | the spanning-tree degree is at least 1, the default delay range is non-empty, and the ring has at least two slots |
| Types.StateName | common/src/types.rs:102-113 | the displayed name of a state is its variant name |
| Types.StateNameRoundTrip | common/src/types.rs:92-113 | reading a displayed name back gives the same state, so distinct states display differently |
| Types.HeartbeatEquality | common/src/types.rs:129-155 | heartbeats are equal exactly when their senders' ids are: an equivalence that ignores state, port and send time |
| Types.NewLatencyStats | common/src/types.rs:219-229 | no events, minimum `u64::MAX`, zero maximum, mean and distinct peers |
| Types.FindPeer | peer/src/main.rs:303 | the lookup fails exactly when no peer has the id, and otherwise returns a listed peer with that id |
| Types.FindPeerFirst | ts/src/cmpeer.ts:32 | the lookup returns the first peer with the id, as `Array.prototype.find` does |
| Types.AddressInjective | peer/src/main.rs:306-308 | for addresses without `:`, two endpoint strings are equal exactly when address and port are |
| Types.StripPrefix | common/src/types.rs:32 | succeeds exactly when the prefix is there, and the prefix plus the rest is the name |
| Types.SplitOnce | common/src/types.rs:35 | fails exactly when the separator is absent; otherwise the parts around its first occurrence |
| Types.ShortPeerStr | common/src/types.rs:31-45 | with the `peer` prefix: panics when the remainder is shorter than 4, else the text before the first `_`, or the first 4 characters when there is none; without it: the first 4 characters, or the whole name |
| Types.ShortPeerStrLazy | common/src/types.rs:31-45 | corrected: the 4-character fallback is only taken when there is no `_`, so no name with `_` panics |
| Types.ShortPeerStrEagerPanic | common/src/types.rs:36 | as written `peer1_a` panics, although it has a `_`; the corrected function gives `1` |
| Types.UndirectedLinks | common/src/types.rs:61-70 | absent exactly when the vertex is not a key; otherwise the out-set together with every vertex linking to it |
| Types.UndirectedLinksSymmetric | common/src/types.rs:61-70 | for two vertices of the graph, each is a neighbour of the other or neither is |
| Types.ToDot | common/src/types.rs:72-82 | the text starts with `digraph G {` and ends with `}` and a newline |
| Types.ShortPeerStrNoNewline | common/src/types.rs:31-45 | a short name holds no newline its id did not hold |
| Types.DotOneLinePerEdge | common/src/types.rs:72-82 | with newline-free ids the text has one line per directed edge plus header and footer |
| PeerMain.InitialHeartbeat | peer/src/main.rs:217-225 | the first heartbeat speaks for this peer, in `Init`, with its id and address |
| PeerMain.HeartbeatPath | peer/src/main.rs:137 | the update path is `beats.` followed by exactly the peer id |
| PeerMain.HeartbeatSend | peer/src/main.rs:126-143 | the resent record carries the current state and clock; the document gains or overwrites only this peer's entry, every other entry is kept |
| PeerMain.HeartbeatSendKeyed | peer/src/main.rs:126-143 | a peer writing its own record under its own id keeps the document keyed by sender, which is what the coordinator's fold relies on |
| PeerMain.HeartbeatStop | peer/src/main.rs:153-156 | stopping only raises the flag; the record and id are kept |
| PeerMain.HeartbeatLoop | peer/src/main.rs:159-166 | the loop sends once per `false` reading before the first `true`; after at least one send the peer's entry holds the state of the last send, other entries are kept |
| PeerMain.AddTargets | peer/src/main.rs:304-307 | the server set grows by the endpoint of every target; the loop fails exactly when some target is missing from the plan's peer list |
| PeerMain.ConnectMesh | peer/src/main.rs:292-315 | without a plan, or without an entry for this peer in the connection map, the call fails; otherwise the servers become the old ones plus the endpoints of the listed neighbours |
| PeerMain.StartWait | peer/src/main.rs:322-331 | the wait is zero exactly when the start time has passed, and otherwise ends at the start time |
| PeerMain.RunTest | peer/src/main.rs:317-373 | the run succeeds exactly when the mesh connects, the peer is in `Init` and the producer thread does not panic (it sends nothing, or the delay range is non-empty), since the join at line 360 unwraps the thread's result; it then ends in `Shutdown`, reports the consumer's statistics and the number of records the producer sent before it saw the stop flag, and leaves the log the producer wrote |
| PeerMain.FreshPeerCompletes | peer/src/main.rs:317-373 | a peer fresh from bootstrap, with a plan that lists its neighbours and gives a non-empty delay range, completes the run and reports exactly its producer's sends |
| PeerMain.EmptyDelayRangeFailsRun | peer/src/main.rs:349-360 | a plan with an empty delay range fails the run once the producer sends, since the thread's `gen_range` panic reaches the join's `unwrap` |
| PeerSets.Add | container-mesh/coordinator/src/main.rs:119 | `replace` stores the new peer under its id; `insert` stores it only if its id is new; every other id is untouched |
| PeerSets.AddAllKeys | container-mesh/coordinator/src/main.rs:116-122 | after adding a sequence of senders the ids present are the old ones and every sender's |
| PeerSets.AddAllFrame | container-mesh/coordinator/src/main.rs:116-122 | an id no sender carries keeps its stored peer |
| PeerSets.ReplaceLastWins | container-mesh/coordinator/src/main.rs:119 | with `replace`, the stored peer for an id is the last sender carrying that id |
| PeerSets.InsertKeepsKnown | coordinator/src/main.rs:106 | with `insert`, an id already present keeps its stored peer, state included |
| PeerSets.InsertFirstWins | coordinator/src/main.rs:106 | with `insert`, the first sender with a new id is the one stored |
| PeerSets.QuorumBounds | container-mesh/coordinator/src/main.rs:267-270 | a quorum of `k` needs `k` known peers, is met when `k` peers are known and all in a wanted state, and stays met when more states are accepted |
| PeerSets.WaitForPeerStates | container-mesh/coordinator/src/main.rs:255-282 | the wait returns after the first sender whose arrival meets the quorum, never earlier; when the senders run out first, no prefix met it |
| Coordinator.Senders | container-mesh/coordinator/src/main.rs:116 | the senders, one per beat in iteration order |
| Coordinator.ProcessHeartbeat | container-mesh/coordinator/src/main.rs:114-123 | the fold keeps the peer set keyed by id |
| Coordinator.ProcessHeartbeatUpdates | container-mesh/coordinator/src/main.rs:114-123 | after a document keyed by sender, each sender's id carries exactly that heartbeat's peer, state included; every other known peer is untouched and nothing else is added |
| Coordinator.StartDelaySecs | container-mesh/coordinator/src/main.rs:284-292 | ten seconds, plus the ceiling of a quarter second per peer once there are more than forty |
| Coordinator.StartDelayMonotone | container-mesh/coordinator/src/main.rs:284-292 | more peers never shorten the delay |
| Coordinator.PlanStart | container-mesh/coordinator/src/main.rs:368-370 | corrected: the start time lies the whole delay, in milliseconds, after the clock reading |
| Coordinator.PlanStartLead | container-mesh/coordinator/src/main.rs:368-370 | as written the peers get as many milliseconds of lead as the delay has seconds, under a second for up to 3956 peers; corrected it is at least ten seconds |
| Coordinator.GeneratePlan | container-mesh/coordinator/src/main.rs:294-323 | the plan lists every known peer once in iteration order, starts at 0, has the requested duration and graph; the `LAModel` branch fails below the clique size |
| Coordinator.PeerIds | container-mesh/coordinator/src/main.rs:300-304 | the id list has the peers' ids in the same order |
| Coordinator.GeneratePlanConnects | container-mesh/coordinator/src/main.rs:307-313 | for the complete graph and spanning tree every known peer is a vertex and every edge joins known peers; spanning-tree out-sets stay within the degree bound |
| LegacyCoordinator.ProcessHeartbeat | coordinator/src/main.rs:101-111 | the `insert` fold keeps the peer set keyed by id |
| LegacyCoordinator.ProcessHeartbeatNeverUpdates | coordinator/src/main.rs:101-111 | as written the set only grows by new ids; a known peer keeps the state it was first seen in |
| LegacyCoordinator.WaitForPeerStates | coordinator/src/main.rs:226-253 | the same wait as the newer coordinator, over the `insert` fold |
| LegacyCoordinator.RunningQuorumUnreachable | coordinator/src/main.rs:314-315 | as written, with the `insert` of line 106, once every known peer has been recorded in `Init`, no heartbeat from them brings the `Running` quorum, so the second wait never returns |
| LegacyCoordinator.InitThenRunning | coordinator/src/main.rs:101-110 | one peer seen in `Init` and then `Running`: the `insert` fold never meets the `Running` quorum of one that lines 314-315 wait for; the `replace` fold meets it |
| LegacyCoordinator.GeneratePlan | coordinator/src/main.rs:255-276 | the plan lists every known peer once, with the requested graph and duration |
| LegacyCoordinator.GeneratePlanConnects | coordinator/src/main.rs:266-273 | every known peer is a vertex of the plan's graph, and there is no other vertex |
| Graph.AddAll | common/src/graph.rs:41-48 | the vertices are the old ones and every inserted id |
| Graph.AddAllOutSet | common/src/graph.rs:41-48 | a vertex's out-set is everything in the graph before it together with every id inserted before its last insertion |
| Graph.AddAllLinksEveryPair | common/src/graph.rs:32-50 | whatever the insertion order, every pair of distinct vertices is linked in at least one direction |
| Graph.CompleteGraph | common/src/graph.rs:32-50 | the vertices are exactly the input ids |
| Graph.CompleteGraphIsComplete | common/src/graph.rs:32-50 | every input id is a vertex and every pair of distinct vertices is linked: complete when read as undirected |
| Graph.CompleteGraphOutSet | common/src/graph.rs:39-48 | for distinct ids, a vertex points at exactly the ids greater than it, so there are no self-loops |
| Graph.CompleteGraphSize | common/src/graph.rs:32-50 | distinct ids give as many vertices as ids |
| Graph.RunKeys | common/src/graph.rs:66-80 | the outer loop records the vertices already recorded, everything queued and at most what is still on the stack |
| Graph.RunCovers | common/src/graph.rs:66-80 | with a degree bound of at least one, every id on the stack is popped and recorded |
| Graph.RunDegree | common/src/graph.rs:67 | no recorded vertex gets more than the degree bound of out-edges |
| Graph.SpanningTree | common/src/graph.rs:55-82 | an empty input gives the empty graph |
| Graph.SpanningTreeKeys | common/src/graph.rs:55-82 | only input ids become vertices, and with a degree bound of at least one every input id does |
| Graph.SpanningTreeOutSets | common/src/graph.rs:55-82 | every out-set has at most `max_degree` ids, all of them inputs |
| Graph.SpanningTreeIsLayout | common/src/graph.rs:62-80 | for distinct ids the tree is the breadth-first layout in ascending order: the `i`-th smallest id gets the next `d` ids |
| Graph.RootIsSmallest | common/src/graph.rs:62-65 | the root is the smallest id |
| Graph.SpanningTreeOutSet | common/src/graph.rs:62-80 | for distinct ids the `j`-th smallest id is a vertex whose out-set is its stretch of the ascending order |
| Graph.SpanningTreeParent | common/src/graph.rs:62-80 | every id but the smallest has exactly one parent, the one `(x - 1) / d` places up; the root has none |
| Graph.SpanningTreeTenPeers | common/src/graph.rs:110-127 | ten peers with degree 3 give 0 to {1, 2, 3}, 1 to {4, 5, 6}, 2 to {7, 8, 9} and no out-edges from the rest |
| Graph.CompleteGraphTenPeers | common/src/graph.rs:90-100 | ten peers give ten vertices with every pair linked |
| CoordGraph.CompleteGraph | coordinator/src/graph.rs:29-45 | the older generator inserts in input order, without sorting; the vertices are the input ids |
| CoordGraph.CompleteGraphOutSet | coordinator/src/graph.rs:36-43 | for distinct ids the `k`-th id points at exactly the ids before it |
| CoordGraph.CompleteGraphIsComplete | coordinator/src/graph.rs:29-45 | even with repeats, every pair of distinct vertices is linked |
| CoordGraph.CompleteGraphEnds | coordinator/src/graph.rs:36-43 | the first id has no out-edges and the last points at every other id |
| MinHeaps.New | container-mesh/common/src/minheap.rs:9-13 | the new heap is empty |
| MinHeaps.Len | container-mesh/common/src/minheap.rs:23-25 | the length is the number of items, repeats included |
| MinHeaps.Push | container-mesh/common/src/minheap.rs:14-16 | the contents gain one occurrence of the item |
| MinHeaps.Pop | container-mesh/common/src/minheap.rs:17-19 | `None` exactly on an empty heap; otherwise an item no greater than any other, removed once |
| MinHeaps.Peek | container-mesh/common/src/minheap.rs:20-22 | `None` exactly on an empty heap; otherwise the least item |
| MinHeaps.PeekIsPop | container-mesh/common/src/minheap.rs:17-22 | `peek` returns the item `pop` would |
| MinHeaps.PeekDependsOnContents | container-mesh/common/src/minheap.rs:20-22 | heaps with the same contents peek the same item |
| MinHeaps.DrainPermutes | container-mesh/common/src/minheap.rs:17-19 | popping until empty yields exactly the heap's contents |
| MinHeaps.DrainAscending | container-mesh/common/src/minheap.rs:1-26 | popping until empty yields the items in ascending order, the reversed order `Reverse` gives the max-heap |
| MinHeaps.PushPop | container-mesh/common/src/minheap.rs:14-19 | popping right after pushing onto an empty heap gives the item back and an empty heap |
| TsTypes.Ordinal | container-mesh/ts/src/types.ts:23-29 | the numeric enum value is below five, 0 exactly for `Init` and 4 exactly for `Shutdown` |
| TsTypes.FromOrdinal | container-mesh/ts/src/types.ts:23-29 | a number names a state exactly when it is below five |
| TsTypes.OrdinalRoundTrip | container-mesh/ts/src/types.ts:23-29 | state to number to state, and number to state to number, are identities; each lifecycle state numbers one more than the one before |
| TsTypes.NewPeerReport | container-mesh/ts/src/types.ts:126-129 | a report holds the statistics and record count it was built from |
| CmPeerTs.ObserveCoordDocs | ts/src/cmpeer.ts:161-180 | a callback resolves exactly when the first document has a value that passes the plan and start-time gates; the peer's information becomes that value whenever there is one, resolved or not |
| CmPeerTs.ObserveIdempotent | ts/src/cmpeer.ts:161-180 | seeing the same documents twice changes nothing more |
| CmPeerTs.GatesNested | ts/src/cmpeer.ts:172-191 | the start-time wait is stricter than the plan wait, which is stricter than the initial wait; a start time of 0 never passes |
| CmPeerTs.InfoAfter | ts/src/cmpeer.ts:163-167 | after a series of callbacks the peer's information is what it knew or the first document of one of them |
| CmPeerTs.LatestDocumentWins | ts/src/cmpeer.ts:163-167 | the peer's information is the first document of the last callback that had a value |
| CmPeerTs.WaitCoordInfo | ts/src/cmpeer.ts:157-183 | the wait resolves at the first callback that passes the gates, never earlier, and then holds information that passes them; with no such callback it never resolves |
| CmPeerTs.FoundAddressesCount | ts/src/cmpeer.ts:31-39 | at most one address per id, and one for every id exactly when the plan's peer list has them all |
| CmPeerTs.FoundAddressesAppend | ts/src/cmpeer.ts:31-39 | the addresses of two lists of ids are the addresses of each, in order |
| CmPeerTs.FoundAddressesSkip | ts/src/cmpeer.ts:33-36 | an id missing from the plan's peer list is skipped |
| CmPeerTs.FoundAddressesAllListed | ts/src/cmpeer.ts:31-39 | when every id is in the plan's peer list, each gets exactly its peer's `ip:port`, in order |
| CmPeerTs.FoundAddressesMatchRust | ts/src/cmpeer.ts:31-39 | as a set, the addresses pushed are those the Rust peer inserts for the same plan |
| CmPeerTs.ConnectMesh | ts/src/cmpeer.ts:27-41 | without a plan or without an entry for this peer the non-null assertions throw; otherwise the old servers stay in front and the appended ones are the addresses of the listed neighbours |
| CmPeerTs.StartWait | ts/src/cmpeer.ts:49-56 | the peer sleeps exactly when the start time lies ahead, and then until the start time |
| CmPeerTs.StartWaitMatchesRust | ts/src/cmpeer.ts:49-56 | the TypeScript wait equals the Rust peer's wait |
| CmPeerTs.RunWaits | ts/src/cmpeer.ts:70 | the test-duration wait here and the propagation wait of line 115 are the configured seconds in whole milliseconds |
| CmPeerTs.TraceMembers | ts/src/cmpeer.ts:95-121 | the events handed to the callback are exactly the trace's `Emit` steps and the moves exactly its transitions |
| CmPeerTs.StartTraceShape | ts/src/cmpeer.ts:95-121 | `start` emits `BeginTest`, `EndTest`, `Exiting` in that order and moves through `Ready`, `Running`, `Reporting`, `Shutdown` |
| CmPeerTs.Start | ts/src/cmpeer.ts:95-121 | `start` succeeds exactly from `Init` (otherwise the first transition, at line 252, throws); it ends in `Shutdown` with the events and transitions, including those of lines 58 and 75, in source order |
| CmPeerTs.StartTraceLive | ts/src/cmpeer.ts:95-121 | the heartbeat timer, started at line 248 and cleared at line 119, runs through all five states |
| CmPeerTs.StartClimbsLifecycle | ts/src/cmpeer.ts:95-121 | each transition of `start` goes one state up the lifecycle, and the coordinator can see every state while the timer runs |
| CmPeerTs.HeartbeatTick | ts/src/cmpeer.ts:223-234 | a tick writes this peer's current record and the clock under its own id; every other entry is kept, so a document keyed by sender stays so |
| CmPeerTs.TickReachesCoordinator | ts/src/cmpeer.ts:232 | after a tick the coordinator's fold holds exactly this peer's current record under its id |
| CmPeerCm.HeartbeatTickAsWritten | container-mesh/ts/src/cmpeer.ts:178-188 | as written, a tick outside `Init` and `Ready` writes nothing, and otherwise the whole `beats` field becomes this one heartbeat |
| CmPeerCm.SecondWriterErasesFirst | container-mesh/ts/src/cmpeer.ts:186 | as written, when two peers tick one after the other, the first peer's heartbeat is gone |
| CmPeerCm.HeartbeatTick | container-mesh/ts/src/cmpeer.ts:178-188 | corrected: the same gate, and a tick writes this peer's entry of the map as the older peer does |
| CmPeerCm.BothWritersKept | container-mesh/ts/src/cmpeer.ts:186 | corrected: after two peers tick, both heartbeats are in the document |
| CmPeerCm.Observe | container-mesh/ts/src/cmpeer.ts:130-152 | the initial callback and an empty one change nothing; otherwise the first document becomes the peer's information and the wait resolves exactly when it passes the gates |
| CmPeerCm.Valued | container-mesh/ts/src/cmpeer.ts:134-141 | every live-query document has a value |
| CmPeerCm.ObserveMatchesTs | container-mesh/ts/src/cmpeer.ts:127-154 | past the initial callback, the observer behaves as the older library's |
| CmPeerCm.RunWaitsAsWritten | container-mesh/ts/src/cmpeer.ts:66-96 | as written, both waits hand the number of seconds to `setTimeout`, which reads milliseconds |
| CmPeerCm.RunWaitsThousandfoldShort | container-mesh/ts/src/cmpeer.ts:66-96 | as written, both waits are a thousandth of the older library's, and a test of any positive duration ends before its first second |
| CmPeerCm.CmStartAsWritten | container-mesh/ts/src/cmpeer.ts:77-100 | as written, with the test run not awaited, `start` succeeds exactly from `Init` when the run has made both its transitions before the `Reporting` to `Shutdown` transition; otherwise that transition throws |
| CmPeerCm.CmStart | container-mesh/ts/src/cmpeer.ts:77-100 | corrected, with the run awaited: `start` succeeds exactly from `Init` and ends in `Shutdown` |
| CmPeerCm.UnawaitedRunTest | container-mesh/ts/src/cmpeer.ts:94-98 | as written a run that has not yet passed its start-time wait makes `start` throw, where the awaited version succeeds |
| CmPeerCm.CmStartTraceShape | container-mesh/ts/src/cmpeer.ts:77-100 | the corrected `start`, with the transition of line 205, emits the three events and makes the four transitions in lifecycle order |
| CmPeerCm.CmStartTraceLive | container-mesh/ts/src/cmpeer.ts:201-207 | the heartbeat timer is cleared at the end of bootstrap, so it only runs in `Init` and `Ready` |
| CmPeerCm.CmStartMatchesTs | container-mesh/ts/src/cmpeer.ts:77-100 | the corrected `start` ends in the same context with the same events and transitions as the older library's, while its timer only runs in states whose heartbeats are sent |
| Decimal.NatToString | container-mesh/peer/src/consumer.rs:64 | the `to_string` of a slot index is a non-empty run of digits, with two or more digits exactly from 10 up |
| Decimal.ParseNatToString | container-mesh/peer/src/consumer.rs:64 | reading the decimal text back gives the index |
| Decimal.NatToStringInjective | peer/src/producer.rs:47-51 | two indices have the same key exactly when they are equal |
| StrOrder.LexIrreflexive | common/src/graph.rs:40 | no id sorts before itself in `String` order |
| StrOrder.LexAsymmetric | common/src/graph.rs:40 | two ids never sort before each other |
| StrOrder.LexTransitive | common/src/graph.rs:40 | `String` order is transitive |
| StrOrder.LexTotal | common/src/graph.rs:40 | of two distinct ids, one sorts before the other |
| Sorting.SortDesc | common/src/graph.rs:62 | the descending `sort_by` on ids, here and at line 40: a descending permutation of the ids |
| Sorting.SortedDescUnique | common/src/graph.rs:62 | the descending order of a list of ids is unique, so any correct sort gives the same result |

## Left out

- The Ditto SDK is not modelled: stores, collections, subscriptions, live queries, transport configuration, presence, licences, sync start and stop. Only the values it delivers or receives are.
- Threads, mutexes, condition variables, timers and promises are not modelled. Interleavings are reduced to the sequences of values an observer or a flag reading sees, and `sleep` and `setTimeout` become the waits they compute.
- Logging, `println!`, the command-line parsers, report files, output directories, `printReport`, `initTransport` and `initLicense` are left out; they are I/O.
- The plotting scripts and the `index.ts` entry points are left out; they are not part of the peer or coordinator logic.
- Random peer ids and the producer's random message delay are parameters. The model keeps only the `gen_range` panic on an empty delay range.
- Clock readings are parameters. They are taken to be in milliseconds; the consumers that read a microsecond clock are listed below.
- Integers are unbounded. The `u64`/`usize` counters and timestamps are not wrapped at 2^64, and JavaScript numbers are treated as exact integers; these values stay far from the bounds in a test run.
- Consumer.ProcessPeer: the `u64` subtraction `now - ts` for latencies panics in debug builds when a consumed record is stamped after `now`. The Rust consumers' operations require no slot of the log stamped after `now`, which is more than the source needs: a future record the loop never reaches does no harm there. The TypeScript consumer has no such requirement and gives a negative latency.
- RingScan.ScanFrom: the container-mesh consumer's loop never ends on a ring whose sixteen slots all hold one timestamp no older than the cursor. The model runs the loop with fuel `PEER_LOG_SIZE` and proves that the fuel runs out exactly on such a ring. Consumer.ProcessPeer and TsConsumer.ProcessPeer require the ring not to be in that state, rather than modelling the endless loop.
- PeerSets.WaitForPeerStates re-tests the quorum after every single sender is added. The source's condition variable may wake the waiter after several senders, so the model is the finest schedule; the quorum it finds first is a quorum the source can also see.
- Graph.SpanningTreeIsLayout, Graph.SpanningTreeOutSet and Graph.SpanningTreeParent require distinct ids. For inputs with repeats the model still proves the vertex set and the degree bound (Graph.SpanningTreeKeys, Graph.SpanningTreeOutSets).
- `local_attachment_model` (the `LAModel` graph) is not part of this model. Coordinator.GeneratePlan takes its result as a parameter and keeps only the clique-size panic.
- `CONN_GRAPH_MAX_DEGREE` is not defined in any file of this model, and the older coordinator's default plan comes from a crate version that is not part of it. LegacyCoordinator.GeneratePlan takes both as parameters.
- The older `common/src/default.rs` is not modelled; the shared defaults are those of `container-mesh/common/src/default.rs`.
- `container-mesh/ts/src/default.ts` and `util.ts` are not part of this model. The TypeScript `PEER_LOG_SIZE`, `COORD_COLLECTION_NAME` and `REPORT_PROPAGATION_SEC` are taken to equal the Rust constants.
- `ts/src/context.ts`, `types.ts`, `consumer.ts`, `producer.ts`, `default.ts` and `util.ts` are not part of this model. The first TypeScript library is modelled against the container-mesh context and types, with `toSerializedPeer` read as `toPeer`.
- The TypeScript consumer writes `min_usec`, `max_usec` and `avg_usec` fields that `LatencyStats` does not declare, and reads a microsecond clock. The model folds into the declared statistics fields in one time unit.
- Latency.TsFold: folds into the declared `min_msec`, `max_msec` and `avg_msec`. The source (container-mesh/ts/src/consumer.ts:57-62) writes `min_usec`, `max_usec` and `avg_usec`, which `LatencyStats` does not declare. Those fields start `undefined`, so `Math.min` and `Math.max` leave them `NaN`. Only `num_events` of the declared fields changes. The latency also subtracts a `Date.now()` millisecond stamp from a microsecond clock reading. The model keeps the intended fold over one time unit.
- TsConsumer.Stop: returns the model's folded statistics. In the source as written, the declared `min_msec`, `max_msec` and `avg_msec` that `stop` returns are never written. They keep the values of `new LatencyStats()`: `MAX_SAFE_INTEGER`, 0 and 0, whatever was consumed.
- LegacyConsumer.ProcessPeer: folds into the declared `*_msec` statistics with a millisecond clock. The source (peer/src/consumer.rs:48-62) reads `system_time_usec()` and writes `min_usec`, `max_usec` and `avg_usec`. The `common` crate of this model declares only the `*_msec` fields (common/src/types.rs:210-217) and defines only `system_time_msec` (common/src/util.rs:9). The earlier consumer was evidently built against another version of that crate, which is not part of this model.
- TsContext.ToPeer: puts the state in the record's `state` field, the field `Peer` declares and the Rust coordinator reads. The source's `toPeer` (container-mesh/ts/src/context.ts:55) writes it under the key `peer_state`, as the numeric enum value. A heartbeat from the newer TypeScript peer therefore carries no `state` field the coordinator can read, and the model does not show that.
- CmPeerCm.HeartbeatTickAsWritten stamps the heartbeat in milliseconds. The source writes `sent_at_usec` with the clock times 1000, a field `Heartbeat` does not declare.
- The camelCase field names of `CoordinatorInfo` in the newer TypeScript library, against the snake_case names the Rust coordinator writes, are not modelled. The newer observer reads each field with `.value()`; the model takes the values as delivered.
- `ts/src/cmpeer.ts` calls `connectMesh` without `await`. It has no `await` inside and runs to completion before `runTest` continues, so CmPeerTs.ConnectMesh is modelled as a synchronous step.
- The peer-document id fix-up in `getExecutionPlan` is left out; it only re-wraps the id.
- The polling of `getHeartbeatDocId` and the newer library's first-document promise in `startHeartbeat` are left out; the heartbeat document's id is taken as known.
- The test-run report of the newer TypeScript `runTest`, which is built without statistics, is not modelled; CmPeerCm.CmStart models the transitions and events only.
- PeerMain.RunTest takes the consumer's statistics as a parameter; the consumer itself is modelled in `Consumer`. The producer thread is run through `Producer.ProducerLoop`, with its flag readings and send times as parameters.
- MinHeaps: the heap holds `int` items in place of the source's generic `T: Ord`. The proofs use only the total order of the items, so any ordered type behaves the same.
- Non-ASCII peer ids are not modelled separately. Strings are sequences of characters, and Rust's byte-indexed `split_at` is read as character-indexed.
- After `PEER_LOG_SIZE + 1` writes to one log, a fresh container-mesh consumer reads only the newest record, in slot 0: slot 0 is then stamped later than slot 1, and the loop stops there (RingScenarios.FreshScanCounts).

## Findings

| source | as written | input that shows it | evidently intended | confidence | as-written member | corrected member |
|---|---|---|---|---|---|---|
| container-mesh/peer/src/consumer.rs:77-80 | the cursor is stored as `incr_wrap` of the slot that stopped the loop, one past the first unread slot | a peer writes slot 0 at time 1; the first pass stores `(1, 2)`; the peer then writes slot 1 at time 2, which no later pass reads | store the stop slot itself, so that the next pass starts at the first unread slot | high, not executed | Consumer.AsWrittenSkipsNextWrite | Consumer.ProcessPeerFixed |
| container-mesh/ts/src/producer.ts:44-71 | `produce` never increments `msgCount`, so `stop` reports 0 | `start`, one timer firing, `stop`: one record written, 0 reported | count each record written and report the count | high, not executed | TsProducer.StopReportsZero | TsProducer.StopReportsProduced |
| common/src/types.rs:36 | `split_at(4)` is evaluated for the fallback before the `_` split is looked at, and panics when fewer than 4 characters follow `peer` | `peer1_a` | split at `_` first, and fall back to the first 4 characters only when there is no `_` | medium, not executed | Types.ShortPeerStrEagerPanic | Types.ShortPeerStrLazy |
| coordinator/src/main.rs:106 | `HashSet::insert` keeps the stored peer, so a known peer's state never changes and the `Running` wait at lines 314-315 never ends | one peer whose heartbeat reports `Init` and then `Running`, with `min_peers` 1 | `replace`, as the newer coordinator does | high, not executed | LegacyCoordinator.RunningQuorumUnreachable | Coordinator.ProcessHeartbeatUpdates |
| container-mesh/coordinator/src/main.rs:368-370 | the start delay in seconds is added to a clock reading in milliseconds | 40 peers: a 10-second delay becomes a start 10 ms after the clock reading | convert the delay to milliseconds | high, not executed | Coordinator.PlanStartLead | Coordinator.PlanStart |
| container-mesh/ts/src/cmpeer.ts:186 | `mutDoc.at('beats').set(hb)` replaces the whole `beats` field with one heartbeat | two peers in `Init` tick one after the other: only the second peer's heartbeat remains | write the heartbeat under the peer's id, as `ts/src/cmpeer.ts:232` does | high, not executed | CmPeerCm.SecondWriterErasesFirst | CmPeerCm.BothWritersKept |
| container-mesh/ts/src/cmpeer.ts:94-98 | `runTest` is not awaited, so `start` makes the `Reporting` to `Shutdown` transition while the test may still be waiting for its start time | a plan whose start time lies in the future, with callbacks that return at once: the state is still `Ready` at line 98 and the transition throws | `await this.runTest(pctx)`, as `ts/src/cmpeer.ts:112` does | medium, not executed | CmPeerCm.UnawaitedRunTest | CmPeerCm.CmStart |
| container-mesh/ts/src/cmpeer.ts:66-96 | seconds are passed to `setTimeout`, which reads milliseconds | a 60-second test waits 60 ms, and the 2-second report propagation waits 2 ms | multiply by 1000, as `ts/src/cmpeer.ts:70,115` does | high, not executed | CmPeerCm.RunWaitsThousandfoldShort | CmPeerTs.RunWaits |

=== FILE: cm_peer_cm.dfy ===
/** The container-mesh TypeScript peer of container-mesh/ts/src/cmpeer.ts: a heartbeat
    that is sent only while bootstrapping, an observer that ignores the initial
    callback, and the transition order of `bootstrapPeer`, `runTest` and `start`.
    Shared notions (the plan gate, run steps, heartbeat states) come from the
    ts/src/cmpeer.ts model, `CmPeerTs`. */
module CmPeerCm {
  import opened Wrappers
  import opened Types
  import opened TsContext
  import opened CmPeerTs
  import Coordinator

  // ---------------------------------------------------------------------------
  // hb_func

  /** Only a bootstrapping peer sends heartbeats. */
  predicate SendsHeartbeat(s: PeerState) {
    s == Init || s == Ready
  }

  /** The `beats` field of the heartbeat document: the map from peer id to heartbeat
      the coordinator reads, or a single heartbeat stored in its place. */
  datatype BeatsField = PeerMap(beats: map<PeerId, Heartbeat>) | Single(hb: Heartbeat)

  /** `hb_func` as written: outside `Init` and `Ready` nothing is written (`None`);
      otherwise the whole `beats` field is replaced by this peer's heartbeat. */
  function HeartbeatTickAsWritten(c: TsPeerContext, field: BeatsField, nowMsec: nat): (r: Option<BeatsField>)
    ensures r.None? <==> !SendsHeartbeat(c.state)
    ensures r.Some? ==> r.value.Single? && r.value.hb.sender == ToPeer(c) && r.value.hb.sentAtMsec == nowMsec
  {
    if !SendsHeartbeat(c.state) then None
    else Some(Single(Heartbeat(ToPeer(c), nowMsec)))
  }

  /** Two bootstrapping peers share the heartbeat document: after both have written,
      only the later heartbeat is left, and the field is no longer a map keyed by peer,
      so the earlier peer is never seen by the coordinator. */
  lemma SecondWriterErasesFirst(a: TsPeerContext, b: TsPeerContext, field: BeatsField, t1: nat, t2: nat)
    requires a.id != b.id && SendsHeartbeat(a.state) && SendsHeartbeat(b.state)
    ensures var afterA := HeartbeatTickAsWritten(a, field, t1).value;
      var afterB := HeartbeatTickAsWritten(b, afterA, t2).value;
      && !afterB.PeerMap?
      && afterB.hb.sender.peerId == b.id
      && afterB.hb.sender.peerId != a.id
  {
  }

  /** `hb_func` with the write the coordinator expects: the gate as written, then the
      peer's own entry of the `beats` map is set, as in ts/src/cmpeer.ts. */
  function HeartbeatTick(c: TsPeerContext, beats: map<PeerId, Heartbeat>, nowMsec: nat): (r: Option<map<PeerId, Heartbeat>>)
    ensures r.None? <==> !SendsHeartbeat(c.state)
    ensures r.Some? ==> r.value == CmPeerTs.HeartbeatTick(c, beats, nowMsec)
  {
    if !SendsHeartbeat(c.state) then None
    else Some(beats[c.id := Heartbeat(ToPeer(c), nowMsec)])
  }

  /** With the corrected write, two bootstrapping peers both stay visible, each with
      its own heartbeat, and the map stays keyed by sender. */
  lemma BothWritersKept(a: TsPeerContext, b: TsPeerContext, beats: map<PeerId, Heartbeat>, t1: nat, t2: nat)
    requires a.id != b.id && SendsHeartbeat(a.state) && SendsHeartbeat(b.state)
    requires Coordinator.KeyedBySender(beats)
    ensures var afterA := HeartbeatTick(a, beats, t1).value;
      var afterB := HeartbeatTick(b, afterA, t2).value;
      && afterB.Keys == beats.Keys + {a.id, b.id}
      && afterB[a.id] == Heartbeat(ToPeer(a), t1)
      && afterB[b.id] == Heartbeat(ToPeer(b), t2)
      && Coordinator.KeyedBySender(afterB)
  {
  }

  // ---------------------------------------------------------------------------
  // getCoordInfo

  /** An observer callback: whether it is the initial one, and the documents. Fields
      of a document are read one by one, so a document always counts as present. */
  datatype ObserverEvent = ObserverEvent(isInitial: bool, docs: seq<CoordinatorInfo>)

  /** One observer callback of `getCoordInfo`: the initial callback is ignored;
      otherwise the first document becomes the peer's coordinator information, and the
      wait resolves when it passes the plan gate. */
  function Observe(known: Option<CoordinatorInfo>, ev: ObserverEvent, needPlan: bool, needStart: bool): (r: Observed)
    ensures ev.isInitial || |ev.docs| == 0 ==> r == Observed(known, false)
    ensures !ev.isInitial && |ev.docs| > 0 ==> r.info == Some(ev.docs[0])
    ensures r.resolved <==> !ev.isInitial && |ev.docs| > 0 && PlanReady(ev.docs[0], needPlan, needStart)
  {
    if ev.isInitial then Observed(known, false)
    else if |ev.docs| > 0 then Observed(Some(ev.docs[0]), PlanReady(ev.docs[0], needPlan, needStart))
    else Observed(known, false)
  }

  function Valued(docs: seq<CoordinatorInfo>): (r: seq<Option<CoordinatorInfo>>)
    ensures |r| == |docs| && forall i :: 0 <= i < |docs| ==> r[i] == Some(docs[i])
  {
    seq(|docs|, i requires 0 <= i < |docs| => Some(docs[i]))
  }

  /** Apart from the initial callback, this observer behaves as the ts/src/cmpeer.ts
      observer on the same documents: the gate is the same. */
  lemma ObserveMatchesTs(known: Option<CoordinatorInfo>, ev: ObserverEvent, needPlan: bool, needStart: bool)
    requires !ev.isInitial
    ensures Observe(known, ev, needPlan, needStart) == ObserveCoordDocs(known, Valued(ev.docs), needPlan, needStart)
  {
  }

  // ---------------------------------------------------------------------------
  // runTest and start

  /** The waits of `runTest` and `start` as written: the test duration and the report
      propagation delay, both configured in seconds, are handed to `setTimeout` as
      milliseconds. */
  function RunWaitsAsWritten(testDurationSec: nat, propagationSec: nat): (w: Waits)
    ensures w.testMsec == testDurationSec && w.propagationMsec == propagationSec
  {
    Waits(testDurationSec, propagationSec)
  }

  /** A test configured to run `testDurationSec` seconds runs a thousandth of that. */
  lemma RunWaitsThousandfoldShort(testDurationSec: nat, propagationSec: nat)
    ensures RunWaitsAsWritten(testDurationSec, propagationSec).testMsec * 1000
      == RunWaits(testDurationSec, propagationSec).testMsec
    ensures RunWaitsAsWritten(testDurationSec, propagationSec).propagationMsec * 1000
      == RunWaits(testDurationSec, propagationSec).propagationMsec
    ensures testDurationSec > 0 ==> (RunWaitsAsWritten(testDurationSec, propagationSec).testMsec
      < RunWaits(testDurationSec, propagationSec).testMsec)
  {
  }

  /** The steps of `bootstrapPeer`: the heartbeat timer starts once the first
      coordinator document is in, the peer becomes `Ready` once a plan is in, and the
      timer stops once the start time is in. */
  function BootstrapTrace(): seq<Step> {
    [HeartbeatOn, Move(Ready), HeartbeatOff]
  }

  /** The transitions of `runTest`, in order. */
  function RunTestTrace(): seq<Step> {
    [Move(Running), Move(Reporting)]
  }

  /** The steps of a successful `start`. */
  function CmStartTrace(): seq<Step> {
    [HeartbeatOn, Move(Ready), HeartbeatOff, Emit(BeginTest), Move(Running), Move(Reporting),
     Emit(EndTest), Move(Shutdown), Emit(Exiting)]
  }

  /** `start` as written: `runTest` is called without being awaited, so when `start`
      reaches the `Reporting` to `Shutdown` transition only `runTestSteps` of the test's
      two transitions have happened, depending on timing. The transition throws unless
      both have. */
  function CmStartAsWritten(c: TsPeerContext, runTestSteps: nat): (r: Result<Run>)
    requires runTestSteps <= 2
    ensures r.Ok? <==> c.state == Init && runTestSteps == 2
    ensures r.Err? ==> r.error.Thrown?
  {
    var ready :- StateTransition(c, Init, Ready);
    var afterTest := if runTestSteps == 0 then ready
                     else if runTestSteps == 1 then ready.(state := Running)
                     else ready.(state := Reporting);
    var shutdown :- StateTransition(afterTest, Reporting, Shutdown);
    Ok(Run(shutdown, BootstrapTrace() + [Emit(BeginTest)] + RunTestTrace()[..runTestSteps]
                     + [Emit(EndTest), Move(Shutdown), Emit(Exiting)]))
  }

  /** `start` with `runTest` awaited: the same events and transitions as the ts/src
      peer, but the heartbeat timer stops when bootstrapping ends. */
  function CmStart(c: TsPeerContext): (r: Result<Run>)
    ensures r.Ok? <==> c.state == Init
    ensures r.Err? ==> r.error.Thrown?
    ensures r.Ok? ==> r.value.ctx == c.(state := Shutdown)
  {
    var ready :- StateTransition(c, Init, Ready);
    var running := StateTransition(ready, Ready, Running).value;
    var reporting := StateTransition(running, Running, Reporting).value;
    var shutdown := StateTransition(reporting, Reporting, Shutdown).value;
    Ok(Run(shutdown, CmStartTrace()))
  }

  /** When the test finishes before `start` needs it, the run as written is the
      awaited run; when the start time is still ahead, it throws. */
  lemma UnawaitedRunTest(c: TsPeerContext)
    requires c.state == Init
    ensures CmStartAsWritten(c, 2) == CmStart(c)
    ensures CmStartAsWritten(c, 0).Err? && CmStart(c).Ok?
  {
    assert RunTestTrace()[..2] == RunTestTrace();
    assert BootstrapTrace() + [Emit(BeginTest)] + RunTestTrace() + [Emit(EndTest), Move(Shutdown), Emit(Exiting)]
      == CmStartTrace();
  }

  lemma CmStartTraceShape()
    ensures Events(CmStartTrace()) == [BeginTest, EndTest, Exiting]
    ensures Moves(CmStartTrace()) == [Ready, Running, Reporting, Shutdown]
  {
    CmStartTraceEvents();
    CmStartTraceMoves();
  }

  lemma CmStartTraceEvents()
    ensures Events(CmStartTrace()) == [BeginTest, EndTest, Exiting]
  {
  }

  lemma CmStartTraceMoves()
    ensures Moves(CmStartTrace()) == [Ready, Running, Reporting, Shutdown]
  {
  }

  lemma CmStartTraceLive()
    ensures LiveStates(Init, false, CmStartTrace()) == {Init, Ready}
  {
  }

  /** The container-mesh peer tells the application the same events, and moves
      through the same states, as the ts/src peer; but its heartbeats only ever report
      `Init` and `Ready`, so the gate of `hb_func` never has to refuse a tick. */
  lemma CmStartMatchesTs(c: TsPeerContext)
    requires c.state == Init
    ensures CmStart(c).value.ctx == Start(c).value.ctx
    ensures Events(CmStart(c).value.trace) == Events(Start(c).value.trace)
    ensures Moves(CmStart(c).value.trace) == Moves(Start(c).value.trace)
    ensures LiveStates(c.state, false, CmStart(c).value.trace) == {Init, Ready}
    ensures forall s :: s in LiveStates(c.state, false, CmStart(c).value.trace) ==> SendsHeartbeat(s)
  {
    TracesOfStart(c);
    CmStartTraceShape();
    CmStartTraceLive();
    StartTraceShape();
  }

  /** Both runs succeed from `Init`, each with its own trace. */
  lemma TracesOfStart(c: TsPeerContext)
    requires c.state == Init
    ensures CmStart(c).Ok? && CmStart(c).value.trace == CmStartTrace()
    ensures Start(c).Ok? && Start(c).value.trace == StartTrace()
  {
  }
}

=== FILE: cm_peer_ts.dfy ===
/** The TypeScript peer library of ts/src/cmpeer.ts: the coordinator-document observer
    behind `getCoordInfo`, `connectMesh`, the start-time wait of `runTest`, the order of
    events and state transitions in `start`, and the heartbeat write of `hb_func`.
    The Ditto store, timers and callbacks are replaced by their inputs: observer
    callbacks are sequences of document values, the clock is a parameter, and a run of
    `start` is described by the steps it takes. */
module CmPeerTs {
  import opened Wrappers
  import opened Types
  import opened TsContext
  import TsTypes
  import Graph
  import PeerMain
  import PeerSets
  import Coordinator

  datatype CmeshEvent = BeginTest | EndTest | Exiting

  // ---------------------------------------------------------------------------
  // getCoordInfo

  /** The gate of `getCoordInfo` on a coordinator document: a plan when one is needed,
      and a start time when one is needed, where a start time of 0 counts as absent. */
  predicate PlanReady(info: CoordinatorInfo, needPlan: bool, needStart: bool) {
    && ((needPlan || needStart) ==> info.executionPlan.Some?)
    && (needStart ==> info.executionPlan.Some? && info.executionPlan.value.startTime != 0)
  }

  /** Whether one observer callback, given the collection's documents (`None` for a
      document without a value), resolves the wait. */
  predicate Resolves(docs: seq<Option<CoordinatorInfo>>, needPlan: bool, needStart: bool) {
    |docs| > 0 && docs[0].Some? && PlanReady(docs[0].value, needPlan, needStart)
  }

  datatype Observed = Observed(info: Option<CoordinatorInfo>, resolved: bool)

  /** One observer callback: the peer's coordinator information becomes the first
      document whenever that document has a value, whether or not the wait resolves. */
  function ObserveCoordDocs(known: Option<CoordinatorInfo>, docs: seq<Option<CoordinatorInfo>>,
                            needPlan: bool, needStart: bool): (r: Observed)
    ensures r.resolved <==> Resolves(docs, needPlan, needStart)
    ensures |docs| > 0 && docs[0].Some? ==> r.info == docs[0]
    ensures !(|docs| > 0 && docs[0].Some?) ==> r.info == known
  {
    if |docs| == 0 || docs[0].None? then Observed(known, false)
    else Observed(docs[0], PlanReady(docs[0].value, needPlan, needStart))
  }

  /** A callback depends on the documents only: seeing the same documents again changes
      nothing. */
  lemma ObserveIdempotent(known: Option<CoordinatorInfo>, docs: seq<Option<CoordinatorInfo>>,
                          needPlan: bool, needStart: bool)
    ensures var o := ObserveCoordDocs(known, docs, needPlan, needStart);
      ObserveCoordDocs(o.info, docs, needPlan, needStart) == o
  {
  }

  /** The three waits of bootstrapping are ever stricter: a document that satisfies the
      start-time wait satisfies the plan wait, which satisfies the initial wait; and a
      plan whose start time is 0 never satisfies the start-time wait. */
  lemma GatesNested(docs: seq<Option<CoordinatorInfo>>)
    ensures Resolves(docs, true, true) ==> Resolves(docs, true, false)
    ensures Resolves(docs, true, false) ==> Resolves(docs, false, false)
    ensures Resolves(docs, false, false) <==> |docs| > 0 && docs[0].Some?
    ensures (|docs| > 0 && docs[0].Some? && docs[0].value.executionPlan.Some?
             && docs[0].value.executionPlan.value.startTime == 0) ==> !Resolves(docs, true, true)
  {
  }

  /** The coordinator information the peer holds after the callbacks `events`. */
  function InfoAfter(known: Option<CoordinatorInfo>, events: seq<seq<Option<CoordinatorInfo>>>): (r: Option<CoordinatorInfo>)
    ensures r == known || exists k :: 0 <= k < |events| && |events[k]| > 0 && r == events[k][0]
    decreases |events|
  {
    if |events| == 0 then known
    else
      var prev := InfoAfter(known, events[..|events| - 1]);
      ObserveCoordDocs(prev, events[|events| - 1], false, false).info
  }

  /** The last callback whose first document has a value decides what the peer holds. */
  lemma {:induction false} LatestDocumentWins(known: Option<CoordinatorInfo>, events: seq<seq<Option<CoordinatorInfo>>>, k: nat)
    requires k < |events| && |events[k]| > 0 && events[k][0].Some?
    requires forall j :: k < j < |events| ==> |events[j]| == 0 || events[j][0].None?
    ensures InfoAfter(known, events) == events[k][0]
    decreases |events|
  {
    if k < |events| - 1 {
      var init := events[..|events| - 1];
      assert forall j :: k < j < |init| ==> init[j] == events[j];
      LatestDocumentWins(known, init, k);
    }
  }

  /** `getCoordInfo`: feed the callbacks to the observer until one resolves the wait.
      `at` is the index of that callback, or `None` when none of them does. */
  method WaitCoordInfo(known: Option<CoordinatorInfo>, events: seq<seq<Option<CoordinatorInfo>>>,
                       needPlan: bool, needStart: bool)
    returns (info: Option<CoordinatorInfo>, at: Option<nat>)
    ensures at.Some? ==> at.value < |events| && Resolves(events[at.value], needPlan, needStart)
    ensures at.Some? ==> forall k :: 0 <= k < at.value ==> !Resolves(events[k], needPlan, needStart)
    ensures at.None? ==> forall k :: 0 <= k < |events| ==> !Resolves(events[k], needPlan, needStart)
    ensures info == InfoAfter(known, if at.Some? then events[..at.value + 1] else events)
    ensures at.Some? ==> info.Some? && PlanReady(info.value, needPlan, needStart)
  {
    info := known;
    var j := 0;
    while j < |events|
      invariant j <= |events|
      invariant info == InfoAfter(known, events[..j])
      invariant forall k :: 0 <= k < j ==> !Resolves(events[k], needPlan, needStart)
    {
      var o := ObserveCoordDocs(info, events[j], needPlan, needStart);
      assert events[..j + 1][..j] == events[..j];
      info := o.info;
      if o.resolved {
        at := Some(j);
        return;
      }
      j := j + 1;
    }
    assert events[..j] == events;
    at := None;
  }

  // ---------------------------------------------------------------------------
  // connectMesh

  /** The endpoints for the listed peer ids, in order, skipping ids the plan's peer list
      does not have. */
  function FoundAddresses(peers: seq<Peer>, pids: seq<PeerId>): seq<string>
    decreases |pids|
  {
    if |pids| == 0 then []
    else
      var rest := FoundAddresses(peers, pids[..|pids| - 1]);
      match FindPeer(peers, pids[|pids| - 1])
      case None => rest
      case Some(p) => rest + [Address(p)]
  }

  /** At most one endpoint per id, and one for every id exactly when the plan lists them all. */
  lemma {:induction false} FoundAddressesCount(peers: seq<Peer>, pids: seq<PeerId>)
    ensures |FoundAddresses(peers, pids)| <= |pids|
    ensures |FoundAddresses(peers, pids)| == |pids| <==> forall i :: 0 <= i < |pids| ==> FindPeer(peers, pids[i]).Some?
    decreases |pids|
  {
    if |pids| > 0 {
      var init := pids[..|pids| - 1];
      assert forall i :: 0 <= i < |init| ==> init[i] == pids[i];
      FoundAddressesCount(peers, init);
    }
  }

  lemma {:induction false} FoundAddressesAppend(peers: seq<Peer>, a: seq<PeerId>, b: seq<PeerId>)
    ensures FoundAddresses(peers, a + b) == FoundAddresses(peers, a) + FoundAddresses(peers, b)
    decreases |b|
  {
    if |b| == 0 {
      assert a + b == a;
    } else {
      var b' := b[..|b| - 1];
      assert (a + b)[..|a + b| - 1] == a + b';
      assert (a + b)[|a + b| - 1] == b[|b| - 1];
      FoundAddressesAppend(peers, a, b');
    }
  }

  /** An id the plan does not list contributes nothing: it is skipped, not an error. */
  lemma FoundAddressesSkip(peers: seq<Peer>, a: seq<PeerId>, pid: PeerId, b: seq<PeerId>)
    requires FindPeer(peers, pid).None?
    ensures FoundAddresses(peers, a + [pid] + b) == FoundAddresses(peers, a + b)
  {
    FoundAddressesAppend(peers, a + [pid], b);
    FoundAddressesAppend(peers, a, [pid]);
    FoundAddressesAppend(peers, a, b);
    assert [pid][..0] == [];
  }

  /** When every id is found, the i-th endpoint belongs to the i-th id. */
  lemma {:induction false} FoundAddressesAllListed(peers: seq<Peer>, pids: seq<PeerId>)
    requires forall i :: 0 <= i < |pids| ==> FindPeer(peers, pids[i]).Some?
    ensures |FoundAddresses(peers, pids)| == |pids|
    ensures forall i :: 0 <= i < |pids| ==> FoundAddresses(peers, pids)[i] == Address(FindPeer(peers, pids[i]).value)
    decreases |pids|
  {
    if |pids| > 0 {
      var init := pids[..|pids| - 1];
      assert forall i :: 0 <= i < |init| ==> init[i] == pids[i];
      FoundAddressesAllListed(peers, init);
      FoundAddressesCount(peers, pids);
    }
  }

  /** As a set, the TypeScript peer dials exactly the endpoints the Rust peer's
      `connect_mesh` adds for the same targets. */
  lemma {:induction false} FoundAddressesMatchRust(peers: seq<Peer>, pids: seq<PeerId>)
    ensures Graph.Elems(FoundAddresses(peers, pids)) == PeerMain.ListedAddresses(peers, Graph.Elems(pids))
    decreases |pids|
  {
    if |pids| > 0 {
      var init := pids[..|pids| - 1];
      var last := pids[|pids| - 1];
      assert pids == init + [last];
      FoundAddressesMatchRust(peers, init);
      assert Graph.Elems(pids) == Graph.Elems(init) + {last};
      assert PeerMain.ListedAddresses(peers, Graph.Elems(init) + {last})
        == PeerMain.ListedAddresses(peers, Graph.Elems(init)) + PeerMain.ListedAddresses(peers, {last});
    }
  }

  /** The plan the context holds, if any. */
  function Plan(c: TsPeerContext): Option<ExecutionPlan> {
    if c.coordInfo.Some? then c.coordInfo.value.executionPlan else None
  }

  /** `connectMesh`: the transport's server list gains the endpoints of the peers the
      plan's graph links this peer to. Reading a missing plan, or iterating the missing
      entry of a peer the graph does not name, throws a TypeError. `listed` is the
      stored order of the peer's entry in the graph. */
  function ConnectMesh(c: TsPeerContext, servers: seq<string>, listed: seq<PeerId>): (r: Result<seq<string>>)
    requires Plan(c).Some? && c.id in Plan(c).value.connections ==>
      forall p :: p in listed <==> p in Plan(c).value.connections[c.id]
    ensures r.Err? <==> Plan(c).None? || c.id !in Plan(c).value.connections
    ensures r.Err? ==> r.error.Thrown?
    ensures r.Ok? ==> |r.value| >= |servers| && r.value[..|servers|] == servers
    ensures r.Ok? ==> (Graph.Elems(r.value[|servers|..])
      == PeerMain.ListedAddresses(Plan(c).value.peers, Plan(c).value.connections[c.id]))
  {
    match Plan(c)
    case None => Err(Thrown("TypeError: Cannot read properties of undefined"))
    case Some(plan) =>
      if c.id !in plan.connections then Err(Thrown("TypeError: peersToConnect is not iterable"))
      else
        var added := FoundAddresses(plan.peers, listed);
        FoundAddressesMatchRust(plan.peers, listed);
        assert Graph.Elems(listed) == plan.connections[c.id];
        assert (servers + added)[|servers|..] == added;
        Ok(servers + added)
  }

  // ---------------------------------------------------------------------------
  // runTest

  /** The start-time wait: `start_time - now` milliseconds when that is positive,
      otherwise none. Both readings are JavaScript numbers and may be in any order. */
  function StartWait(startTime: int, nowMsec: int): (waitMsec: nat)
    ensures waitMsec > 0 <==> startTime > nowMsec
    ensures waitMsec > 0 ==> nowMsec + waitMsec == startTime
  {
    var delay := startTime - nowMsec;
    if delay > 0 then delay else 0
  }

  /** The TypeScript and Rust peers wait equally long for the start time. */
  lemma StartWaitMatchesRust(startTime: nat, nowMsec: nat)
    ensures StartWait(startTime, nowMsec) == PeerMain.StartWait(startTime, nowMsec)
  {
  }

  datatype Waits = Waits(testMsec: nat, propagationMsec: nat)

  /** The two timed waits of a run, in milliseconds: the test duration and the report
      propagation delay, both configured in seconds. */
  function RunWaits(testDurationSec: nat, propagationSec: nat): (w: Waits)
    ensures w.testMsec % 1000 == 0 && w.testMsec / 1000 == testDurationSec
    ensures w.propagationMsec % 1000 == 0 && w.propagationMsec / 1000 == propagationSec
  {
    Waits(testDurationSec * 1000, propagationSec * 1000)
  }

  // ---------------------------------------------------------------------------
  // start

  /** A step of a run: an event handed to the application's callback, a lifecycle
      transition, or the heartbeat timer starting or stopping. */
  datatype Step = Emit(event: CmeshEvent) | Move(to: PeerState) | HeartbeatOn | HeartbeatOff

  datatype Run = Run(ctx: TsPeerContext, trace: seq<Step>)

  /** The events a trace hands to the callback, in order. */
  function Events(trace: seq<Step>): seq<CmeshEvent> {
    if |trace| == 0 then []
    else (if trace[0].Emit? then [trace[0].event] else []) + Events(trace[1..])
  }

  /** The states a trace moves to, in order. */
  function Moves(trace: seq<Step>): seq<PeerState> {
    if |trace| == 0 then []
    else (if trace[0].Move? then [trace[0].to] else []) + Moves(trace[1..])
  }

  /** The events are exactly the trace's `Emit` steps and the moves exactly its `Move`
      steps. */
  lemma {:induction false} TraceMembers(trace: seq<Step>)
    ensures |Events(trace)| <= |trace| && |Moves(trace)| <= |trace|
    ensures forall e :: e in Events(trace) <==> Emit(e) in trace
    ensures forall s :: s in Moves(trace) <==> Move(s) in trace
    decreases |trace|
  {
    if |trace| > 0 {
      TraceMembers(trace[1..]);
      assert trace == [trace[0]] + trace[1..];
    }
  }

  /** The states a peer starting in `s`, with the heartbeat timer running iff `on`, holds
      at some point while the timer runs: the states its heartbeats can report. */
  function LiveStates(s: PeerState, on: bool, trace: seq<Step>): set<PeerState>
    decreases |trace|
  {
    (if on then {s} else {}) +
    if |trace| == 0 then {}
    else
      match trace[0]
      case Emit(_) => LiveStates(s, on, trace[1..])
      case Move(t) => LiveStates(t, on, trace[1..])
      case HeartbeatOn => LiveStates(s, true, trace[1..])
      case HeartbeatOff => LiveStates(s, false, trace[1..])
  }

  /** The steps of a successful run of `start`. */
  function StartTrace(): seq<Step> {
    [HeartbeatOn, Move(Ready), Emit(BeginTest), Move(Running), Move(Reporting),
     Emit(EndTest), Move(Shutdown), Emit(Exiting), HeartbeatOff]
  }

  lemma StartTraceShape()
    ensures Events(StartTrace()) == [BeginTest, EndTest, Exiting]
    ensures Moves(StartTrace()) == [Ready, Running, Reporting, Shutdown]
  {
    StartTraceEvents();
    StartTraceMoves();
  }

  lemma StartTraceEvents()
    ensures Events(StartTrace()) == [BeginTest, EndTest, Exiting]
  {
  }

  lemma StartTraceMoves()
    ensures Moves(StartTrace()) == [Ready, Running, Reporting, Shutdown]
  {
  }

  /** `start`, with `bootstrapPeer` and `runTest` inlined: the heartbeat timer starts
      during bootstrap, the peer becomes `Ready` once it has a plan, and then runs the
      test to `Shutdown`, telling the application before the test, after it, and before
      cleaning up. Only the first transition can fail: each later one starts from the
      state the one before left. */
  function Start(c: TsPeerContext): (r: Result<Run>)
    ensures r.Ok? <==> c.state == Init
    ensures r.Err? ==> r.error.Thrown?
    ensures r.Ok? ==> r.value.ctx == c.(state := Shutdown)
    ensures r.Ok? ==> Events(r.value.trace) == [BeginTest, EndTest, Exiting]
    ensures r.Ok? ==> Moves(r.value.trace) == [Ready, Running, Reporting, Shutdown]
  {
    var ready :- StateTransition(c, Init, Ready);
    var running := StateTransition(ready, Ready, Running).value;
    var reporting := StateTransition(running, Running, Reporting).value;
    var shutdown := StateTransition(reporting, Reporting, Shutdown).value;
    StartTraceShape();
    Ok(Run(shutdown, StartTrace()))
  }

  /** Heartbeat states of a successful run: the timer runs from `Init` to the end. */
  lemma StartTraceLive()
    ensures LiveStates(Init, false, StartTrace()) == {Init, Ready, Running, Reporting, Shutdown}
  {
  }

  /** Each transition of a run moves one step up the lifecycle order, and every state
      of the lifecycle can be reported by heartbeats, since the timer runs in each of them. */
  lemma StartClimbsLifecycle(c: TsPeerContext)
    requires c.state == Init
    ensures var ms := Moves(Start(c).value.trace);
      && TsTypes.Ordinal(ms[0]) == TsTypes.Ordinal(c.state) + 1
      && forall i :: 0 < i < |ms| ==> TsTypes.Ordinal(ms[i]) == TsTypes.Ordinal(ms[i - 1]) + 1
    ensures LiveStates(c.state, false, Start(c).value.trace) == {Init, Ready, Running, Reporting, Shutdown}
  {
    StartTraceOf(c);
    StartTraceShape();
    StartTraceLive();
    var ms := Moves(StartTrace());
    assert ms == [Ready, Running, Reporting, Shutdown];
    OrdinalsClimb();
  }

  lemma StartTraceOf(c: TsPeerContext)
    requires c.state == Init
    ensures Start(c).Ok? && Start(c).value.trace == StartTrace()
  {
  }

  lemma OrdinalsClimb()
    ensures var ms := [Ready, Running, Reporting, Shutdown];
      && TsTypes.Ordinal(ms[0]) == TsTypes.Ordinal(Init) + 1
      && forall i :: 0 < i < |ms| ==> TsTypes.Ordinal(ms[i]) == TsTypes.Ordinal(ms[i - 1]) + 1
  {
  }

  // ---------------------------------------------------------------------------
  // hb_func

  /** `hb_func`: on every tick, whatever the state, the peer's own entry of the
      heartbeat document's `beats` map is set to a fresh heartbeat. */
  function HeartbeatTick(c: TsPeerContext, beats: map<PeerId, Heartbeat>, nowMsec: nat): (r: map<PeerId, Heartbeat>)
    ensures r.Keys == beats.Keys + {c.id}
    ensures r[c.id].sender == ToPeer(c) && r[c.id].sentAtMsec == nowMsec
    ensures forall id :: id in beats && id != c.id ==> r[id] == beats[id]
    ensures Coordinator.KeyedBySender(beats) ==> Coordinator.KeyedBySender(r)
  {
    beats[c.id := Heartbeat(ToPeer(c), nowMsec)]
  }

  /** What the coordinator learns from the heartbeat document after a tick: this peer,
      in its current state, and nothing else changes. */
  lemma TickReachesCoordinator(c: TsPeerContext, beats: map<PeerId, Heartbeat>, nowMsec: nat,
                               s: PeerSets.PeerSet, order: seq<PeerId>)
    requires Coordinator.KeyedBySender(beats) && Types.Enumerates(order, HeartbeatTick(c, beats, nowMsec))
    ensures var after := Coordinator.ProcessHeartbeat(s, HeartbeatTick(c, beats, nowMsec), order);
      && c.id in after && after[c.id] == ToPeer(c) && after[c.id].state == c.state
  {
    Coordinator.ProcessHeartbeatUpdates(s, HeartbeatTick(c, beats, nowMsec), order);
  }
}

=== FILE: consumer.dfy ===
/** The Rust consumer of container-mesh/peer/src/consumer.rs: one cursor per remote peer
    into that peer's ring log, and the latency statistics of every record consumed.
    The clock reading `now` is a parameter; the subscription and live query are left out. */
module Consumer {
  import opened Wrappers
  import opened Types
  import opened RingScan
  import opened Latency

  /** Timestamp of the last record consumed from a peer, and the index to read next. */
  datatype Cursor = Cursor(ts: nat, idx: nat)

  datatype PeerConsumer = PeerConsumer(localId: PeerId, cursors: map<PeerId, Cursor>, tally: Tally)

  /** `PeerConsumer::new`: no cursors, fresh statistics, zero total. */
  function NewConsumer(localId: PeerId): (c: PeerConsumer)
    ensures c.localId == localId && c.cursors == map[]
    ensures c.tally.total == 0 && c.tally.stats == NewLatencyStats()
  {
    PeerConsumer(localId, map[], Tally(NewLatencyStats(), 0))
  }

  ghost predicate CursorsInRange(c: PeerConsumer) {
    forall p :: p in c.cursors ==> c.cursors[p].idx < N
  }

  /** `get_ts_idx`: the stored cursor, or `(0, 0)` for a peer not seen yet. */
  function GetTsIdx(c: PeerConsumer, id: PeerId): (r: Cursor)
    ensures id in c.cursors ==> r == c.cursors[id]
    ensures id !in c.cursors ==> r == Cursor(0, 0)
  {
    if id in c.cursors then c.cursors[id] else Cursor(0, 0)
  }

  /** `set_consumed_ts_idx`: stores the timestamp with the index AFTER `i`. */
  function SetConsumedTsIdx(c: PeerConsumer, id: PeerId, ts: nat, i: nat, maxI: nat): (r: PeerConsumer)
    ensures GetTsIdx(r, id) == Cursor(ts, IncrWrap(i, maxI))
    ensures forall p :: p != id ==> GetTsIdx(r, p) == GetTsIdx(c, p)
    ensures r.cursors.Keys == c.cursors.Keys + {id}
    ensures r.localId == c.localId && r.tally == c.tally
  {
    c.(cursors := c.cursors[id := Cursor(ts, IncrWrap(i, maxI))])
  }

  /** No slot of the ring holds a record stamped after `now`; the source subtracts
      `now - timestamp` in `u64`. */
  ghost predicate RingNotAfter(ring: Ring, now: nat) {
    forall j :: 0 <= j < N ==> SlotTs(ring, j) <= now
  }

  lemma ConsumedNotAfter(ring: Ring, ts: nat, i: nat, recs: seq<PeerRecord>, now: nat)
    requires ConsumedRun(ring, ts, i, recs) && RingNotAfter(ring, now)
    ensures forall m :: 0 <= m < |recs| ==> recs[m].timestamp <= now
  {
    forall m | 0 <= m < |recs|
      ensures recs[m].timestamp <= now
    {
      assert ring[Slot(i, m)] == Some(recs[m]);
      assert SlotTs(ring, Slot(i, m)) <= now;
    }
  }

  /** What `process_peer` may be called on: the cursor is a slot index, no record is from
      the future, and the ring is not one the source's loop never leaves. */
  ghost predicate CanProcess(c: PeerConsumer, id: PeerId, log: PeerLog, now: nat) {
    && GetTsIdx(c, id).idx < N
    && RingNotAfter(RingOf(log), now)
    && !Saturated(RingOf(log), GetTsIdx(c, id).ts)
  }

  /** The records `process_peer` consumes from `log` for `id`. */
  function ConsumedWalk(c: PeerConsumer, id: PeerId, log: PeerLog, now: nat): (w: Walk)
    requires CanProcess(c, id, log, now)
    ensures w == Consume(RingOf(log), GetTsIdx(c, id).ts, GetTsIdx(c, id).idx)
    ensures forall m :: 0 <= m < |w.consumed| ==> w.consumed[m].timestamp <= now
  {
    var cur := GetTsIdx(c, id);
    var w := Consume(RingOf(log), cur.ts, cur.idx);
    ConsumedNotAfter(RingOf(log), cur.ts, cur.idx, w.consumed, now);
    w
  }

  /** The cursor `process_peer` stores after a walk, as written: the timestamp of the last
      record consumed and the index one PAST the slot that stopped the loop. */
  function StoredCursor(w: Walk): (cur: Cursor)
    requires w.stop < N
    ensures cur.idx < N && cur.ts == w.ts
  {
    IncrWrapIsSuccessorMod(w.stop, N - 1);
    Cursor(w.ts, IncrWrap(w.stop, N - 1))
  }

  /** `process_peer`: consume the run of new records from the cursor on, fold each
      record's latency into the statistics, and store the cursor. */
  function ProcessPeer(c: PeerConsumer, id: PeerId, log: PeerLog, now: nat): (r: PeerConsumer)
    requires CanProcess(c, id, log, now)
    ensures var w := ConsumedWalk(c, id, log, now);
      && WalkFrom(RingOf(log), GetTsIdx(c, id).ts, GetTsIdx(c, id).idx, w)
      && GetTsIdx(r, id) == StoredCursor(w)
      && GetTsIdx(r, id).idx < N
      && r.tally == FoldAll(c.tally, Latencies(w.consumed, now))
    ensures forall p :: p != id ==> GetTsIdx(r, p) == GetTsIdx(c, p)
    ensures r.cursors.Keys == c.cursors.Keys + {id}
    ensures r.localId == c.localId
    ensures r.tally.stats.numEvents >= c.tally.stats.numEvents
  {
    var w := ConsumedWalk(c, id, log, now);
    SetConsumedTsIdx(c.(tally := FoldAll(c.tally, Latencies(w.consumed, now))), id, w.ts, w.stop, N - 1)
  }

  /** Processing never takes a cursor out of the ring. */
  lemma ProcessPeerKeepsCursorsInRange(c: PeerConsumer, id: PeerId, log: PeerLog, now: nat)
    requires CanProcess(c, id, log, now) && CursorsInRange(c)
    ensures CursorsInRange(ProcessPeer(c, id, log, now))
  {
    var r := ProcessPeer(c, id, log, now);
    forall p | p in r.cursors
      ensures r.cursors[p].idx < N
    {
      assert GetTsIdx(r, p) == r.cursors[p];
    }
  }

  /** Every remote log of a document can be processed from the consumer's cursors. */
  ghost predicate CanProcessDoc(c: PeerConsumer, logs: map<PeerId, PeerLog>, now: nat) {
    forall p :: p in logs && p != c.localId ==> CanProcess(c, p, logs[p], now)
  }

  /** Processing one peer leaves every other peer processable. */
  lemma ProcessPeerKeepsOthers(c: PeerConsumer, id: PeerId, logs: map<PeerId, PeerLog>, now: nat)
    requires id in logs && id != c.localId
    requires CanProcessDoc(c, logs, now)
    ensures CanProcessDoc(ProcessPeer(c, id, logs[id], now), logs, now)
  {
    var c1 := ProcessPeer(c, id, logs[id], now);
    forall p | p in logs && p != c1.localId && p != id
      ensures CanProcess(c1, p, logs[p], now)
    {
      assert GetTsIdx(c1, p) == GetTsIdx(c, p);
    }
  }

  /** `process_peer_doc`: process each peer's log in `order`, skipping our own. */
  function ProcessPeerDoc(c: PeerConsumer, logs: map<PeerId, PeerLog>, order: seq<PeerId>, now: nat): (r: PeerConsumer)
    requires forall k :: k in order ==> k in logs
    requires CanProcessDoc(c, logs, now)
    ensures r.localId == c.localId
    ensures r.tally.stats.numEvents >= c.tally.stats.numEvents
    decreases |order|
  {
    if |order| == 0 then c
    else if order[0] == c.localId then ProcessPeerDoc(c, logs, order[1..], now)
    else
      ProcessPeerKeepsOthers(c, order[0], logs, now);
      ProcessPeerDoc(ProcessPeer(c, order[0], logs[order[0]], now), logs, order[1..], now)
  }

  /** The cursor processing leaves for `p`, from cursor `cur` on log `log`. */
  ghost function NextCursor(cur: Cursor, log: PeerLog): Cursor
    requires cur.idx < N && !Saturated(RingOf(log), cur.ts)
  {
    StoredCursor(Consume(RingOf(log), cur.ts, cur.idx))
  }

  lemma OrderTail(order: seq<PeerId>)
    requires |order| > 0
    requires forall a, b :: 0 <= a < b < |order| ==> order[a] != order[b]
    ensures forall p :: p in order <==> p == order[0] || p in order[1..]
    ensures order[0] !in order[1..]
  {
    assert order == [order[0]] + order[1..];
  }

  /** After a document the consumer holds a cursor for every remote peer it mentions, and
      our own cursor and the peers it does not mention keep theirs. */
  lemma {:induction false} ProcessPeerDocFrame(c: PeerConsumer, logs: map<PeerId, PeerLog>, order: seq<PeerId>, now: nat)
    requires forall k :: k in order ==> k in logs
    requires forall a, b :: 0 <= a < b < |order| ==> order[a] != order[b]
    requires CanProcessDoc(c, logs, now)
    ensures ProcessPeerDoc(c, logs, order, now).cursors.Keys == c.cursors.Keys + (set p | p in order && p != c.localId)
    ensures forall p :: p !in order || p == c.localId ==> GetTsIdx(ProcessPeerDoc(c, logs, order, now), p) == GetTsIdx(c, p)
    decreases |order|
  {
    if |order| > 0 {
      var id := order[0];
      OrderTail(order);
      if id == c.localId {
        ProcessPeerDocFrame(c, logs, order[1..], now);
      } else {
        ProcessPeerKeepsOthers(c, id, logs, now);
        ProcessPeerDocFrame(ProcessPeer(c, id, logs[id], now), logs, order[1..], now);
      }
    }
  }

  /** After a document, each remote peer's cursor is where processing that peer's log
      alone from its old cursor leaves it, whatever the iteration order. */
  lemma {:induction false} ProcessPeerDocCursors(c: PeerConsumer, logs: map<PeerId, PeerLog>, order: seq<PeerId>, now: nat)
    requires forall k :: k in order ==> k in logs
    requires forall a, b :: 0 <= a < b < |order| ==> order[a] != order[b]
    requires CanProcessDoc(c, logs, now)
    ensures forall p :: p in order && p != c.localId ==>
      GetTsIdx(ProcessPeerDoc(c, logs, order, now), p) == NextCursor(GetTsIdx(c, p), logs[p])
    decreases |order|
  {
    if |order| > 0 {
      var id := order[0];
      OrderTail(order);
      if id == c.localId {
        ProcessPeerDocCursors(c, logs, order[1..], now);
      } else {
        var c1 := ProcessPeer(c, id, logs[id], now);
        ProcessPeerKeepsOthers(c, id, logs, now);
        ProcessPeerDocCursors(c1, logs, order[1..], now);
        ProcessPeerDocFrame(c1, logs, order[1..], now);
        var r := ProcessPeerDoc(c1, logs, order[1..], now);
        assert GetTsIdx(r, id) == NextCursor(GetTsIdx(c, id), logs[id]);
        forall p | p in order[1..] && p != c.localId
          ensures GetTsIdx(r, p) == NextCursor(GetTsIdx(c, p), logs[p])
        {
          assert GetTsIdx(c1, p) == GetTsIdx(c, p);
        }
      }
    }
  }

  /** `get_message_latency`: the statistics, with the number of peers holding a cursor. */
  function GetMessageLatency(c: PeerConsumer): (s: LatencyStats)
    ensures s.distinctPeers == |c.cursors|
    ensures s.numEvents == c.tally.stats.numEvents && s.avgMsec == c.tally.stats.avgMsec
    ensures s.minMsec == c.tally.stats.minMsec && s.maxMsec == c.tally.stats.maxMsec
  {
    c.tally.stats.(distinctPeers := |c.cursors|)
  }

  /** A fresh consumer that processes a document counts every peer but itself as seen. */
  lemma FreshDocDistinctPeers(localId: PeerId, logs: map<PeerId, PeerLog>, order: seq<PeerId>, now: nat)
    requires Enumerates(order, logs)
    requires CanProcessDoc(NewConsumer(localId), logs, now)
    ensures GetMessageLatency(ProcessPeerDoc(NewConsumer(localId), logs, order, now)).distinctPeers
            == |logs.Keys - {localId}|
  {
    ProcessPeerDocFrame(NewConsumer(localId), logs, order, now);
    var r := ProcessPeerDoc(NewConsumer(localId), logs, order, now);
    assert r.cursors.Keys == logs.Keys - {localId};
  }

  // The stored cursor skips a slot. The loop stops AT the first slot that fails (empty, or
  // older than the last record), so that slot is where the producer's next record lands;
  // storing the index after it makes the next pass start one slot too far.

  /** A log of records under the keys of the slots in `slots`. */
  ghost predicate OnlySlots(log: PeerLog, slots: set<nat>) {
    forall j :: 0 <= j < N && Key(j) in log ==> j in slots
  }

  /** Logs holding records in slot 0 only, and in slots 0 and 1. */
  function OneRecordLog(rec0: PeerRecord): PeerLog {
    map[Key(0) := rec0]
  }

  function TwoRecordLog(rec0: PeerRecord, rec1: PeerRecord): PeerLog {
    map[Key(0) := rec0, Key(1) := rec1]
  }

  lemma SingleRecordRing(rec: PeerRecord)
    ensures RingOf(OneRecordLog(rec))[0] == Some(rec)
    ensures forall j :: 0 < j < N ==> RingOf(OneRecordLog(rec))[j] == None
  {
    forall j | 0 < j < N
      ensures RingOf(OneRecordLog(rec))[j] == None
    {
      KeyInjective(j, 0);
    }
  }

  lemma TwoRecordRing(rec0: PeerRecord, rec1: PeerRecord)
    ensures RingOf(TwoRecordLog(rec0, rec1))[0] == Some(rec0)
    ensures RingOf(TwoRecordLog(rec0, rec1))[1] == Some(rec1)
    ensures forall j :: 1 < j < N ==> RingOf(TwoRecordLog(rec0, rec1))[j] == None
  {
    KeyInjective(0, 1);
    forall j | 1 < j < N
      ensures RingOf(TwoRecordLog(rec0, rec1))[j] == None
    {
      KeyInjective(j, 0);
      KeyInjective(j, 1);
    }
  }

  /** As written: a peer has written slot 0 at time 1. The first pass consumes it and
      stores cursor `(1, 2)`. Then (a) the producer's next record, written to slot 1, is
      never consumed by the next pass, and (b) a pass over the unchanged log still moves
      the cursor on. */
  lemma AsWrittenSkipsNextWrite()
    ensures var rec0 := PeerRecord(1, "");
      var rec1 := PeerRecord(2, "");
      var log1 := OneRecordLog(rec0);
      var log2 := TwoRecordLog(rec0, rec1);
      && CanProcess(NewConsumer("a"), "b", log1, 10)
      && var r1 := ProcessPeer(NewConsumer("a"), "b", log1, 10);
      && GetTsIdx(r1, "b") == Cursor(1, 2)
      && r1.tally.stats.numEvents == 1
      && CanProcess(r1, "b", log2, 10)
      && ProcessPeer(r1, "b", log2, 10).tally.stats.numEvents == 1
      && CanProcess(r1, "b", log1, 10)
      && GetTsIdx(ProcessPeer(r1, "b", log1, 10), "b") == Cursor(1, 3)
  {
    var rec0 := PeerRecord(1, "");
    var rec1 := PeerRecord(2, "");
    var log1 := OneRecordLog(rec0);
    var log2 := TwoRecordLog(rec0, rec1);
    var ring1 := RingOf(log1);
    var ring2 := RingOf(log2);
    SingleRecordRing(rec0);
    TwoRecordRing(rec0, rec1);
    var c0 := NewConsumer("a");
    assert GetTsIdx(c0, "b") == Cursor(0, 0);
    assert ring1[1] == None;
    assert RingNotAfter(ring1, 10);
    assert RingNotAfter(ring2, 10);
    var w1 := Walk([rec0], 1, 1);
    assert Slot(0, 0) == 0 && Slot(0, 1) == 1;
    assert WalkFrom(ring1, 0, 0, w1);
    WalkFromUnique(ring1, 0, 0, w1, Consume(ring1, 0, 0));
    var r1 := ProcessPeer(c0, "b", log1, 10);
    assert GetTsIdx(r1, "b") == Cursor(1, 2);
    assert Latencies([rec0], 10) == [9];
    assert r1.tally.stats.numEvents == 1;
    assert ring2[2] == None && ring1[2] == None;
    ConsumeNothing(ring2, 1, 2);
    assert ConsumedWalk(r1, "b", log2, 10).consumed == [];
    ConsumeNothing(ring1, 1, 2);
    assert ConsumedWalk(r1, "b", log1, 10) == Walk([], 1, 2);
  }

  /** Corrected `process_peer`: the stored index is the slot that stopped the loop. */
  function ProcessPeerFixed(c: PeerConsumer, id: PeerId, log: PeerLog, now: nat): (r: PeerConsumer)
    requires CanProcess(c, id, log, now)
    ensures var w := ConsumedWalk(c, id, log, now);
      && GetTsIdx(r, id) == Cursor(w.ts, w.stop)
      && GetTsIdx(r, id).idx < N
      && r.tally == FoldAll(c.tally, Latencies(w.consumed, now))
    ensures forall p :: p != id ==> GetTsIdx(r, p) == GetTsIdx(c, p)
    ensures r.cursors.Keys == c.cursors.Keys + {id}
    ensures r.localId == c.localId
  {
    var w := ConsumedWalk(c, id, log, now);
    c.(tally := FoldAll(c.tally, Latencies(w.consumed, now)),
       cursors := c.cursors[id := Cursor(w.ts, w.stop)])
  }

  /** Corrected: a pass over a log that has not changed consumes nothing and leaves the
      cursor where it is. */
  lemma FixedReplayIsNoOp(c: PeerConsumer, id: PeerId, log: PeerLog, now: nat, later: nat)
    requires CanProcess(c, id, log, now)
    requires RingNotAfter(RingOf(log), later)
    ensures CanProcess(ProcessPeerFixed(c, id, log, now), id, log, later)
    ensures var r1 := ProcessPeerFixed(c, id, log, now);
      var r2 := ProcessPeerFixed(r1, id, log, later);
      GetTsIdx(r2, id) == GetTsIdx(r1, id) && r2.tally == r1.tally
  {
    var r1 := ProcessPeerFixed(c, id, log, now);
    var cur := GetTsIdx(r1, id);
    ConsumeNothing(RingOf(log), cur.ts, cur.idx);
  }

  /** Corrected: the next record the producer writes, into the slot the loop stopped at
      and no older than the last record consumed, is the first record the next pass
      consumes. */
  lemma FixedPicksUpNextWrite(c: PeerConsumer, id: PeerId, log: PeerLog, now: nat, rec: PeerRecord, later: nat)
    requires CanProcess(c, id, log, now)
    requires rec.timestamp >= GetTsIdx(ProcessPeerFixed(c, id, log, now), id).ts
    requires CanProcess(ProcessPeerFixed(c, id, log, now), id,
                        log[Key(GetTsIdx(ProcessPeerFixed(c, id, log, now), id).idx) := rec], later)
    ensures var r1 := ProcessPeerFixed(c, id, log, now);
      var w := ConsumedWalk(r1, id, log[Key(GetTsIdx(r1, id).idx) := rec], later);
      |w.consumed| >= 1 && w.consumed[0] == rec
  {
    var r1 := ProcessPeerFixed(c, id, log, now);
    var cur := GetTsIdx(r1, id);
    var log2 := log[Key(cur.idx) := rec];
    assert RingOf(log2)[cur.idx] == Some(rec);
    ConsumeStartsAt(RingOf(log2), cur.ts, cur.idx);
  }

  /** Corrected, on the scenario above: the second pass consumes the record in slot 1. */
  lemma FixedCountsNextWrite()
    ensures var rec0 := PeerRecord(1, "");
      var rec1 := PeerRecord(2, "");
      var log1 := OneRecordLog(rec0);
      var log2 := TwoRecordLog(rec0, rec1);
      && CanProcess(NewConsumer("a"), "b", log1, 10)
      && var r1 := ProcessPeerFixed(NewConsumer("a"), "b", log1, 10);
      && CanProcess(r1, "b", log2, 10)
      && ProcessPeerFixed(r1, "b", log2, 10).tally.stats.numEvents == 2
  {
    var rec0 := PeerRecord(1, "");
    var rec1 := PeerRecord(2, "");
    var log1 := OneRecordLog(rec0);
    var log2 := TwoRecordLog(rec0, rec1);
    var ring1 := RingOf(log1);
    var ring2 := RingOf(log2);
    SingleRecordRing(rec0);
    TwoRecordRing(rec0, rec1);
    var c0 := NewConsumer("a");
    assert GetTsIdx(c0, "b") == Cursor(0, 0);
    assert ring1[1] == None;
    assert RingNotAfter(ring1, 10);
    assert RingNotAfter(ring2, 10);
    var w1 := Walk([rec0], 1, 1);
    assert Slot(0, 0) == 0 && Slot(0, 1) == 1;
    assert WalkFrom(ring1, 0, 0, w1);
    WalkFromUnique(ring1, 0, 0, w1, Consume(ring1, 0, 0));
    var r1 := ProcessPeerFixed(c0, "b", log1, 10);
    assert GetTsIdx(r1, "b") == Cursor(1, 1);
    assert ring2[2] == None;
    var w2 := Walk([rec1], 2, 2);
    assert Slot(1, 0) == 1 && Slot(1, 1) == 2;
    assert WalkFrom(ring2, 1, 1, w2);
    WalkFromUnique(ring2, 1, 1, w2, Consume(ring2, 1, 1));
    assert |ConsumedWalk(r1, "b", log2, 10).consumed| == 1;
  }
}

=== FILE: contexts.dfy ===
/** The TypeScript peer context of container-mesh/ts/src/context.ts: identity, addresses,
    what the peer knows of the coordinator, and the lifecycle state. The Ditto handle and
    transport configuration are left out. */
module TsContext {
  import opened Wrappers
  import opened Types
  import Defaults

  datatype TsPeerContext = TsPeerContext(
    id: PeerId, coordAddr: string, coordPort: nat, coordDocId: Option<string>,
    coordCollection: string, coordInfo: Option<CoordinatorInfo>, hbDocId: Option<string>,
    localAddr: string, localPort: nat, state: PeerState)

  /** The constructor: nothing known of the coordinator yet, state `Init`. */
  function NewTsPeerContext(id: PeerId, coordAddr: string, coordPort: nat, bindAddr: string, bindPort: nat): (c: TsPeerContext)
    ensures c.id == id && c.coordAddr == coordAddr && c.coordPort == coordPort
    ensures c.localAddr == bindAddr && c.localPort == bindPort
    ensures c.coordCollection == Defaults.COORD_COLLECTION_NAME
    ensures c.coordDocId.None? && c.coordInfo.None? && c.hbDocId.None?
    ensures c.state == Init
  {
    TsPeerContext(id, coordAddr, coordPort, None, Defaults.COORD_COLLECTION_NAME, None, None,
                  bindAddr, bindPort, Init)
  }

  /** `stateTransition(from, to)`: throws unless the peer is in `from`; otherwise moves to
      `to`, whatever `to` is. */
  function StateTransition(c: TsPeerContext, from: PeerState, to: PeerState): (r: Result<TsPeerContext>)
    ensures r.Ok? <==> c.state == from
    ensures r.Ok? ==> r.value == c.(state := to)
    ensures r.Err? ==> r.error.Thrown?
  {
    if c.state != from then Err(Thrown("Invalid state transition")) else Ok(c.(state := to))
  }

  /** A transition cannot be taken twice in a row unless it is a self-loop. */
  lemma TransitionNotRepeatable(c: TsPeerContext, from: PeerState, to: PeerState)
    requires StateTransition(c, from, to).Ok?
    ensures StateTransition(StateTransition(c, from, to).value, from, to).Ok? <==> from == to
  {
  }

  /** The peer's lifecycle: a fresh context goes through every state in order. */
  lemma LifecycleSucceeds(c: TsPeerContext)
    requires c.state == Init
    ensures var r1 := StateTransition(c, Init, Ready);
      && r1.Ok?
      && var r2 := StateTransition(r1.value, Ready, Running);
      && r2.Ok?
      && var r3 := StateTransition(r2.value, Running, Reporting);
      && r3.Ok?
      && var r4 := StateTransition(r3.value, Reporting, Shutdown);
      && r4.Ok? && r4.value.state == Shutdown && r4.value.id == c.id
  {
  }

  /** `toPeer`: the peer record as `Peer` declares it, with the state under `state`. */
  function ToPeer(c: TsPeerContext): (p: Peer)
    ensures p.peerId == c.id && p.ipAddr == c.localAddr && p.port == c.localPort && p.state == c.state
  {
    Peer(c.id, c.localAddr, c.localPort, c.state)
  }

  /** After a transition the peer record carries the new state and the same identity. */
  lemma ToPeerAfterTransition(c: TsPeerContext, from: PeerState, to: PeerState)
    requires StateTransition(c, from, to).Ok?
    ensures ToPeer(StateTransition(c, from, to).value).state == to
    ensures SamePeer(ToPeer(StateTransition(c, from, to).value), ToPeer(c))
  {
  }
}

/** The Rust peer context of peer/src/context.rs. The random id and the clock reading are
    parameters; the Ditto handle, heartbeat thread and collections are left out. */
module PeerContext {
  import opened Wrappers
  import opened Types

  datatype RustPeerContext = RustPeerContext(
    id: PeerId, coordAddr: Option<string>, coordDocId: Option<string>,
    coordInfo: Option<CoordinatorInfo>, startTimeMsec: nat, localIp: string, state: PeerState)

  /** `PeerContext::new`, given the random id and the clock. */
  function NewPeerContext(id: PeerId, localIp: string, nowMsec: nat): (c: RustPeerContext)
    ensures c.id == id && c.localIp == localIp && c.startTimeMsec == nowMsec
    ensures c.coordAddr.None? && c.coordDocId.None? && c.coordInfo.None?
    ensures c.state == Init
  {
    RustPeerContext(id, None, None, None, nowMsec, localIp, Init)
  }

  /** `get_plan`: the coordinator's plan, once both the coordinator info and its plan are
      known. */
  function GetPlan(c: RustPeerContext): (r: Option<ExecutionPlan>)
    ensures r.Some? <==> c.coordInfo.Some? && c.coordInfo.value.executionPlan.Some?
    ensures r.Some? ==> r.value == c.coordInfo.value.executionPlan.value
  {
    match c.coordInfo
    case None => None
    case Some(ci) => ci.executionPlan
  }

  /** `state_transition(existing, new)`: the assertion panics when an expected state is
      given and the peer is not in it; otherwise the state becomes `next` (the source's `new`). */
  function StateTransition(c: RustPeerContext, existing: Option<PeerState>, next: PeerState): (r: Result<RustPeerContext>)
    ensures r.Err? <==> existing.Some? && existing.value != c.state
    ensures r.Err? ==> r.error.Panic?
    ensures r.Ok? ==> r.value == c.(state := next)
  {
    if existing.Some? && existing.value != c.state then Err(Panic("assertion failed: state_transition"))
    else Ok(c.(state := next))
  }

  /** Without an expected state the transition always happens; with one it happens
      exactly when the TypeScript `stateTransition(from, to)` would. */
  lemma TransitionUnchecked(c: RustPeerContext, from: PeerState, next: PeerState)
    ensures StateTransition(c, None, next) == Ok(c.(state := next))
    ensures StateTransition(c, Some(from), next).Ok? <==> c.state == from
  {
  }

  /** Chaining transitions, each expecting the state the previous one set, never panics. */
  lemma ChainedTransitions(c: RustPeerContext, states: seq<PeerState>)
    requires |states| >= 1 && states[0] == c.state
    ensures ChainFrom(c, states).Ok?
    ensures ChainFrom(c, states).value.state == states[|states| - 1]
    decreases |states|
  {
    if |states| > 1 {
      ChainedTransitions(c.(state := states[1]), states[1..]);
    }
  }

  /** Applies `state_transition(Some(states[i]), states[i + 1])` in turn. */
  function ChainFrom(c: RustPeerContext, states: seq<PeerState>): (r: Result<RustPeerContext>)
    requires |states| >= 1
    decreases |states|
  {
    if |states| == 1 then Ok(c)
    else
      match StateTransition(c, Some(states[0]), states[1])
      case Err(e) => Err(e)
      case Ok(c1) => ChainFrom(c1, states[1..])
  }
}

=== FILE: coord_graph.dfy ===
/** The older coordinator's connection graphs (coordinator/src/graph.rs). Its
    `spanning_tree` is the same procedure as `Graph.SpanningTree`; its `complete_graph`
    inserts the ids in the order given, without sorting. */
module CoordGraph {
  import opened Types
  import opened Sorting
  import opened Graph

  /** `complete_graph`: insert each id in input order with edges to every id already in. */
  function CompleteGraph(peers: seq<PeerId>): (r: PeerGraph)
    ensures r.Keys == Elems(peers)
  {
    AddAll(map[], peers)
  }

  /** With distinct ids, the `k`-th id points at exactly the ids before it in the input. */
  lemma CompleteGraphOutSet(peers: seq<PeerId>, k: nat)
    requires Distinct(peers) && k < |peers|
    ensures CompleteGraph(peers)[peers[k]] == Elems(peers[..k])
  {
    assert peers[k] !in peers[k + 1..];
    AddAllOutSet(map[], peers, k);
  }

  /** Whatever the order, and even with repeated ids, every pair of distinct vertices is
      linked in at least one direction. */
  lemma CompleteGraphIsComplete(peers: seq<PeerId>, u: PeerId, v: PeerId)
    requires u in peers && v in peers && u != v
    ensures u in CompleteGraph(peers) && v in CompleteGraph(peers)
    ensures v in CompleteGraph(peers)[u] || u in CompleteGraph(peers)[v]
  {
    assert u in Elems(peers) && v in Elems(peers);
    AddAllLinksEveryPair(peers, u, v);
  }

  /** The first id has no out-edges and the last points at every other id. */
  lemma CompleteGraphEnds(peers: seq<PeerId>)
    requires Distinct(peers) && |peers| > 0
    ensures CompleteGraph(peers)[peers[0]] == {}
    ensures CompleteGraph(peers)[peers[|peers| - 1]] == Elems(peers) - {peers[|peers| - 1]}
  {
    var n := |peers|;
    CompleteGraphOutSet(peers, 0);
    assert Elems(peers[..0]) == {};
    CompleteGraphOutSet(peers, n - 1);
    ElemsRange(peers, 0, n - 1, n);
    assert peers[..n] == peers;
    assert Elems(peers[n - 1..n]) == {peers[n - 1]} by { assert peers[n - 1..n] == [peers[n - 1]]; }
    assert peers[n - 1] !in peers[..n - 1];
  }
}

=== FILE: coordinator.dfy ===
/** The pure bookkeeping of container-mesh/coordinator/src/main.rs: folding heartbeats into
    the peer set, the start delay, the plan and its start time. Locks, condition variables
    and the Ditto store are left out; the clock and the document id are parameters. */
module Coordinator {
  import opened Wrappers
  import opened Types
  import opened PeerSets
  import Defaults
  import Graph

  /** The senders of a heartbeats document's `beats`, walked in `order`. */
  function Senders(beats: map<PeerId, Heartbeat>, order: seq<PeerId>): (r: seq<Peer>)
    requires forall k :: k in order ==> k in beats
    ensures |r| == |order|
    ensures forall i :: 0 <= i < |order| ==> r[i] == beats[order[i]].sender
  {
    seq(|order|, i requires 0 <= i < |order| => beats[order[i]].sender)
  }

  /** Peers write their heartbeat under their own id. */
  ghost predicate KeyedBySender(beats: map<PeerId, Heartbeat>) {
    forall k :: k in beats ==> beats[k].sender.peerId == k
  }

  /** `process_heartbeat`: `replace` every sender into the peer set. */
  function ProcessHeartbeat(s: PeerSet, beats: map<PeerId, Heartbeat>, order: seq<PeerId>): (r: PeerSet)
    requires forall k :: k in order ==> k in beats
    ensures WellKeyed(s) ==> WellKeyed(r)
  {
    AddAll(s, Senders(beats, order), ReplaceExisting)
  }

  /** Walking a document keyed by sender visits exactly its keys. */
  lemma SendersIds(beats: map<PeerId, Heartbeat>, order: seq<PeerId>)
    requires Enumerates(order, beats) && KeyedBySender(beats)
    ensures IdsOf(Senders(beats, order)) == beats.Keys
  {
    var senders := Senders(beats, order);
    forall id ensures id in IdsOf(senders) <==> id in beats {
      if id in beats {
        var i :| 0 <= i < |order| && order[i] == id;
        assert senders[i].peerId == id;
      }
    }
  }

  /** After a document whose heartbeats are keyed by sender, each sender's id is present
      once and carries exactly the peer (state included) of that heartbeat; every other
      known peer is untouched and nothing else is added. */
  lemma ProcessHeartbeatUpdates(s: PeerSet, beats: map<PeerId, Heartbeat>, order: seq<PeerId>)
    requires Enumerates(order, beats) && KeyedBySender(beats)
    ensures ProcessHeartbeat(s, beats, order).Keys == s.Keys + beats.Keys
    ensures forall k :: k in beats ==> ProcessHeartbeat(s, beats, order)[k] == beats[k].sender
    ensures forall id :: id in s && id !in beats ==> ProcessHeartbeat(s, beats, order)[id] == s[id]
  {
    var senders := Senders(beats, order);
    SendersIds(beats, order);
    AddAllKeys(s, senders, ReplaceExisting);
    forall k | k in beats
      ensures ProcessHeartbeat(s, beats, order)[k] == beats[k].sender
    {
      StoresSender(s, beats, order, k);
    }
    forall id | id in s && id !in beats
      ensures ProcessHeartbeat(s, beats, order)[id] == s[id]
    {
      AddAllFrame(s, senders, ReplaceExisting, id);
    }
  }

  /** One key of a document keyed by sender ends up holding that heartbeat's sender. */
  lemma StoresSender(s: PeerSet, beats: map<PeerId, Heartbeat>, order: seq<PeerId>, k: PeerId)
    requires Enumerates(order, beats) && KeyedBySender(beats) && k in beats
    ensures k in ProcessHeartbeat(s, beats, order)
    ensures ProcessHeartbeat(s, beats, order)[k] == beats[k].sender
  {
    var senders := Senders(beats, order);
    var i :| 0 <= i < |order| && order[i] == k;
    assert senders[i] == beats[k].sender;
    forall j | i < j < |senders| ensures senders[j].peerId != senders[i].peerId {
      assert order[j] != order[i];
    }
    ReplaceLastWins(s, senders, i);
  }

  // ---------------------------------------------------------------------------
  // start_delay_secs

  /** `start_delay_secs` for `n` known peers: ten seconds, plus a quarter second per peer
      (rounded up) beyond forty peers. */
  function StartDelaySecs(n: nat): (secs: nat)
    ensures n <= 40 ==> secs == 10
    ensures n > 40 ==> 4 * (secs - 10) >= n && 4 * (secs - 10) < n + 4
  {
    var seconds := 10;
    if n > 40 then seconds + (n + 3) / 4 else seconds
  }

  /** More peers never shorten the delay. */
  lemma StartDelayMonotone(m: nat, n: nat)
    requires m <= n
    ensures 10 <= StartDelaySecs(m) <= StartDelaySecs(n)
  {
  }

  /** The start time the coordinator writes into the plan, as the source computes it: the
      delay in seconds added to a clock reading in milliseconds. */
  function PlanStartAsWritten(nowMsec: nat, delaySecs: nat): nat {
    nowMsec + delaySecs
  }

  /** The start time with the delay converted to milliseconds, as the peers read it: they
      sleep `start_time - now` milliseconds. */
  function PlanStart(nowMsec: nat, delaySecs: nat): (t: nat)
    ensures t - nowMsec == 1000 * delaySecs
  {
    nowMsec + delaySecs * 1000
  }

  /** As written, the lead the peers get is as many milliseconds as the delay has seconds:
      for up to forty peers 10 ms instead of 10 s, and below one second for any fleet
      of at most 3956 peers. Converted, it is the full delay, at least ten seconds. */
  lemma PlanStartLead(nowMsec: nat, n: nat)
    ensures n <= 40 ==> PlanStartAsWritten(nowMsec, StartDelaySecs(n)) - nowMsec == 10
    ensures n <= 3956 ==> PlanStartAsWritten(nowMsec, StartDelaySecs(n)) - nowMsec < 1000
    ensures PlanStart(nowMsec, StartDelaySecs(n)) - nowMsec >= 10000
  {
  }

  // ---------------------------------------------------------------------------
  // generate_plan

  /** Two plans agree on everything but the peers, the graph, the start time and the
      duration. */
  predicate SameSettings(a: ExecutionPlan, b: ExecutionPlan) {
    && a.reportCollectionName == b.reportCollectionName
    && a.peerCollectionName == b.peerCollectionName
    && a.peerDocId == b.peerDocId
    && a.minMsgDelayMsec == b.minMsgDelayMsec
    && a.maxMsgDelayMsec == b.maxMsgDelayMsec
  }

  /** `generate_plan`: the default plan with every known peer copied in `order`, no start
      time yet, the requested duration and the requested connection graph. The graph of
      the `LAModel` branch comes from `local_attachment_model`, which is not part of this
      model, and is a parameter; the branch panics with fewer than
      `GRAPH_LA_CLIQUE_SIZE` peers. */
  function GeneratePlan(known: PeerSet, order: seq<PeerId>, durationSec: nat, graphType: GraphType,
                        nowMsec: nat, docId: string, laGraph: PeerGraph): (r: Result<ExecutionPlan>)
    requires Enumerates(order, known)
    ensures r.Err? <==> graphType == LAModel && |known| < Defaults.GRAPH_LA_CLIQUE_SIZE
    ensures r.Ok? ==> |r.value.peers| == |order| == |known|
    ensures r.Ok? ==> forall i :: 0 <= i < |order| ==> r.value.peers[i] == known[order[i]]
    ensures r.Ok? ==> r.value.startTime == 0 && r.value.testDurationSec == durationSec
    ensures r.Ok? ==> SameSettings(r.value, Defaults.DefaultExecutionPlan(nowMsec, docId))
    ensures r.Ok? && graphType == LAModel ==> r.value.connections == laGraph
  {
    assert |order| == |known| by { OrderSize(order, known); }
    var base := Defaults.DefaultExecutionPlan(nowMsec, docId);
    var peers := seq(|order|, i requires 0 <= i < |order| => known[order[i]]);
    var peerIds := PeerIds(peers);
    var plan := base.(peers := peers, startTime := 0);
    if graphType == LAModel && |peerIds| < Defaults.GRAPH_LA_CLIQUE_SIZE then
      Err(Panic("Need at least 4 peers for LA model"))
    else
      var connections := match graphType
        case Complete => Graph.CompleteGraph(peerIds)
        case SpanningTree => Graph.SpanningTree(peerIds, Defaults.GRAPH_SPANNING_MAX_DEGREE)
        case LAModel => laGraph;
      Ok(plan.(connections := connections, testDurationSec := durationSec))
  }

  /** The ids of the copied peers, in the same order. */
  function PeerIds(peers: seq<Peer>): (ids: seq<PeerId>)
    ensures |ids| == |peers| && forall i :: 0 <= i < |peers| ==> ids[i] == peers[i].peerId
  {
    seq(|peers|, i requires 0 <= i < |peers| => peers[i].peerId)
  }

  /** An enumeration of a map's keys is as long as the map. */
  lemma {:induction false} OrderSize<V>(order: seq<PeerId>, m: map<PeerId, V>)
    requires Enumerates(order, m)
    ensures |order| == |m|
    decreases |order|
  {
    if |order| > 0 {
      var k := order[0];
      var rest := m - {k};
      forall a, b | 0 <= a < b < |order| - 1 ensures order[1..][a] != order[1..][b] {
        assert order[1..][a] == order[a + 1] && order[1..][b] == order[b + 1];
      }
      forall x ensures x in rest <==> x in order[1..] {
        if x in order[1..] {
          var i :| 0 <= i < |order| - 1 && order[1..][i] == x;
          assert order[i + 1] == x && i + 1 != 0;
        }
        if x in m && x != k {
          var i :| 0 <= i < |order| && order[i] == x;
          assert i != 0;
          assert order[1..][i - 1] == x;
        }
      }
      OrderSize(order[1..], rest);
      assert rest.Keys == m.Keys - {k};
    } else {
      assert m.Keys == {};
    }
  }

  /** For the two graphs built here, every known peer is a vertex of the plan's
      connections and every edge joins known peers; the spanning tree keeps every
      out-set within `GRAPH_SPANNING_MAX_DEGREE`. */
  lemma GeneratePlanConnects(known: PeerSet, order: seq<PeerId>, durationSec: nat, graphType: GraphType,
                             nowMsec: nat, docId: string, laGraph: PeerGraph)
    requires Enumerates(order, known) && WellKeyed(known) && graphType != LAModel
    ensures GeneratePlan(known, order, durationSec, graphType, nowMsec, docId, laGraph).Ok?
    ensures GeneratePlan(known, order, durationSec, graphType, nowMsec, docId, laGraph).value.connections.Keys == known.Keys
    ensures graphType == SpanningTree ==> forall v ::
      v in GeneratePlan(known, order, durationSec, graphType, nowMsec, docId, laGraph).value.connections ==>
        |GeneratePlan(known, order, durationSec, graphType, nowMsec, docId, laGraph).value.connections[v]| <= Defaults.GRAPH_SPANNING_MAX_DEGREE
        && GeneratePlan(known, order, durationSec, graphType, nowMsec, docId, laGraph).value.connections[v] <= known.Keys
  {
    OrderSize(order, known);
    var r := GeneratePlan(known, order, durationSec, graphType, nowMsec, docId, laGraph);
    var peers := seq(|order|, i requires 0 <= i < |order| => known[order[i]]);
    var ids := PeerIds(peers);
    forall i | 0 <= i < |order| ensures ids[i] == order[i] {
      assert peers[i] == known[order[i]];
    }
    assert ids == order;
    forall x ensures x in Graph.Elems(order) <==> x in known { }
    assert Graph.Elems(order) == known.Keys;
    var g := r.value.connections;
    if graphType == SpanningTree {
      assert g == Graph.SpanningTree(order, Defaults.GRAPH_SPANNING_MAX_DEGREE);
      Graph.SpanningTreeKeys(order, Defaults.GRAPH_SPANNING_MAX_DEGREE);
      Graph.SpanningTreeOutSets(order, Defaults.GRAPH_SPANNING_MAX_DEGREE);
    } else {
      assert g == Graph.CompleteGraph(order);
    }
  }
}

=== FILE: decimal.dfy ===
/** Decimal rendering of naturals, as Rust's `to_string()` and JavaScript's template
    literals render an unsigned index, together with the parser that inverts it. */
module Decimal {

  predicate IsDigit(c: char) {
    '0' <= c <= '9'
  }

  function DigitChar(d: nat): (c: char)
    requires d < 10
    ensures IsDigit(c)
  {
    ['0', '1', '2', '3', '4', '5', '6', '7', '8', '9'][d]
  }

  function DigitValue(c: char): (d: nat)
    requires IsDigit(c)
    ensures d < 10
  {
    (c as int - '0' as int) as nat
  }

  lemma DigitRoundTrip(d: nat)
    requires d < 10
    ensures DigitValue(DigitChar(d)) == d
  {
  }

  /** The decimal text of `n`, most significant digit first, without leading zeros. */
  function NatToString(n: nat): (s: string)
    ensures |s| >= 1
    ensures forall k :: 0 <= k < |s| ==> IsDigit(s[k])
    ensures n >= 10 <==> |s| >= 2
  {
    if n < 10 then [DigitChar(n)]
    else NatToString(n / 10) + [DigitChar(n % 10)]
  }

  /** The value of a string of decimal digits. */
  function ParseDigits(s: string): nat
    requires forall k :: 0 <= k < |s| ==> IsDigit(s[k])
  {
    if |s| == 0 then 0
    else ParseDigits(s[..|s| - 1]) * 10 + DigitValue(s[|s| - 1])
  }

  /** Parsing the rendering of `n` gives back `n`. */
  lemma {:induction false} ParseNatToString(n: nat)
    ensures ParseDigits(NatToString(n)) == n
  {
    var s := NatToString(n);
    if n < 10 {
      assert s[..0] == [];
      DigitRoundTrip(n);
    } else {
      var q, r := n / 10, n % 10;
      var p := NatToString(q);
      assert s == p + [DigitChar(r)];
      assert s[..|s| - 1] == p;
      DigitRoundTrip(r);
      ParseNatToString(q);
      assert ParseDigits(s) == ParseDigits(p) * 10 + r;
      assert q * 10 + r == n;
    }
  }

  /** Distinct indices render to distinct keys. */
  lemma NatToStringInjective(a: nat, b: nat)
    ensures NatToString(a) == NatToString(b) <==> a == b
  {
    if NatToString(a) == NatToString(b) {
      ParseNatToString(a);
      ParseNatToString(b);
    }
  }
}

=== FILE: defaults.dfy ===
/** Constants and `Default` implementations of container-mesh/common/src/default.rs.
    Clock reads and random document ids are parameters. */
module Defaults {
  import opened Wrappers
  import opened Types

  const COORD_COLLECTION_NAME: string := "cmesh-coord"
  const HEARTBEAT_COLLECTION_NAME: string := "cmesh-heartbeat"
  const REPORT_COLLECTION_NAME: string := "cmesh-report"
  const PEER_COLLECTION_NAME: string := "cmesh-peers"
  /** Number of slots in every peer's ring log. */
  const PEER_LOG_SIZE: nat := 16
  const GRAPH_SPANNING_MAX_DEGREE: nat := 3
  const GRAPH_LA_CLIQUE_SIZE: nat := 4
  const QUERY_POLL_SEC: nat := 2
  const REPORT_PROPAGATION_SEC: nat := 2
  const HEARTBEAT_SEC: nat := 2

  /** `Default for CoordinatorInfo`: heartbeat collection and interval, no plan yet. */
  function DefaultCoordinatorInfo(): (ci: CoordinatorInfo)
    ensures ci.heartbeatCollectionName == HEARTBEAT_COLLECTION_NAME
    ensures ci.heartbeatIntervalSec == 5
    ensures ci.executionPlan.None?
  {
    CoordinatorInfo(HEARTBEAT_COLLECTION_NAME, 5, None)
  }

  /** `Default for ExecutionPlan`, given the clock reading and the random document id. */
  function DefaultExecutionPlan(nowMsec: nat, docId: string): (p: ExecutionPlan)
    ensures p.startTime == nowMsec + 10000 && p.testDurationSec == 60
    ensures p.minMsgDelayMsec == 900 && p.maxMsgDelayMsec == 1100
    ensures p.reportCollectionName == REPORT_COLLECTION_NAME
    ensures p.peerCollectionName == PEER_COLLECTION_NAME && p.peerDocId == docId
    ensures p.peers == [] && p.connections == map[]
  {
    ExecutionPlan(nowMsec + 10000, 60, REPORT_COLLECTION_NAME, PEER_COLLECTION_NAME, docId,
                  900, 1100, [], map[])
  }

  /** `Default for PeerRecord`: stamped with the clock, empty payload. */
  function DefaultPeerRecord(nowMsec: nat): (r: PeerRecord)
    ensures r.timestamp == nowMsec && r.data == ""
  {
    PeerRecord(nowMsec, "")
  }

  /** The defaults are mutually consistent: the spanning-tree degree lets the tree cover
      every peer, the delay range of the default plan is non-empty, and the ring log has
      at least two slots. */
  lemma DefaultsConsistent(nowMsec: nat, docId: string)
    ensures GRAPH_SPANNING_MAX_DEGREE >= 1
    ensures DefaultExecutionPlan(nowMsec, docId).minMsgDelayMsec < DefaultExecutionPlan(nowMsec, docId).maxMsgDelayMsec
    ensures PEER_LOG_SIZE >= 2
  {
  }
}

=== FILE: graph.dfy ===
/** Connection-graph generators (common/src/graph.rs). An edge `u -> v` means `u` calls
    connect() and `v` listens; for connectivity the edges count as undirected. */
module Graph {
  import opened Types
  import opened StrOrder
  import opened Sorting
  import opened Decimal

  /** A vertex of the breadth-first layout while it is being filled. */
  datatype PeerEntry = PeerEntry(id: PeerId, neighbors: set<PeerId>)

  function Degree(p: PeerEntry): nat {
    |p.neighbors|
  }

  function Elems<T>(s: seq<T>): set<T> {
    set x | x in s
  }

  lemma ElemsSplit<T>(s: seq<T>, k: nat)
    requires k <= |s|
    ensures Elems(s) == Elems(s[..k]) + Elems(s[k..])
  {
    assert s == s[..k] + s[k..];
  }

  /** Dropping the last element of a slice. Proved once for any element type: the same
      equation stated over strings sends the solver into nested sequence equalities. */
  lemma SliceSnoc<T>(s: seq<T>, a: nat, b: nat)
    requires a < b <= |s|
    ensures s[a..b] == s[a..b - 1] + [s[b - 1]]
  {
  }

  lemma HeadTail<T>(s: seq<T>)
    requires |s| > 0
    ensures s == [s[0]] + s[1..]
  {
  }

  lemma SliceLast<T>(s: seq<T>)
    requires |s| > 0
    ensures s[|s| - 1..|s|] == [s[|s| - 1]] && s[..|s|] == s
  {
  }

  lemma ElemsRange<T>(s: seq<T>, a: nat, b: nat, c: nat)
    requires a <= b <= c <= |s|
    ensures Elems(s[a..c]) == Elems(s[a..b]) + Elems(s[b..c])
  {
    assert s[a..c] == s[a..b] + s[b..c];
  }

  lemma ElemsSnoc<T>(s: seq<T>, x: T)
    ensures Elems(s + [x]) == Elems(s) + {x}
  {
    assert forall y :: y in s + [x] <==> y in s || y == x;
  }

  // ---------------------------------------------------------------------------
  // complete_graph

  /** Insert the vertices `vs` one at a time, each with an edge to every vertex already in
      the graph; a repeated vertex is inserted again and its out-set replaced. */
  function AddAll(g: PeerGraph, vs: seq<PeerId>): (r: PeerGraph)
    ensures r.Keys == g.Keys + Elems(vs)
    ensures forall x :: x in g && x !in vs ==> r[x] == g[x]
    decreases |vs|
  {
    if |vs| == 0 then g
    else
      assert Elems(vs) == {vs[0]} + Elems(vs[1..]) by { ElemsSplit(vs, 1); }
      AddAll(g[vs[0] := g.Keys], vs[1..])
  }

  /** A vertex's out-set is everything already in the graph together with every vertex
      inserted before its last insertion. */
  lemma {:induction false} AddAllOutSet(g: PeerGraph, vs: seq<PeerId>, k: nat)
    requires k < |vs| && vs[k] !in vs[k + 1..]
    ensures AddAll(g, vs)[vs[k]] == g.Keys + Elems(vs[..k])
    decreases |vs|
  {
    var g' := g[vs[0] := g.Keys];
    ShiftSlices(vs, k);
    if k == 0 {
      assert Elems(vs[..k]) == {};
    } else {
      AddAllOutSet(g', vs[1..], k - 1);
      assert Elems(vs[..k]) == {vs[0]} + Elems(vs[1..][..k - 1]) by {
        ElemsSplit(vs[..k], 1);
      }
    }
  }

  /** How slices of a sequence relate to slices of its tail; stated for any element type
      so that no string equality is involved. */
  lemma ShiftSlices<T>(vs: seq<T>, k: nat)
    requires k < |vs|
    ensures k == 0 ==> vs[1..] == vs[k + 1..] && vs[..k] == []
    ensures k > 0 ==> vs[1..][k - 1] == vs[k] && vs[1..][k..] == vs[k + 1..]
    ensures k > 0 ==> vs[..k] == [vs[0]] + vs[1..][..k - 1] && vs[..k][1..] == vs[1..][..k - 1]
    ensures k > 0 ==> vs[..k][..1] == [vs[0]]
  {
  }

  /** Every element has a last occurrence. */
  lemma {:induction false} LastOccurrence<T>(vs: seq<T>, x: T) returns (k: nat)
    requires x in vs
    ensures k < |vs| && vs[k] == x && x !in vs[k + 1..]
    decreases |vs|
  {
    if vs[|vs| - 1] == x {
      k := |vs| - 1;
    } else {
      assert vs == vs[..|vs| - 1] + [vs[|vs| - 1]];
      k := LastOccurrence(vs[..|vs| - 1], x);
      assert vs[k + 1..] == vs[..|vs| - 1][k + 1..] + [vs[|vs| - 1]];
    }
  }

  /** Inserting in any order links every pair of distinct vertices in at least one
      direction, so the graph is complete when read as undirected. */
  lemma AddAllLinksEveryPair(vs: seq<PeerId>, u: PeerId, v: PeerId)
    requires u in AddAll(map[], vs) && v in AddAll(map[], vs) && u != v
    ensures v in AddAll(map[], vs)[u] || u in AddAll(map[], vs)[v]
  {
    var i := LastOccurrence(vs, u);
    var j := LastOccurrence(vs, v);
    AddAllOutSet(map[], vs, i);
    AddAllOutSet(map[], vs, j);
    if i < j {
      assert vs[..j][i] == u;
    } else {
      assert vs[..i][j] == v;
    }
  }

  /** Sorting keeps the same ids. */
  lemma SortDescElems(peers: seq<PeerId>)
    ensures Elems(SortDesc(peers)) == Elems(peers)
  {
    var sorted := SortDesc(peers);
    assert forall x :: x in sorted <==> x in multiset(sorted);
    assert forall x :: x in peers <==> x in multiset(peers);
  }

  /** `complete_graph` of common/src/graph.rs: sort descending, then insert in that order. */
  function CompleteGraph(peers: seq<PeerId>): (r: PeerGraph)
    ensures r.Keys == Elems(peers)
  {
    SortDescElems(peers);
    AddAll(map[], SortDesc(peers))
  }

  /** Every input id is a vertex and every pair of distinct vertices is linked. */
  lemma CompleteGraphIsComplete(peers: seq<PeerId>, u: PeerId, v: PeerId)
    requires u in peers && v in peers && u != v
    ensures u in CompleteGraph(peers) && v in CompleteGraph(peers)
    ensures v in CompleteGraph(peers)[u] || u in CompleteGraph(peers)[v]
  {
    SortDescElems(peers);
    assert u in Elems(peers) && v in Elems(peers);
    AddAllLinksEveryPair(SortDesc(peers), u, v);
  }

  /** With distinct ids, a vertex's out-set is exactly the ids greater than it: no
      self-loops and every edge points upward in string order. */
  lemma CompleteGraphOutSet(peers: seq<PeerId>, v: PeerId)
    requires Distinct(peers) && v in peers
    ensures CompleteGraph(peers)[v] == Greater(peers, v)
  {
    var sorted := SortDesc(peers);
    DistinctPermutation(peers, sorted);
    SortDescElems(peers);
    assert v in Elems(peers);
    var k := LastOccurrence(sorted, v);
    var out := CompleteGraph(peers)[v];
    assert out == Elems(sorted[..k]) by {
      AddAllOutSet(map[], sorted, k);
    }
    forall u ensures u in out <==> u in Greater(peers, v) {
      if u in peers {
        assert u in Elems(peers);
        BeforeIsGreater(sorted, k, u);
      } else {
        assert u !in Elems(sorted);
        ElemsRange(sorted, 0, k, |sorted|);
      }
    }
  }

  /** The input ids that sort after `v`. */
  function Greater(peers: seq<PeerId>, v: PeerId): set<PeerId> {
    set u | u in peers && LexLess(v, u)
  }

  /** In a strictly descending sequence, the elements before position `k` are exactly
      those greater than the element at `k`. */
  lemma BeforeIsGreater(sorted: seq<PeerId>, k: nat, u: PeerId)
    requires SortedDesc(sorted) && Distinct(sorted)
    requires k < |sorted| && u in sorted
    ensures u in sorted[..k] <==> LexLess(sorted[k], u)
  {
    var v := sorted[k];
    var i :| 0 <= i < |sorted| && sorted[i] == u;
    if i < k {
      assert sorted[..k][i] == u;
      assert LexLeq(v, u) && u != v;
    } else {
      assert LexLeq(u, v);
      if u != v {
        LexAsymmetric(u, v);
      } else {
        LexIrreflexive(v);
      }
      assert u !in sorted[..k];
    }
  }

  /** Distinct ids give as many vertices as ids, as the unit test checks for ten ids. */
  lemma {:induction false} DistinctCard<T>(s: seq<T>)
    requires Distinct(s)
    ensures |Elems(s)| == |s|
    decreases |s|
  {
    if |s| > 0 {
      ElemsSplit(s, 1);
      assert Elems(s[..1]) == {s[0]};
      assert s[0] !in Elems(s[1..]);
      DistinctCard(s[1..]);
    }
  }

  lemma CompleteGraphSize(peers: seq<PeerId>)
    requires Distinct(peers)
    ensures |CompleteGraph(peers)| == |peers|
  {
    DistinctCard(peers);
  }

  // ---------------------------------------------------------------------------
  // spanning_tree

  /** Ids of the entries on the perimeter queue. */
  function Ids(queue: seq<PeerEntry>): set<PeerId> {
    set e | e in queue :: e.id
  }

  ghost predicate Unlinked(queue: seq<PeerEntry>) {
    forall i :: 0 <= i < |queue| ==> queue[i].neighbors == {}
  }

  ghost predicate DegreeAtMost(g: PeerGraph, maxDegree: nat) {
    forall v :: v in g ==> |g[v]| <= maxDegree
  }

  ghost predicate LinksWithin(g: PeerGraph, ids: set<PeerId>) {
    forall v :: v in g ==> g[v] <= ids
  }

  /** The entries queued by popping `sorted[hi - 1]`, then `sorted[hi - 2]`, down to
      `sorted[lo]`, each with no neighbours yet. */
  function Entries(sorted: seq<PeerId>, lo: nat, hi: nat): (q: seq<PeerEntry>)
    requires lo <= hi <= |sorted|
    ensures |q| == hi - lo
    ensures forall t :: 0 <= t < |q| ==> q[t] == PeerEntry(sorted[hi - 1 - t], {})
    decreases hi - lo
  {
    if lo == hi then []
    else [PeerEntry(sorted[hi - 1], {})] + Entries(sorted, lo, hi - 1)
  }

  /** The queued entries carry exactly the popped ids. */
  lemma {:induction false} EntriesIds(sorted: seq<PeerId>, lo: nat, hi: nat)
    requires lo <= hi <= |sorted|
    ensures Ids(Entries(sorted, lo, hi)) == Elems(sorted[lo..hi])
    decreases hi - lo
  {
    if lo < hi {
      var q := Entries(sorted, lo, hi);
      EntriesIds(sorted, lo, hi - 1);
      SliceSnoc(sorted, lo, hi);
      ElemsSnoc(sorted[lo..hi - 1], sorted[hi - 1]);
      assert q == [q[0]] + q[1..];
      IdsAppend([q[0]], q[1..]);
    } else {
      assert Entries(sorted, lo, hi) == [];
    }
  }

  lemma IdsAppend(a: seq<PeerEntry>, b: seq<PeerEntry>)
    ensures Ids(a + b) == Ids(a) + Ids(b)
  {
    assert forall e :: e in a + b <==> e in a || e in b;
  }

  /** The inner loop: while `p` has fewer than `maxDegree` neighbours, pop the top of the
      stack `sorted[..m]`, link it to `p` and queue it; stop early when the stack is
      empty. */
  function Fill(sorted: seq<PeerId>, maxDegree: nat, p: PeerEntry, m: nat, queue: seq<PeerEntry>)
    : (r: (PeerEntry, nat, seq<PeerEntry>))
    requires m <= |sorted|
    ensures r.0.id == p.id && r.1 <= m
    ensures r.2 == queue + Entries(sorted, r.1, m)
    ensures r.1 == 0 || |r.0.neighbors| >= maxDegree
    ensures |p.neighbors| <= maxDegree ==> |r.0.neighbors| <= maxDegree
    decreases m
  {
    if Degree(p) >= maxDegree || m == 0 then (p, m, queue)
    else
      var v := sorted[m - 1];
      var r := Fill(sorted, maxDegree, PeerEntry(p.id, p.neighbors + {v}), m - 1, queue + [PeerEntry(v, {})]);
      assert |p.neighbors + {v}| <= |p.neighbors| + 1;
      r
  }

  lemma UnionRotate<T>(a: set<T>, b: set<T>, c: set<T>)
    ensures a + b + c == a + (c + b)
  {
  }

  /** One turn of the inner loop. */
  lemma FillStep(sorted: seq<PeerId>, maxDegree: nat, p: PeerEntry, m: nat, queue: seq<PeerEntry>)
    requires 0 < m <= |sorted| && |p.neighbors| < maxDegree
    ensures Fill(sorted, maxDegree, p, m, queue)
         == Fill(sorted, maxDegree, PeerEntry(p.id, p.neighbors + {sorted[m - 1]}), m - 1,
                 queue + [PeerEntry(sorted[m - 1], {})])
  {
  }

  /** The neighbours the inner loop leaves `p` with are its old ones and every id it popped
      from the stack. */
  predicate LinksPopped(sorted: seq<PeerId>, maxDegree: nat, p: PeerEntry, m: nat, queue: seq<PeerEntry>)
    requires m <= |sorted|
  {
    var r := Fill(sorted, maxDegree, p, m, queue);
    r.0.neighbors == p.neighbors + Elems(sorted[r.1..m])
  }

  /** What the inner loop links to `p` is exactly what it popped. */
  lemma {:induction false} FillLinksPopped(sorted: seq<PeerId>, maxDegree: nat, p: PeerEntry, m: nat, queue: seq<PeerEntry>)
    requires m <= |sorted|
    ensures LinksPopped(sorted, maxDegree, p, m, queue)
    decreases m
  {
    if |p.neighbors| >= maxDegree || m == 0 {
      FillDone(sorted, maxDegree, p, m, queue);
    } else {
      FillLinksPopped(sorted, maxDegree, PeerEntry(p.id, p.neighbors + {sorted[m - 1]}), m - 1,
                      queue + [PeerEntry(sorted[m - 1], {})]);
      FillLinksStep(sorted, maxDegree, p, m, queue);
    }
  }

  /** The inductive step of `FillLinksPopped`: linking `sorted[m - 1]` and then what the
      rest of the loop pops links everything popped. */
  lemma FillLinksStep(sorted: seq<PeerId>, maxDegree: nat, p: PeerEntry, m: nat, queue: seq<PeerEntry>)
    requires 0 < m <= |sorted| && |p.neighbors| < maxDegree
    requires LinksPopped(sorted, maxDegree, PeerEntry(p.id, p.neighbors + {sorted[m - 1]}), m - 1,
                         queue + [PeerEntry(sorted[m - 1], {})])
    ensures LinksPopped(sorted, maxDegree, p, m, queue)
  {
    FillStep(sorted, maxDegree, p, m, queue);
    var r := Fill(sorted, maxDegree, PeerEntry(p.id, p.neighbors + {sorted[m - 1]}), m - 1,
                  queue + [PeerEntry(sorted[m - 1], {})]);
    LinkedThenPopped(sorted, r.1, m, r.0.neighbors, p.neighbors);
  }

  /** The inner loop stops at once when `p` is full or the stack is empty. */
  lemma FillDone(sorted: seq<PeerId>, maxDegree: nat, p: PeerEntry, m: nat, queue: seq<PeerEntry>)
    requires m <= |sorted| && (|p.neighbors| >= maxDegree || m == 0)
    ensures Fill(sorted, maxDegree, p, m, queue) == (p, m, queue)
  {
  }

  /** Linking `sorted[m - 1]` first and then a stretch below it links the whole stretch. */
  lemma LinkedThenPopped(sorted: seq<PeerId>, lo: nat, m: nat, linked: set<PeerId>, start: set<PeerId>)
    requires lo < m <= |sorted|
    requires linked == start + {sorted[m - 1]} + Elems(sorted[lo..m - 1])
    ensures linked == start + Elems(sorted[lo..m])
  {
    var v := sorted[m - 1];
    var popped := Elems(sorted[lo..m - 1]);
    SliceSnoc(sorted, lo, m);
    ElemsSnoc(sorted[lo..m - 1], v);
    UnionRotate(start, {v}, popped);
  }

  /** The outer loop: pop the front of the perimeter queue, fill it, and record its
      out-set in the graph. */
  function Run(sorted: seq<PeerId>, maxDegree: nat, m: nat, queue: seq<PeerEntry>, graph: PeerGraph)
    : PeerGraph
    requires m <= |sorted|
    decreases 2 * m + |queue|
  {
    if |queue| == 0 then graph
    else
      var f := Fill(sorted, maxDegree, queue[0], m, queue[1..]);
      Run(sorted, maxDegree, f.1, f.2, graph[f.0.id := f.0.neighbors])
  }

  lemma UnlinkedStep(sorted: seq<PeerId>, queue: seq<PeerEntry>, lo: nat, hi: nat)
    requires lo <= hi <= |sorted| && |queue| > 0 && Unlinked(queue)
    ensures Unlinked(queue[1..] + Entries(sorted, lo, hi))
  {
  }

  /** The vertices recorded are the ones already recorded, everything queued, and at most
      what is still on the stack. */
  lemma {:induction false} RunKeys(sorted: seq<PeerId>, maxDegree: nat, m: nat, queue: seq<PeerEntry>, graph: PeerGraph)
    requires m <= |sorted|
    ensures graph.Keys + Ids(queue) <= Run(sorted, maxDegree, m, queue, graph).Keys
    ensures Run(sorted, maxDegree, m, queue, graph).Keys <= graph.Keys + Ids(queue) + Elems(sorted[..m])
    decreases 2 * m + |queue|
  {
    if |queue| > 0 {
      var f := Fill(sorted, maxDegree, queue[0], m, queue[1..]);
      var m' := f.1;
      HeadTail(queue);
      IdsAppend([queue[0]], queue[1..]);
      IdsAppend(queue[1..], Entries(sorted, m', m));
      EntriesIds(sorted, m', m);
      ElemsRange(sorted, 0, m', m);
      RunKeys(sorted, maxDegree, m', f.2, graph[f.0.id := f.0.neighbors]);
    }
  }

  /** With a degree bound of at least one, the stack is emptied: every id is popped,
      queued and then recorded. */
  lemma {:induction false} RunCovers(sorted: seq<PeerId>, maxDegree: nat, m: nat, queue: seq<PeerEntry>, graph: PeerGraph)
    requires m <= |sorted| && Unlinked(queue)
    requires maxDegree >= 1 && |queue| > 0
    ensures Elems(sorted[..m]) <= Run(sorted, maxDegree, m, queue, graph).Keys
    decreases 2 * m + |queue|
  {
    var f := Fill(sorted, maxDegree, queue[0], m, queue[1..]);
    var m' := f.1;
    var graph' := graph[f.0.id := f.0.neighbors];
    if m > 0 {
      FillLinksPopped(sorted, maxDegree, queue[0], m, queue[1..]);
      assert m' < m;
      UnlinkedStep(sorted, queue, m', m);
      RunCovers(sorted, maxDegree, m', f.2, graph');
      RunKeys(sorted, maxDegree, m', f.2, graph');
      IdsAppend(queue[1..], Entries(sorted, m', m));
      EntriesIds(sorted, m', m);
      ElemsRange(sorted, 0, m', m);
    }
  }

  /** No recorded vertex gets more than `maxDegree` out-edges. */
  lemma {:induction false} RunDegree(sorted: seq<PeerId>, maxDegree: nat, m: nat, queue: seq<PeerEntry>, graph: PeerGraph)
    requires m <= |sorted| && Unlinked(queue)
    requires DegreeAtMost(graph, maxDegree)
    ensures DegreeAtMost(Run(sorted, maxDegree, m, queue, graph), maxDegree)
    decreases 2 * m + |queue|
  {
    if |queue| > 0 {
      var f := Fill(sorted, maxDegree, queue[0], m, queue[1..]);
      UnlinkedStep(sorted, queue, f.1, m);
      RunDegree(sorted, maxDegree, f.1, f.2, graph[f.0.id := f.0.neighbors]);
    }
  }

  /** Every out-edge points at an input id. */
  lemma {:induction false} RunLinksWithin(sorted: seq<PeerId>, maxDegree: nat, m: nat, queue: seq<PeerEntry>, graph: PeerGraph)
    requires m <= |sorted| && Unlinked(queue)
    requires LinksWithin(graph, Elems(sorted))
    ensures LinksWithin(Run(sorted, maxDegree, m, queue, graph), Elems(sorted))
    decreases 2 * m + |queue|
  {
    if |queue| > 0 {
      var f := Fill(sorted, maxDegree, queue[0], m, queue[1..]);
      FillLinksPopped(sorted, maxDegree, queue[0], m, queue[1..]);
      ElemsRange(sorted, f.1, m, |sorted|);
      ElemsRange(sorted, 0, f.1, |sorted|);
      UnlinkedStep(sorted, queue, f.1, m);
      RunLinksWithin(sorted, maxDegree, f.1, f.2, graph[f.0.id := f.0.neighbors]);
    }
  }

  /** `spanning_tree`: sort descending so that popping from the end yields the smallest
      remaining id, make the smallest id the root, and lay the rest out breadth-first. */
  function SpanningTree(peers: seq<PeerId>, maxDegree: nat): (r: PeerGraph)
    ensures |peers| == 0 ==> r == map[]
  {
    if |peers| == 0 then map[]
    else
      var sorted := SortDesc(peers);
      Run(sorted, maxDegree, |sorted| - 1, [Root(sorted)], map[])
  }

  function Root(sorted: seq<PeerId>): PeerEntry
    requires |sorted| > 0
  {
    PeerEntry(sorted[|sorted| - 1], {})
  }

  lemma RootStart(sorted: seq<PeerId>)
    requires |sorted| > 0
    ensures Unlinked([Root(sorted)])
    ensures Ids([Root(sorted)]) + Elems(sorted[..|sorted| - 1]) == Elems(sorted)
  {
    var n := |sorted|;
    assert Ids([Root(sorted)]) == {sorted[n - 1]};
    ElemsRange(sorted, 0, n - 1, n);
    SliceLast(sorted);
  }

  /** Only input ids become vertices, and with a degree bound of at least one every input
      id does. */
  lemma SpanningTreeKeys(peers: seq<PeerId>, maxDegree: nat)
    ensures SpanningTree(peers, maxDegree).Keys <= Elems(peers)
    ensures maxDegree >= 1 ==> SpanningTree(peers, maxDegree).Keys == Elems(peers)
  {
    if |peers| > 0 {
      var sorted := SortDesc(peers);
      var n := |sorted|;
      SortDescElems(peers);
      RootStart(sorted);
      RunKeys(sorted, maxDegree, n - 1, [Root(sorted)], map[]);
      if maxDegree >= 1 {
        RunCovers(sorted, maxDegree, n - 1, [Root(sorted)], map[]);
      }
    }
  }

  /** Every out-set has at most `maxDegree` ids, all of them inputs. */
  lemma SpanningTreeOutSets(peers: seq<PeerId>, maxDegree: nat)
    ensures forall v :: v in SpanningTree(peers, maxDegree) ==>
      |SpanningTree(peers, maxDegree)[v]| <= maxDegree && SpanningTree(peers, maxDegree)[v] <= Elems(peers)
  {
    if |peers| > 0 {
      var sorted := SortDesc(peers);
      var n := |sorted|;
      SortDescElems(peers);
      RootStart(sorted);
      RunDegree(sorted, maxDegree, n - 1, [Root(sorted)], map[]);
      RunLinksWithin(sorted, maxDegree, n - 1, [Root(sorted)], map[]);
    }
  }

  // ---------------------------------------------------------------------------
  // The breadth-first layout of `spanning_tree` for distinct ids

  /** The id popped `c`-th from the stack, counting from 0: the `c`-th smallest id. */
  function Popped(sorted: seq<PeerId>, c: nat): PeerId
    requires c < |sorted|
  {
    sorted[|sorted| - 1 - c]
  }

  /** How many ids have left the stack once the first `i` vertices are filled: the root,
      then `d` for each vertex, until the stack runs dry. */
  function PoppedBy(n: nat, d: nat, i: nat): (c: nat)
    ensures c <= n || n == 0
  {
    if 1 + d * i <= n then 1 + d * i else n
  }

  /** The ids popped `lo`-th up to `hi`-th. */
  function PoppedBetween(sorted: seq<PeerId>, lo: nat, hi: nat): set<PeerId>
    requires hi <= |sorted|
  {
    set x: nat | lo <= x < hi :: Popped(sorted, x)
  }

  /** The out-set the `i`-th vertex is given: the ids popped while it is filled. */
  function Children(sorted: seq<PeerId>, d: nat, i: nat): set<PeerId>
    requires |sorted| > 0
  {
    var n := |sorted|;
    PoppedBetween(sorted, PoppedBy(n, d, i), PoppedBy(n, d, i + 1))
  }

  /** The graph once the first `i` vertices in pop order are recorded. */
  function Layout(sorted: seq<PeerId>, d: nat, i: nat): PeerGraph
    requires i <= |sorted|
  {
    if i == 0 then map[]
    else Layout(sorted, d, i - 1)[Popped(sorted, i - 1) := Children(sorted, d, i - 1)]
  }

  /** The perimeter queue holding the vertices popped `i` up to `c`, none of them filled. */
  function QueueFrom(sorted: seq<PeerId>, i: nat, c: nat): (q: seq<PeerEntry>)
    requires i <= c <= |sorted|
    ensures |q| == c - i
    ensures forall t :: 0 <= t < |q| ==> q[t] == PeerEntry(Popped(sorted, i + t), {})
    decreases c - i
  {
    if i == c then [] else [PeerEntry(Popped(sorted, i), {})] + QueueFrom(sorted, i + 1, c)
  }

  /** With distinct ids, filling a vertex pops exactly as many ids as it has room for, or
      the whole stack when that is smaller. */
  lemma {:induction false} FillCount(sorted: seq<PeerId>, d: nat, p: PeerEntry, m: nat, queue: seq<PeerEntry>)
    requires m <= |sorted| && Distinct(sorted)
    requires |p.neighbors| <= d && p.neighbors !! Elems(sorted[..m])
    ensures Fill(sorted, d, p, m, queue).1 == m - (if d - |p.neighbors| <= m then d - |p.neighbors| else m)
    decreases m
  {
    if |p.neighbors| < d && m > 0 {
      var v := sorted[m - 1];
      var p' := PeerEntry(p.id, p.neighbors + {v});
      assert v in Elems(sorted[..m]) by { assert sorted[..m][m - 1] == v; }
      assert |p'.neighbors| == |p.neighbors| + 1;
      assert p'.neighbors !! Elems(sorted[..m - 1]) by {
        ElemsRange(sorted, 0, m - 1, m);
        assert v !in sorted[..m - 1];
      }
      FillCount(sorted, d, p', m - 1, queue + [PeerEntry(v, {})]);
    }
  }

  /** The ids in a stretch of the stack are the ids popped in the matching stretch of pop
      order. */
  lemma PoppedStretch(sorted: seq<PeerId>, lo: nat, hi: nat)
    requires lo <= hi <= |sorted|
    ensures Elems(sorted[|sorted| - hi..|sorted| - lo]) == PoppedBetween(sorted, lo, hi)
  {
    var n := |sorted|;
    var stretch := sorted[n - hi..n - lo];
    forall k | 0 <= k < |stretch|
      ensures stretch[k] in PoppedBetween(sorted, lo, hi)
    {
      assert Popped(sorted, hi - 1 - k) == stretch[k];
    }
    forall x: nat | lo <= x < hi
      ensures Popped(sorted, x) in Elems(sorted[n - hi..n - lo])
    {
      assert sorted[n - hi..n - lo][hi - 1 - x] == Popped(sorted, x);
    }
  }

  lemma PoppedByStep(n: nat, d: nat, i: nat)
    requires d >= 1 && i < n
    ensures i < PoppedBy(n, d, i) <= n
    ensures var c := PoppedBy(n, d, i);
      PoppedBy(n, d, i + 1) == c + (if d <= n - c then d else n - c)
  {
    assert d * (i + 1) == d * i + d;
    assert d * i >= i;
  }

  /** The front of the queue after `i` rounds is the `i`-th vertex, still unfilled. */
  function RoundFill(sorted: seq<PeerId>, d: nat, i: nat): (PeerEntry, nat, seq<PeerEntry>)
    requires d >= 1 && i < |sorted|
  {
    var n := |sorted|;
    var c := PoppedBy(n, d, i);
    PoppedByStep(n, d, i);
    var queue := QueueFrom(sorted, i, c);
    Fill(sorted, d, queue[0], n - c, queue[1..])
  }

  /** One round of the outer loop pops the next stretch of ids, links them to the `i`-th
      vertex and appends them to the queue. */
  lemma RoundStep(sorted: seq<PeerId>, d: nat, i: nat)
    requires Distinct(sorted) && d >= 1 && i < |sorted|
    ensures RoundFill(sorted, d, i).0 == PeerEntry(Popped(sorted, i), Children(sorted, d, i))
    ensures RoundFill(sorted, d, i).1 == |sorted| - PoppedBy(|sorted|, d, i + 1)
    ensures PoppedBy(|sorted|, d, i) <= PoppedBy(|sorted|, d, i + 1) <= |sorted|
    ensures RoundFill(sorted, d, i).2 == QueueFrom(sorted, i + 1, PoppedBy(|sorted|, d, i + 1))
  {
    PoppedByStep(|sorted|, d, i);
    RoundPops(sorted, d, i);
    RoundLinks(sorted, d, i);
    RoundQueue(sorted, d, i);
  }

  lemma RoundLinks(sorted: seq<PeerId>, d: nat, i: nat)
    requires Distinct(sorted) && d >= 1 && i < |sorted|
    ensures RoundFill(sorted, d, i).0 == PeerEntry(Popped(sorted, i), Children(sorted, d, i))
  {
    var n := |sorted|;
    var c := PoppedBy(n, d, i);
    var c' := PoppedBy(n, d, i + 1);
    PoppedByStep(n, d, i);
    var queue := QueueFrom(sorted, i, c);
    var f := RoundFill(sorted, d, i);
    RoundPops(sorted, d, i);
    assert f.0.neighbors == Elems(sorted[n - c'..n - c]) by {
      FillLinksPopped(sorted, d, queue[0], n - c, queue[1..]);
    }
    PoppedStretch(sorted, c, c');
  }

  lemma RoundQueue(sorted: seq<PeerId>, d: nat, i: nat)
    requires Distinct(sorted) && d >= 1 && i < |sorted|
    ensures RoundFill(sorted, d, i).2 == QueueFrom(sorted, i + 1, PoppedBy(|sorted|, d, i + 1))
  {
    var n := |sorted|;
    var c := PoppedBy(n, d, i);
    var c' := PoppedBy(n, d, i + 1);
    PoppedByStep(n, d, i);
    var queue := QueueFrom(sorted, i, c);
    RoundPops(sorted, d, i);
    assert RoundFill(sorted, d, i).2 == queue[1..] + Entries(sorted, n - c', n - c);
    QueueAdvance(sorted, i, c, c');
  }

  lemma RoundPops(sorted: seq<PeerId>, d: nat, i: nat)
    requires Distinct(sorted) && d >= 1 && i < |sorted|
    ensures RoundFill(sorted, d, i).1 == |sorted| - PoppedBy(|sorted|, d, i + 1)
  {
    var n := |sorted|;
    var c := PoppedBy(n, d, i);
    PoppedByStep(n, d, i);
    var queue := QueueFrom(sorted, i, c);
    FillCount(sorted, d, queue[0], n - c, queue[1..]);
  }

  /** Dropping the front of the queue and appending the ids just popped gives the queue of
      the next round. */
  lemma QueueAdvance(sorted: seq<PeerId>, i: nat, c: nat, c': nat)
    requires i < c <= c' <= |sorted|
    ensures QueueFrom(sorted, i, c)[1..] + Entries(sorted, |sorted| - c', |sorted| - c)
      == QueueFrom(sorted, i + 1, c')
  {
    var n := |sorted|;
    var a := QueueFrom(sorted, i, c)[1..];
    var b := Entries(sorted, n - c', n - c);
    var q := QueueFrom(sorted, i + 1, c');
    forall t | 0 <= t < |q| ensures (a + b)[t] == q[t] {
      if t < |a| {
        assert a[t] == QueueFrom(sorted, i, c)[t + 1];
      } else {
        var u := t - |a|;
        assert (a + b)[t] == b[u];
        assert n - c - 1 - u == n - 1 - (i + 1 + t);
      }
    }
  }

  /** From the state after `i` rounds the outer loop ends in the full layout. */
  lemma {:induction false} RunLayout(sorted: seq<PeerId>, d: nat, i: nat)
    requires Distinct(sorted) && d >= 1 && 0 < |sorted| && i <= |sorted|
    ensures var n := |sorted|;
      var c := PoppedBy(n, d, i);
      i <= c <= n &&
      Run(sorted, d, n - c, QueueFrom(sorted, i, c), Layout(sorted, d, i)) == Layout(sorted, d, n)
    decreases |sorted| - i
  {
    var n := |sorted|;
    if i < n {
      RunRound(sorted, d, i);
      RunLayout(sorted, d, i + 1);
    } else {
      RunDone(sorted, d);
    }
  }

  /** After the last round the queue is empty and the loop stops. */
  lemma RunDone(sorted: seq<PeerId>, d: nat)
    requires d >= 1 && 0 < |sorted|
    ensures var n := |sorted|;
      PoppedBy(n, d, n) == n &&
      Run(sorted, d, 0, QueueFrom(sorted, n, n), Layout(sorted, d, n)) == Layout(sorted, d, n)
  {
    var n := |sorted|;
    assert d * n >= n;
    assert QueueFrom(sorted, n, n) == [];
  }

  /** One round of the outer loop takes the state after `i` rounds to the state after
      `i + 1`. */
  lemma RunRound(sorted: seq<PeerId>, d: nat, i: nat)
    requires Distinct(sorted) && d >= 1 && i < |sorted|
    ensures var n := |sorted|;
      var c := PoppedBy(n, d, i);
      var c' := PoppedBy(n, d, i + 1);
      i < c <= c' <= n &&
      Run(sorted, d, n - c, QueueFrom(sorted, i, c), Layout(sorted, d, i))
        == Run(sorted, d, n - c', QueueFrom(sorted, i + 1, c'), Layout(sorted, d, i + 1))
  {
    var n := |sorted|;
    PoppedByStep(n, d, i);
    RoundStep(sorted, d, i);
    var c := PoppedBy(n, d, i);
    var queue := QueueFrom(sorted, i, c);
    var f := RoundFill(sorted, d, i);
    assert f == Fill(sorted, d, queue[0], n - c, queue[1..]);
    assert Layout(sorted, d, i + 1) == Layout(sorted, d, i)[f.0.id := f.0.neighbors];
  }

  /** For distinct ids and a degree bound of at least one, `spanning_tree` is the
      breadth-first layout: the `i`-th smallest id is given the next `d` ids in ascending
      order as its out-set. */
  lemma SpanningTreeIsLayout(peers: seq<PeerId>, d: nat)
    requires Distinct(peers) && d >= 1 && |peers| > 0
    ensures SpanningTree(peers, d) == Layout(SortDesc(peers), d, |peers|)
  {
    var sorted := SortDesc(peers);
    assert |sorted| == |multiset(sorted)| == |multiset(peers)| == |peers|;
    DistinctPermutation(peers, sorted);
    RunLayout(sorted, d, 0);
    assert QueueFrom(sorted, 0, 1) == [Root(sorted)];
  }

  /** Distinct ids are popped at distinct positions. */
  lemma PoppedInjective(sorted: seq<PeerId>, x: nat, y: nat)
    requires Distinct(sorted) && x < |sorted| && y < |sorted|
    ensures Popped(sorted, x) == Popped(sorted, y) <==> x == y
  {
    var n := |sorted|;
    if x < y {
      assert n - 1 - y < n - 1 - x;
    } else if y < x {
      assert n - 1 - x < n - 1 - y;
    }
  }

  lemma InPoppedBetween(sorted: seq<PeerId>, lo: nat, hi: nat, x: nat)
    requires Distinct(sorted) && hi <= |sorted| && x < |sorted|
    ensures Popped(sorted, x) in PoppedBetween(sorted, lo, hi) <==> lo <= x < hi
  {
    if Popped(sorted, x) in PoppedBetween(sorted, lo, hi) {
      var y: nat :| lo <= y < hi && Popped(sorted, y) == Popped(sorted, x);
      PoppedInjective(sorted, x, y);
    }
  }

  lemma PoppedBetweenSnoc(sorted: seq<PeerId>, i: nat)
    requires 0 < i <= |sorted|
    ensures PoppedBetween(sorted, 0, i) == PoppedBetween(sorted, 0, i - 1) + {Popped(sorted, i - 1)}
  {
    forall y ensures y in PoppedBetween(sorted, 0, i) <==> y in PoppedBetween(sorted, 0, i - 1) || y == Popped(sorted, i - 1) {
      if y in PoppedBetween(sorted, 0, i) {
        var x: nat :| x < i && Popped(sorted, x) == y;
        if x < i - 1 {
          assert y in PoppedBetween(sorted, 0, i - 1);
        }
      }
      if y in PoppedBetween(sorted, 0, i - 1) {
        var x: nat :| x < i - 1 && Popped(sorted, x) == y;
        assert y in PoppedBetween(sorted, 0, i);
      }
    }
  }

  /** The vertices recorded after `i` rounds are the first `i` ids popped, each with its
      own stretch of children. */
  lemma LayoutFacts(sorted: seq<PeerId>, d: nat, i: nat)
    requires Distinct(sorted) && 0 < |sorted| && i <= |sorted|
    ensures Layout(sorted, d, i).Keys == PoppedBetween(sorted, 0, i)
    ensures forall j :: 0 <= j < i ==> Layout(sorted, d, i)[Popped(sorted, j)] == Children(sorted, d, j)
  {
    LayoutKeys(sorted, d, i);
    forall j | 0 <= j < i
      ensures Layout(sorted, d, i)[Popped(sorted, j)] == Children(sorted, d, j)
    {
      LayoutValue(sorted, d, i, j);
    }
  }

  lemma {:induction false} LayoutKeys(sorted: seq<PeerId>, d: nat, i: nat)
    requires i <= |sorted|
    ensures Layout(sorted, d, i).Keys == PoppedBetween(sorted, 0, i)
    decreases i
  {
    if i > 0 {
      LayoutKeys(sorted, d, i - 1);
      PoppedBetweenSnoc(sorted, i);
    }
  }

  lemma {:induction false} LayoutValue(sorted: seq<PeerId>, d: nat, i: nat, j: nat)
    requires Distinct(sorted) && j < i <= |sorted|
    ensures Popped(sorted, j) in Layout(sorted, d, i)
    ensures Layout(sorted, d, i)[Popped(sorted, j)] == Children(sorted, d, j)
    decreases i
  {
    if j < i - 1 {
      LayoutValue(sorted, d, i - 1, j);
      PoppedInjective(sorted, j, i - 1);
    }
  }

  lemma {:induction false} MulMonotone(d: nat, a: nat, b: nat)
    requires a <= b
    ensures d * a <= d * b
    decreases b - a
  {
    if a < b {
      MulMonotone(d, a, b - 1);
      assert d * b == d * (b - 1) + d;
    }
  }

  /** `y` lies in the `j`-th band of width `d` exactly when `j` is its quotient by `d`. */
  lemma DivBand(y: nat, d: nat, j: nat)
    requires d >= 1
    ensures d * j <= y < d * j + d <==> j == y / d
  {
    var q := y / d;
    assert y == d * q + y % d;
    if d * j <= y < d * j + d {
      if j < q {
        assert d * (j + 1) == d * j + d;
        MulMonotone(d, j + 1, q);
      } else if j > q {
        assert d * (q + 1) == d * q + d;
        MulMonotone(d, q + 1, j);
      }
    }
  }

  /** Every id but the smallest has exactly one parent: the `x`-th id popped is a child of
      the `((x - 1) / d)`-th, and the root is nobody's child. */
  lemma ChildOf(sorted: seq<PeerId>, d: nat, j: nat, x: nat)
    requires Distinct(sorted) && d >= 1 && 0 < |sorted| && x < |sorted|
    ensures Popped(sorted, x) in Children(sorted, d, j) <==> 1 <= x && j == (x - 1) / d
  {
    var n := |sorted|;
    InPoppedBetween(sorted, PoppedBy(n, d, j), PoppedBy(n, d, j + 1), x);
    assert d * (j + 1) == d * j + d;
    if 1 <= x {
      DivBand(x - 1, d, j);
    }
  }

  /** The root of `spanning_tree` is the smallest id. */
  lemma RootIsSmallest(peers: seq<PeerId>, u: PeerId)
    requires |peers| > 0 && u in peers
    ensures LexLeq(Popped(SortDesc(peers), 0), u)
  {
    var sorted := SortDesc(peers);
    SortDescElems(peers);
    assert u in Elems(sorted);
    var k :| 0 <= k < |sorted| && sorted[k] == u;
    if k < |sorted| - 1 {
      assert LexLeq(sorted[|sorted| - 1], sorted[k]);
    }
  }

  /** For distinct ids, the `j`-th smallest id is a vertex whose out-set is its stretch of
      the ascending order. */
  lemma SpanningTreeOutSet(peers: seq<PeerId>, d: nat, j: nat)
    requires Distinct(peers) && d >= 1 && j < |peers|
    ensures var sorted := SortDesc(peers);
      Popped(sorted, j) in SpanningTree(peers, d) &&
      SpanningTree(peers, d)[Popped(sorted, j)] == Children(sorted, d, j)
  {
    var sorted := SortDesc(peers);
    DistinctPermutation(peers, sorted);
    SpanningTreeIsLayout(peers, d);
    LayoutFacts(sorted, d, |sorted|);
    InPoppedBetween(sorted, 0, |sorted|, j);
  }

  /** For distinct ids, `spanning_tree` is a tree hanging from the smallest id: each
      vertex's out-set is its stretch of the ascending order, and every other vertex has
      exactly one parent. */
  lemma SpanningTreeParent(peers: seq<PeerId>, d: nat, x: nat, j: nat)
    requires Distinct(peers) && d >= 1 && x < |peers| && j < |peers|
    ensures var sorted := SortDesc(peers);
      var tree := SpanningTree(peers, d);
      Popped(sorted, j) in tree &&
      (Popped(sorted, x) in tree[Popped(sorted, j)] <==> 1 <= x && j == (x - 1) / d)
  {
    var sorted := SortDesc(peers);
    DistinctPermutation(peers, sorted);
    SpanningTreeOutSet(peers, d, j);
    ChildOf(sorted, d, j, x);
  }

  // ---------------------------------------------------------------------------
  // The unit tests' ten peers

  /** The ids "0" to "9", as the unit tests build them with `to_string`. */
  function TenIds(): (ids: seq<PeerId>)
    ensures |ids| == 10
  {
    seq(10, i requires 0 <= i < 10 => NatToString(i))
  }

  lemma DigitCharValue(d: nat)
    requires d < 10
    ensures DigitChar(d) as int == '0' as int + d
  {
    assert d == 0 || d == 1 || d == 2 || d == 3 || d == 4 || d == 5 || d == 6 || d == 7 || d == 8 || d == 9;
  }

  lemma DigitOrder(a: nat, b: nat)
    requires a < b < 10
    ensures LexLess(NatToString(a), NatToString(b))
  {
    DigitCharValue(a);
    DigitCharValue(b);
  }

  lemma TenIdsDistinct()
    ensures Distinct(TenIds())
  {
    forall i, j | 0 <= i < j < 10 ensures TenIds()[i] != TenIds()[j] {
      DigitOrder(i, j);
      LexIrreflexive(TenIds()[i]);
    }
  }

  /** Sorting the ten ids descending gives "9" down to "0". */
  lemma TenIdsSorted()
    ensures SortDesc(TenIds()) == TenDesc()
  {
    TenDescSorted();
    TenDescPermutes();
    SortedDescUnique(SortDesc(TenIds()), TenDesc());
  }

  /** "9" down to "0". */
  function TenDesc(): seq<PeerId> {
    seq(10, i requires 0 <= i < 10 => NatToString(9 - i))
  }

  lemma TenDescSorted()
    ensures SortedDesc(TenDesc())
  {
    var desc := TenDesc();
    forall i, j | 0 <= i < j < 10 ensures LexLeq(desc[j], desc[i]) {
      DigitOrder(9 - j, 9 - i);
    }
  }

  lemma TenDescPermutes()
    ensures multiset(TenDesc()) == multiset(TenIds())
  {
    var ids := TenIds();
    var desc := TenDesc();
    var rev := Reverse(ids);
    forall k | 0 <= k < 10 ensures desc[k] == rev[k] {
      assert rev[k] == ids[9 - k];
    }
    assert desc == rev;
    ReverseMultiset(ids);
  }

  /** The decimal ids from `lo` up to `hi`. */
  function Decimals(lo: nat, hi: nat): set<PeerId> {
    set x: nat | lo <= x < hi :: NatToString(x)
  }

  /** The `x`-th id popped from the sorted ten is the `x`-th smallest, `x` itself. */
  lemma TenPopped(x: nat)
    requires x < 10
    ensures |SortDesc(TenIds())| == 10 && Popped(SortDesc(TenIds()), x) == NatToString(x)
  {
    TenIdsSorted();
  }

  /** The out-set the ten-peer tree gives to id `j`. */
  lemma TenOutSet(j: nat)
    requires j < 10
    ensures NatToString(j) in SpanningTree(TenIds(), 3)
    ensures SpanningTree(TenIds(), 3)[NatToString(j)]
      == Decimals(PoppedBy(10, 3, j), PoppedBy(10, 3, j + 1))
  {
    TenIdsDistinct();
    TenPopped(j);
    SpanningTreeOutSet(TenIds(), 3, j);
    TenPoppedBetween(PoppedBy(10, 3, j), PoppedBy(10, 3, j + 1));
  }

  lemma TenPoppedBetween(lo: nat, hi: nat)
    requires lo <= hi <= 10
    ensures |SortDesc(TenIds())| == 10
    ensures PoppedBetween(SortDesc(TenIds()), lo, hi) == Decimals(lo, hi)
  {
    var sorted := SortDesc(TenIds());
    TenPopped(0);
    forall y ensures y in PoppedBetween(sorted, lo, hi) <==> y in Decimals(lo, hi) {
      if y in PoppedBetween(sorted, lo, hi) {
        var x: nat :| lo <= x < hi && Popped(sorted, x) == y;
        TenPopped(x);
      }
      if y in Decimals(lo, hi) {
        var x: nat :| lo <= x < hi && NatToString(x) == y;
        TenPopped(x);
        assert Popped(sorted, x) == y;
      }
    }
  }

  lemma ThreeStrings(a: nat)
    requires a + 2 < 10
    ensures Decimals(a, a + 3) == {NatToString(a), NatToString(a + 1), NatToString(a + 2)}
  {
  }

  /** `test_spanning_tree`: ten peers with degree 3 give 0 -> {1, 2, 3}, 1 -> {4, 5, 6},
      2 -> {7, 8, 9} and no out-edges from the rest. */
  lemma SpanningTreeTenPeers()
    ensures SpanningTree(TenIds(), 3).Keys == Elems(TenIds())
    ensures "0" in SpanningTree(TenIds(), 3) && SpanningTree(TenIds(), 3)["0"] == {"1", "2", "3"}
    ensures "1" in SpanningTree(TenIds(), 3) && SpanningTree(TenIds(), 3)["1"] == {"4", "5", "6"}
    ensures "2" in SpanningTree(TenIds(), 3) && SpanningTree(TenIds(), 3)["2"] == {"7", "8", "9"}
    ensures forall i | 3 <= i < 10 ::
      NatToString(i) in SpanningTree(TenIds(), 3) && SpanningTree(TenIds(), 3)[NatToString(i)] == {}
  {
    SpanningTreeKeys(TenIds(), 3);
    TenVertexZero();
    TenVertexOne();
    TenVertexTwo();
    TenLeaves();
  }

  lemma TenVertexZero()
    ensures "0" in SpanningTree(TenIds(), 3) && SpanningTree(TenIds(), 3)["0"] == {"1", "2", "3"}
  {
    assert NatToString(0) == "0" && NatToString(1) == "1" && NatToString(2) == "2" && NatToString(3) == "3";
    TenInner(0, 1);
  }

  lemma TenVertexOne()
    ensures "1" in SpanningTree(TenIds(), 3) && SpanningTree(TenIds(), 3)["1"] == {"4", "5", "6"}
  {
    assert NatToString(1) == "1" && NatToString(4) == "4" && NatToString(5) == "5" && NatToString(6) == "6";
    TenInner(1, 4);
  }

  lemma TenVertexTwo()
    ensures "2" in SpanningTree(TenIds(), 3) && SpanningTree(TenIds(), 3)["2"] == {"7", "8", "9"}
  {
    assert NatToString(2) == "2" && NatToString(7) == "7" && NatToString(8) == "8" && NatToString(9) == "9";
    TenInner(2, 7);
  }

  lemma TenLeaves()
    ensures forall i | 3 <= i < 10 ::
      NatToString(i) in SpanningTree(TenIds(), 3) && SpanningTree(TenIds(), 3)[NatToString(i)] == {}
  {
    forall i | 3 <= i < 10
      ensures NatToString(i) in SpanningTree(TenIds(), 3) && SpanningTree(TenIds(), 3)[NatToString(i)] == {}
    {
      TenLeaf(i);
    }
  }

  /** The three inner vertices of the ten-peer tree, each with three children. */
  lemma TenInner(j: nat, a: nat)
    requires j < 3 && a == 1 + 3 * j
    ensures NatToString(j) in SpanningTree(TenIds(), 3)
    ensures SpanningTree(TenIds(), 3)[NatToString(j)] == {NatToString(a), NatToString(a + 1), NatToString(a + 2)}
  {
    TenOutSet(j);
    assert PoppedBy(10, 3, j) == a && PoppedBy(10, 3, j + 1) == a + 3;
    ThreeStrings(a);
  }

  /** The other seven vertices of the ten-peer tree are leaves. */
  lemma TenLeaf(i: nat)
    requires 3 <= i < 10
    ensures NatToString(i) in SpanningTree(TenIds(), 3)
    ensures SpanningTree(TenIds(), 3)[NatToString(i)] == {}
  {
    TenOutSet(i);
    assert PoppedBy(10, 3, i) == 10 && PoppedBy(10, 3, i + 1) == 10;
    assert Decimals(10, 10) == {};
  }

  /** `test_complete_graph`: ten vertices, each pair linked. */
  lemma CompleteGraphTenPeers()
    ensures |CompleteGraph(TenIds())| == 10
    ensures forall u, v | u in CompleteGraph(TenIds()) && v in CompleteGraph(TenIds()) && u != v ::
      v in CompleteGraph(TenIds())[u] || u in CompleteGraph(TenIds())[v]
  {
    TenIdsDistinct();
    CompleteGraphSize(TenIds());
    forall u, v | u in CompleteGraph(TenIds()) && v in CompleteGraph(TenIds()) && u != v
      ensures v in CompleteGraph(TenIds())[u] || u in CompleteGraph(TenIds())[v]
    {
      CompleteGraphIsComplete(TenIds(), u, v);
    }
  }
}

=== FILE: latency.dfy ===
/** The latency statistics `process_peer` keeps while consuming records: event count,
    running total, minimum, maximum and mean. The Rust consumer works on `u64` with an
    integer mean (container-mesh/peer/src/consumer.rs); the TypeScript one on JavaScript
    numbers with an exact mean and no sign restriction (container-mesh/ts/src/consumer.ts). */
module Latency {
  import opened Types

  /** The latencies `now - timestamp` of records, in order, as both Rust consumers compute
      them in `u64`. */
  function Latencies(recs: seq<PeerRecord>, now: nat): (lats: seq<nat>)
    requires forall m :: 0 <= m < |recs| ==> recs[m].timestamp <= now
    ensures |lats| == |recs|
    ensures forall m :: 0 <= m < |recs| ==> lats[m] + recs[m].timestamp == now
  {
    seq(|recs|, m requires 0 <= m < |recs| => now - recs[m].timestamp)
  }

  /** Reference definitions over a list of latencies. */
  function Sum(xs: seq<int>): int {
    if |xs| == 0 then 0 else xs[0] + Sum(xs[1..])
  }

  function Min(a: int, b: int): int { if a <= b then a else b }
  function Max(a: int, b: int): int { if a >= b then a else b }

  function SeqMin(xs: seq<int>): (m: int)
    requires |xs| > 0
    ensures m in xs && forall x :: x in xs ==> m <= x
  {
    if |xs| == 1 then xs[0]
    else
      assert xs == [xs[0]] + xs[1..];
      Min(xs[0], SeqMin(xs[1..]))
  }

  function SeqMax(xs: seq<int>): (m: int)
    requires |xs| > 0
    ensures m in xs && forall x :: x in xs ==> x <= m
  {
    if |xs| == 1 then xs[0]
    else
      assert xs == [xs[0]] + xs[1..];
      Max(xs[0], SeqMax(xs[1..]))
  }

  lemma SumNonNegative(xs: seq<nat>)
    ensures Sum(xs) >= 0
  {
  }

  /** The Rust statistics with the running total the consumer keeps beside them. */
  datatype Tally = Tally(stats: LatencyStats, total: nat)

  /** One iteration of the Rust loop body for one record's latency. */
  function Fold(t: Tally, latency: nat): (r: Tally)
    ensures r.stats.numEvents == t.stats.numEvents + 1
    ensures r.total == t.total + latency
    ensures r.stats.minMsec <= latency <= r.stats.maxMsec
    ensures r.stats.minMsec <= t.stats.minMsec && t.stats.maxMsec <= r.stats.maxMsec
    ensures r.stats.minMsec in {t.stats.minMsec, latency} && r.stats.maxMsec in {t.stats.maxMsec, latency}
    ensures r.stats.avgMsec == r.total / r.stats.numEvents
    ensures r.stats.distinctPeers == t.stats.distinctPeers
  {
    var n := t.stats.numEvents + 1;
    var total := t.total + latency;
    Tally(LatencyStats(n, Min(t.stats.minMsec, latency), Max(t.stats.maxMsec, latency), total / n,
                       t.stats.distinctPeers), total)
  }

  /** The loop's folds over the consumed records' latencies, in order. */
  function FoldAll(t: Tally, lats: seq<nat>): (r: Tally)
    ensures r.stats.numEvents == t.stats.numEvents + |lats|
    ensures r.stats.distinctPeers == t.stats.distinctPeers
    ensures |lats| == 0 ==> r == t
    ensures |lats| > 0 ==> r.stats.avgMsec == r.total / r.stats.numEvents
    decreases |lats|
  {
    if |lats| == 0 then t else FoldAll(Fold(t, lats[0]), lats[1..])
  }

  /** Folding a list leaves the total, minimum, maximum and mean of the whole history:
      the statistics agree with the reference definitions over the latencies. */
  lemma {:induction false} FoldAllSummary(t: Tally, lats: seq<nat>)
    requires |lats| > 0
    ensures FoldAll(t, lats).total == t.total + Sum(lats)
    ensures FoldAll(t, lats).stats.minMsec == Min(t.stats.minMsec, SeqMin(lats))
    ensures FoldAll(t, lats).stats.maxMsec == Max(t.stats.maxMsec, SeqMax(lats))
    decreases |lats|
  {
    var t1 := Fold(t, lats[0]);
    if |lats| > 1 {
      FoldAllSummary(t1, lats[1..]);
      assert FoldAll(t, lats) == FoldAll(t1, lats[1..]);
    } else {
      assert FoldAll(t, lats) == t1 by {
        assert FoldAll(t1, lats[1..]) == t1;
      }
    }
  }

  /** From fresh statistics (and latencies that fit in a `u64`), the consumer reports
      exactly the count, minimum, maximum and integer mean of the latencies it saw. */
  lemma FreshFoldIsSummary(lats: seq<nat>)
    requires |lats| > 0
    requires forall l :: l in lats ==> l <= U64_MAX
    ensures FoldAll(Tally(NewLatencyStats(), 0), lats).stats.numEvents == |lats|
    ensures FoldAll(Tally(NewLatencyStats(), 0), lats).stats.minMsec == SeqMin(lats)
    ensures FoldAll(Tally(NewLatencyStats(), 0), lats).stats.maxMsec == SeqMax(lats)
    ensures FoldAll(Tally(NewLatencyStats(), 0), lats).stats.avgMsec == Sum(lats) / |lats|
  {
    FoldAllSummary(Tally(NewLatencyStats(), 0), lats);
    assert SeqMin(lats) in lats;
  }

  /** The TypeScript `LatencyStats`: JavaScript numbers, so latencies are signed and the
      mean is an exact quotient. */
  datatype TsStats = TsStats(numEvents: nat, minMsec: int, maxMsec: int, avgMsec: real, distinctPeers: nat)

  datatype TsTally = TsTally(stats: TsStats, total: int)

  /** `Number.MAX_SAFE_INTEGER`, where `new LatencyStats()` starts the minimum. */
  const MAX_SAFE_INTEGER: int := 0x1F_FFFF_FFFF_FFFF

  /** `new LatencyStats()`, with the consumer's zero total. */
  function NewTsTally(): (t: TsTally)
    ensures t.stats.numEvents == 0 && t.total == 0 && t.stats.distinctPeers == 0
    ensures t.stats.minMsec == MAX_SAFE_INTEGER && t.stats.maxMsec == 0 && t.stats.avgMsec == 0.0
  {
    TsTally(TsStats(0, MAX_SAFE_INTEGER, 0, 0.0, 0), 0)
  }

  /** One iteration of the TypeScript loop body for one record's latency. */
  function TsFold(t: TsTally, latency: int): (r: TsTally)
    ensures r.stats.numEvents == t.stats.numEvents + 1 && r.total == t.total + latency
    ensures r.stats.minMsec <= latency <= r.stats.maxMsec
    ensures r.stats.minMsec <= t.stats.minMsec && t.stats.maxMsec <= r.stats.maxMsec
    ensures r.stats.avgMsec * (r.stats.numEvents as real) == r.total as real
    ensures r.stats.distinctPeers == t.stats.distinctPeers
  {
    var n := t.stats.numEvents + 1;
    var total := t.total + latency;
    TsTally(TsStats(n, Min(t.stats.minMsec, latency), Max(t.stats.maxMsec, latency),
                    total as real / n as real, t.stats.distinctPeers), total)
  }

  function TsFoldAll(t: TsTally, lats: seq<int>): (r: TsTally)
    ensures r.stats.numEvents == t.stats.numEvents + |lats|
    ensures r.stats.distinctPeers == t.stats.distinctPeers
    ensures |lats| == 0 ==> r == t
    ensures |lats| > 0 ==> r.stats.avgMsec * (r.stats.numEvents as real) == r.total as real
    decreases |lats|
  {
    if |lats| == 0 then t else TsFoldAll(TsFold(t, lats[0]), lats[1..])
  }

  /** The TypeScript statistics agree with the reference definitions over the latencies. */
  lemma {:induction false} TsFoldAllSummary(t: TsTally, lats: seq<int>)
    requires |lats| > 0
    ensures TsFoldAll(t, lats).total == t.total + Sum(lats)
    ensures TsFoldAll(t, lats).stats.minMsec == Min(t.stats.minMsec, SeqMin(lats))
    ensures TsFoldAll(t, lats).stats.maxMsec == Max(t.stats.maxMsec, SeqMax(lats))
    decreases |lats|
  {
    var t1 := TsFold(t, lats[0]);
    if |lats| > 1 {
      TsFoldAllSummary(t1, lats[1..]);
      assert TsFoldAll(t, lats) == TsFoldAll(t1, lats[1..]);
    } else {
      assert TsFoldAll(t, lats) == t1 by {
        assert TsFoldAll(t1, lats[1..]) == t1;
      }
    }
  }
}

=== FILE: legacy_consumer.dfy ===
/** The earlier Rust consumer of peer/src/consumer.rs: logs are unbounded (record `i`
    under key `i.to_string()`), each peer's cursor is just the next index to read, and a
    pass reads forward until the first missing key. Every log in the document is
    processed, the peer's own included. */
module LegacyConsumer {
  import opened Wrappers
  import opened Types
  import opened Latency
  import opened RingScan

  /** The keys of indices below `i`. */
  function KeysBelow(i: nat): set<string> {
    set j | 0 <= j < i :: Key(j)
  }

  lemma KeysBelowStep(i: nat)
    ensures Key(i) !in KeysBelow(i)
    ensures KeysBelow(i + 1) == KeysBelow(i) + {Key(i)}
  {
    if Key(i) in KeysBelow(i) {
      var j :| 0 <= j < i && Key(j) == Key(i);
      KeyInjective(i, j);
    }
  }

  /** The record under key `k`, if any. */
  function Lookup(log: PeerLog, k: string): (r: Option<PeerRecord>)
    ensures r.Some? <==> k in log
    ensures r.Some? ==> r.value == log[k]
  {
    if k in log then Some(log[k]) else None
  }

  /** `recs` are the records under the consecutive keys from index `i` on. */
  ghost predicate ReadsFrom(log: PeerLog, i: nat, recs: seq<PeerRecord>) {
    forall m :: 0 <= m < |recs| ==> Lookup(log, Key(i + m)) == Some(recs[m])
  }

  /** The records read from index `i` on: the longest run of consecutive keys present. */
  function RunFrom(log: PeerLog, i: nat): (recs: seq<PeerRecord>)
    ensures ReadsFrom(log, i, recs)
    ensures Key(i + |recs|) !in log
    decreases |log.Keys - KeysBelow(i)|
  {
    if Key(i) !in log then
      SameKey(i + 0, i);
      []
    else
      RemainingShrinks(log, i);
      var rest := RunFrom(log, i + 1);
      ReadsCons(log, i, rest);
      var recs := [log[Key(i)]] + rest;
      SameKey(i + |recs|, (i + 1) + |rest|);
      recs
  }

  lemma SameKey(a: nat, b: nat)
    requires a == b
    ensures Key(a) == Key(b)
  {
  }

  /** The record at `i` followed by a run from `i + 1` is a run from `i`. */
  lemma ReadsCons(log: PeerLog, i: nat, rest: seq<PeerRecord>)
    requires Key(i) in log && ReadsFrom(log, i + 1, rest)
    ensures ReadsFrom(log, i, [log[Key(i)]] + rest)
  {
    var recs := [log[Key(i)]] + rest;
    forall m | 0 <= m < |recs| ensures Lookup(log, Key(i + m)) == Some(recs[m]) {
      if m > 0 {
        assert recs[m] == rest[m - 1];
        assert i + m == (i + 1) + (m - 1);
      }
    }
  }

  /** Reading index `i` leaves fewer unread keys. */
  lemma RemainingShrinks(log: PeerLog, i: nat)
    requires Key(i) in log
    ensures |log.Keys - KeysBelow(i + 1)| < |log.Keys - KeysBelow(i)|
  {
    KeysBelowStep(i);
    assert log.Keys - KeysBelow(i + 1) == (log.Keys - KeysBelow(i)) - {Key(i)};
  }

  /** A run of present keys from `i` is no longer than the log: the loop ends. */
  lemma {:induction false} RunFromBounded(log: PeerLog, i: nat)
    ensures |RunFrom(log, i)| <= |log.Keys - KeysBelow(i)|
    decreases |log.Keys - KeysBelow(i)|
  {
    if Key(i) in log {
      KeysBelowStep(i);
      assert log.Keys - KeysBelow(i + 1) == (log.Keys - KeysBelow(i)) - {Key(i)};
      RunFromBounded(log, i + 1);
    }
  }

  datatype LegacyConsumer = LegacyConsumer(nextByPeer: map<PeerId, nat>, tally: Tally)

  function NewLegacyConsumer(): (c: LegacyConsumer)
    ensures c.nextByPeer == map[] && c.tally == Tally(NewLatencyStats(), 0)
  {
    LegacyConsumer(map[], Tally(NewLatencyStats(), 0))
  }

  /** `peek_next_idx`: the stored index, or 0. */
  function PeekNextIdx(c: LegacyConsumer, id: PeerId): (i: nat)
    ensures id in c.nextByPeer ==> i == c.nextByPeer[id]
    ensures id !in c.nextByPeer ==> i == 0
  {
    if id in c.nextByPeer then c.nextByPeer[id] else 0
  }

  /** No record in the log is stamped after `now` (the latency is a `u64` difference). */
  ghost predicate LogNotAfter(log: PeerLog, now: nat) {
    forall k :: k in log ==> log[k].timestamp <= now
  }

  /** `process_peer`: read records from the stored index until a key is missing, fold
      their latencies in, and store the missing key's index as the next one. */
  function ProcessPeer(c: LegacyConsumer, id: PeerId, log: PeerLog, now: nat): (r: LegacyConsumer)
    requires LogNotAfter(log, now)
    ensures var i := PeekNextIdx(c, id);
      && PeekNextIdx(r, id) == i + |RunFrom(log, i)|
      && Key(PeekNextIdx(r, id)) !in log
      && r.tally == FoldAll(c.tally, Latencies(RunFrom(log, i), now))
    ensures forall p :: p != id ==> PeekNextIdx(r, p) == PeekNextIdx(c, p)
    ensures r.nextByPeer.Keys == c.nextByPeer.Keys + {id}
  {
    var i := PeekNextIdx(c, id);
    var recs := RunFrom(log, i);
    var r := LegacyConsumer(c.nextByPeer[id := i + |recs|], FoldAll(c.tally, Latencies(recs, now)));
    SameKey(PeekNextIdx(r, id), i + |recs|);
    r
  }

  /** Unlike the ring consumer, a pass over an unchanged log consumes nothing and keeps
      the cursor. */
  lemma ReplayIsNoOp(c: LegacyConsumer, id: PeerId, log: PeerLog, now: nat, later: nat)
    requires LogNotAfter(log, now) && LogNotAfter(log, later)
    ensures var r1 := ProcessPeer(c, id, log, now);
      ProcessPeer(r1, id, log, later) == r1
  {
    var r1 := ProcessPeer(c, id, log, now);
    assert RunFrom(log, PeekNextIdx(r1, id)) == [];
  }

  /** A record appended at the next index is read by the next pass. */
  lemma ReadsAppendedRecord(c: LegacyConsumer, id: PeerId, log: PeerLog, now: nat, rec: PeerRecord, later: nat)
    requires LogNotAfter(log, now)
    requires LogNotAfter(log[Key(PeekNextIdx(ProcessPeer(c, id, log, now), id)) := rec], later)
    ensures var r1 := ProcessPeer(c, id, log, now);
      var log2 := log[Key(PeekNextIdx(r1, id)) := rec];
      var run := RunFrom(log2, PeekNextIdx(r1, id));
      |run| >= 1 && run[0] == rec
  {
  }

  /** `process_peer_doc`: every log, in the map's iteration order `order`. */
  function ProcessPeerDoc(c: LegacyConsumer, logs: map<PeerId, PeerLog>, order: seq<PeerId>, now: nat): (r: LegacyConsumer)
    requires forall k :: k in order ==> k in logs
    requires forall p :: p in logs ==> LogNotAfter(logs[p], now)
    ensures r.nextByPeer.Keys == c.nextByPeer.Keys + (set p | p in order)
    ensures forall p :: p !in order ==> PeekNextIdx(r, p) == PeekNextIdx(c, p)
    decreases |order|
  {
    if |order| == 0 then c
    else
      var c1 := ProcessPeer(c, order[0], logs[order[0]], now);
      var r := ProcessPeerDoc(c1, logs, order[1..], now);
      MembersCons(order);
      r
  }

  lemma MembersCons(order: seq<PeerId>)
    requires |order| > 0
    ensures (set p | p in order) == {order[0]} + (set p | p in order[1..])
    ensures forall p :: p in order <==> p == order[0] || p in order[1..]
  {
    assert order == [order[0]] + order[1..];
  }

  /** `get_message_latency`: the statistics, with the number of peers holding a cursor. */
  function GetMessageLatency(c: LegacyConsumer): (s: LatencyStats)
    ensures s.distinctPeers == |c.nextByPeer|
    ensures s.numEvents == c.tally.stats.numEvents && s.avgMsec == c.tally.stats.avgMsec
    ensures s.minMsec == c.tally.stats.minMsec && s.maxMsec == c.tally.stats.maxMsec
  {
    c.tally.stats.(distinctPeers := |c.nextByPeer|)
  }

  /** The own log is not skipped: after one document the distinct-peer count is the
      number of logs in it, the consumer's own included. */
  lemma FreshDocCountsEveryLog(logs: map<PeerId, PeerLog>, order: seq<PeerId>, now: nat)
    requires forall k :: k in logs <==> k in order
    requires forall p :: p in logs ==> LogNotAfter(logs[p], now)
    ensures GetMessageLatency(ProcessPeerDoc(NewLegacyConsumer(), logs, order, now)).distinctPeers == |logs|
  {
    var r := ProcessPeerDoc(NewLegacyConsumer(), logs, order, now);
    assert r.nextByPeer.Keys == logs.Keys;
  }
}

=== FILE: legacy_coordinator.dfy ===
/** The pure bookkeeping of the older coordinator, coordinator/src/main.rs. It differs from
    `Coordinator` in two ways: heartbeats are folded in with `insert`, and the plan keeps
    the default start time and knows only two graph kinds. */
module LegacyCoordinator {
  import opened Wrappers
  import opened Types
  import opened PeerSets
  import Graph
  import Coordinator

  /** `process_heartbeat` as written: `insert` every sender, which leaves a peer already in
      the set as it was. */
  function ProcessHeartbeat(s: PeerSet, beats: map<PeerId, Heartbeat>, order: seq<PeerId>): (r: PeerSet)
    requires forall k :: k in order ==> k in beats
    ensures WellKeyed(s) ==> WellKeyed(r)
  {
    AddAll(s, Coordinator.Senders(beats, order), KeepExisting)
  }

  /** With `insert`, the set only grows by ids it did not know, and a known peer keeps the
      state it had when it was first seen, whatever its heartbeats now report. */
  lemma ProcessHeartbeatNeverUpdates(s: PeerSet, beats: map<PeerId, Heartbeat>, order: seq<PeerId>)
    requires forall k :: k in order ==> k in beats
    ensures ProcessHeartbeat(s, beats, order).Keys == s.Keys + IdsOf(Coordinator.Senders(beats, order))
    ensures forall id :: id in s ==> ProcessHeartbeat(s, beats, order)[id] == s[id]
  {
    AddAllKeys(s, Coordinator.Senders(beats, order), KeepExisting);
    forall id | id in s ensures ProcessHeartbeat(s, beats, order)[id] == s[id] {
      InsertKeepsKnown(s, Coordinator.Senders(beats, order), id);
    }
  }

  /** The wait of `wait_for_peer_states` over the peer set this coordinator keeps. */
  method WaitForPeerStates(s0: PeerSet, senders: seq<Peer>, states: seq<PeerState>, minPeers: nat)
    returns (r: Option<nat>)
    ensures r.Some? ==> r.value <= |senders| && QuorumMet(After(s0, senders, KeepExisting, r.value), states, minPeers)
    ensures r.Some? ==> forall j :: 0 <= j < r.value ==> !QuorumMet(After(s0, senders, KeepExisting, j), states, minPeers)
    ensures r.None? ==> forall j :: 0 <= j <= |senders| ==> !QuorumMet(After(s0, senders, KeepExisting, j), states, minPeers)
  {
    r := PeerSets.WaitForPeerStates(s0, senders, KeepExisting, states, minPeers);
  }

  /** The coordinator first waits for a quorum of peers in `Init`, then for the same number
      in `Running`. Once every known peer has been recorded in `Init`, heartbeats from those
      peers can never bring one of them into `Running`, so the second wait never ends. */
  lemma RunningQuorumUnreachable(s0: PeerSet, senders: seq<Peer>, minPeers: nat, j: nat)
    requires forall id :: id in s0 ==> s0[id].state == Init
    requires forall i :: 0 <= i < |senders| ==> senders[i].peerId in s0
    requires minPeers >= 1 && j <= |senders|
    ensures !QuorumMet(After(s0, senders, KeepExisting, j), [Running], minPeers)
  {
    var s := After(s0, senders, KeepExisting, j);
    assert IdsOf(senders[..j]) <= s0.Keys by {
      forall id | id in IdsOf(senders[..j]) ensures id in s0 {
        var i :| 0 <= i < j && senders[..j][i].peerId == id;
        assert senders[..j][i] == senders[i];
      }
    }
    AddAllKeys(s0, senders[..j], KeepExisting);
    forall id | id in s ensures s[id].state == Init {
      InsertKeepsKnown(s0, senders[..j], id);
    }
    assert InStates(s, [Running]) == {};
  }

  /** One peer seen in `Init` that then reports `Running`: the older coordinator never
      sees the `Running` quorum of one, while the `replace` fold of `Coordinator` sees it
      as soon as the second heartbeat is in. */
  lemma InitThenRunning(p: Peer)
    requires p.state == Init
    ensures !QuorumMet(After(map[], [p, p.(state := Running)], KeepExisting, 2), [Running], 1)
    ensures QuorumMet(After(map[], [p, p.(state := Running)], ReplaceExisting, 2), [Running], 1)
  {
    var senders := [p, p.(state := Running)];
    assert senders[..2] == senders && senders[..1] == [p] && senders[..0] == [];
    AfterStep(map[], senders, KeepExisting, 0);
    AfterStep(map[], senders, KeepExisting, 1);
    AfterStep(map[], senders, ReplaceExisting, 0);
    AfterStep(map[], senders, ReplaceExisting, 1);
    var kept := After(map[], senders, KeepExisting, 2);
    assert kept == map[p.peerId := p];
    assert InStates(kept, [Running]) == {};
    var replaced := After(map[], senders, ReplaceExisting, 2);
    assert replaced == map[p.peerId := p.(state := Running)];
    assert p.peerId in InStates(replaced, [Running]);
  }

  /** The two graph kinds this coordinator's `generate_plan` matches on. */
  datatype LegacyGraphType = Complete | SpanningTree

  /** `generate_plan`: the base plan (`ExecutionPlan::default()`) with every known peer
      copied in `order`, the requested graph and the duration; the start time is left as
      the default set it. The spanning tree's degree bound `CONN_GRAPH_MAX_DEGREE` is not
      defined in any file of this model and is a parameter. */
  function GeneratePlan(known: PeerSet, order: seq<PeerId>, durationSec: nat, graphType: LegacyGraphType,
                        base: ExecutionPlan, maxDegree: nat): (r: ExecutionPlan)
    requires Enumerates(order, known)
    ensures |r.peers| == |order| && forall i :: 0 <= i < |order| ==> r.peers[i] == known[order[i]]
    ensures r.testDurationSec == durationSec && r.startTime == base.startTime
    ensures r.(peers := base.peers, connections := base.connections, testDurationSec := base.testDurationSec) == base
  {
    var peers := seq(|order|, i requires 0 <= i < |order| => known[order[i]]);
    var peerIds := Coordinator.PeerIds(peers);
    var connections := match graphType
      case Complete => Graph.CompleteGraph(peerIds)
      case SpanningTree => Graph.SpanningTree(peerIds, maxDegree);
    base.(peers := peers, connections := connections, testDurationSec := durationSec)
  }

  /** The plan's graph has every known peer as a vertex (for the spanning tree, when the
      degree bound is at least one) and no other vertex. */
  lemma GeneratePlanConnects(known: PeerSet, order: seq<PeerId>, durationSec: nat, graphType: LegacyGraphType,
                             base: ExecutionPlan, maxDegree: nat)
    requires Enumerates(order, known) && WellKeyed(known)
    requires graphType.SpanningTree? ==> maxDegree >= 1
    ensures GeneratePlan(known, order, durationSec, graphType, base, maxDegree).connections.Keys == known.Keys
  {
    var peers := seq(|order|, i requires 0 <= i < |order| => known[order[i]]);
    assert Coordinator.PeerIds(peers) == order;
    assert Graph.Elems(order) == known.Keys;
    if graphType.SpanningTree? {
      Graph.SpanningTreeKeys(order, maxDegree);
    }
  }
}

=== FILE: minheap.dfy ===
/** container-mesh/common/src/minheap.rs: a min-heap wrapped around Rust's max-heap
    `BinaryHeap` by reversing the order. Only the contents matter to its callers, so the
    heap is its items in insertion order, and the element type is `int` in place of the
    source's generic `T: Ord`. */
module MinHeaps {
  import opened Wrappers

  datatype MinHeap = MinHeap(items: seq<int>)

  function Contents(h: MinHeap): multiset<int> {
    multiset(h.items)
  }

  /** `new`: an empty heap. */
  function New(): (h: MinHeap)
    ensures Contents(h) == multiset{} && Len(h) == 0
  {
    MinHeap([])
  }

  /** `len`: the number of items, repeats included. */
  function Len(h: MinHeap): (n: nat)
    ensures n == |Contents(h)|
  {
    |h.items|
  }

  /** `push`: one more occurrence of `x`. */
  function Push(h: MinHeap, x: int): (r: MinHeap)
    ensures Contents(r) == Contents(h) + multiset{x}
    ensures Len(r) == Len(h) + 1
  {
    MinHeap(h.items + [x])
  }

  /** The position of a smallest item. */
  function MinIndex(s: seq<int>): (k: nat)
    requires |s| > 0
    ensures k < |s| && forall i :: 0 <= i < |s| ==> s[k] <= s[i]
    decreases |s|
  {
    if |s| == 1 then 0
    else
      var k := MinIndex(s[..|s| - 1]);
      assert forall i :: 0 <= i < |s| - 1 ==> s[..|s| - 1][i] == s[i];
      if s[|s| - 1] < s[k] then |s| - 1 else k
  }

  /** `s` with position `k` removed. */
  function RemoveAt(s: seq<int>, k: nat): (r: seq<int>)
    requires k < |s|
    ensures multiset(r) + multiset{s[k]} == multiset(s)
  {
    assert s == s[..k] + [s[k]] + s[k + 1..];
    s[..k] + s[k + 1..]
  }

  /** `pop`: `None` on an empty heap; otherwise a smallest item, removed once. */
  function Pop(h: MinHeap): (r: (Option<int>, MinHeap))
    ensures r.0.None? <==> Len(h) == 0
    ensures r.0.None? ==> r.1 == h
    ensures r.0.Some? ==> Contents(r.1) + multiset{r.0.value} == Contents(h)
    ensures r.0.Some? ==> forall y :: y in Contents(r.1) ==> r.0.value <= y
  {
    if |h.items| == 0 then (None, h)
    else
      var k := MinIndex(h.items);
      (Some(h.items[k]), MinHeap(RemoveAt(h.items, k)))
  }

  /** `peek`: the item `pop` would return, leaving the heap as it is. */
  function Peek(h: MinHeap): (r: Option<int>)
    ensures r.None? <==> Len(h) == 0
    ensures r.Some? ==> r.value in Contents(h) && forall y :: y in Contents(h) ==> r.value <= y
  {
    if |h.items| == 0 then None else Some(h.items[MinIndex(h.items)])
  }

  /** `peek` and `pop` agree: the peeked item is the popped one, and it is the least item,
      so it does not depend on which smallest occurrence the heap holds. */
  lemma PeekIsPop(h: MinHeap)
    ensures Peek(h) == Pop(h).0
  {
  }

  /** Any two heaps with the same contents peek the same item. */
  lemma PeekDependsOnContents(a: MinHeap, b: MinHeap)
    requires Contents(a) == Contents(b)
    ensures Peek(a) == Peek(b)
  {
    if Len(a) > 0 {
      var x := Peek(a).value;
      var y := Peek(b).value;
      assert x in Contents(b) && y in Contents(a);
    }
  }

  /** Pop every item, smallest first. */
  function Drain(h: MinHeap): (out: seq<int>)
    ensures |out| == Len(h)
    decreases Len(h)
  {
    var p := Pop(h);
    if p.0.None? then []
    else
      assert Len(p.1) + 1 == Len(h) by { assert |Contents(p.1)| + 1 == |Contents(h)|; }
      [p.0.value] + Drain(p.1)
  }

  predicate Ascending(s: seq<int>) {
    forall i, j :: 0 <= i < j < |s| ==> s[i] <= s[j]
  }

  /** Draining a heap yields exactly its contents. */
  lemma {:induction false} DrainPermutes(h: MinHeap)
    ensures multiset(Drain(h)) == Contents(h)
    decreases Len(h)
  {
    var p := Pop(h);
    if p.0.Some? {
      assert |Contents(p.1)| + 1 == |Contents(h)|;
      DrainPermutes(p.1);
      assert Drain(h) == [p.0.value] + Drain(p.1);
    }
  }

  /** Draining a heap yields its items in ascending order: together with `DrainPermutes`,
      the heap-sort the type exists for. */
  lemma {:induction false} DrainAscending(h: MinHeap)
    ensures Ascending(Drain(h))
    decreases Len(h)
  {
    var p := Pop(h);
    if p.0.Some? {
      var rest := p.1;
      assert |Contents(rest)| + 1 == |Contents(h)|;
      DrainAscending(rest);
      DrainPermutes(rest);
      assert Drain(h) == [p.0.value] + Drain(rest);
      ConsAscending(p.0.value, Drain(rest));
    }
  }

  lemma ConsAscending(x: int, tail: seq<int>)
    requires Ascending(tail) && forall y :: y in multiset(tail) ==> x <= y
    ensures Ascending([x] + tail)
  {
    var out := [x] + tail;
    forall i, j | 0 <= i < j < |out| ensures out[i] <= out[j] {
      assert out[j] == tail[j - 1];
      assert tail[j - 1] in multiset(tail);
      if i > 0 {
        assert out[i] == tail[i - 1];
      }
    }
  }

  /** Popping right after pushing onto an empty heap gives the item back and an empty
      heap again. */
  lemma PushPop(x: int)
    ensures Pop(Push(New(), x)) == (Some(x), New())
  {
    assert RemoveAt([x], 0) == [];
  }
}

=== FILE: peer_main.dfy ===
/** The sequential logic of the Rust peer's driver, peer/src/main.rs: the heartbeat it
    keeps writing until stopped, the mesh connections it adds from the plan, and the test
    run (start-time wait, lifecycle transitions, report). Threads, sleeps, the Ditto store
    and transport configuration are left out; clock readings, flag readings and the
    consumer's statistics are parameters. */
module PeerMain {
  import opened Wrappers
  import opened Types
  import opened PeerContext
  import Producer
  import Coordinator

  // ---------------------------------------------------------------------------
  // Heartbeats

  /** `HeartbeatCtx`: the record resent on every beat and the stop flag. */
  datatype HeartbeatCtx = HeartbeatCtx(peerId: PeerId, record: Heartbeat, finished: bool)

  /** The record `bootstrap_peer` starts the heartbeat with: this peer, in `Init`. */
  function InitialHeartbeat(c: RustPeerContext, port: nat): (hb: Heartbeat)
    ensures hb.sender.peerId == c.id && hb.sender.state == Init
  {
    Heartbeat(Peer(c.id, c.localIp, port, Init), 0)
  }

  /** The document path `heartbeat_send` writes: `beats.<peer id>`. */
  function HeartbeatPath(id: PeerId): (path: string)
    ensures |path| == 6 + |id| && path[..6] == "beats." && path[6..] == id
  {
    "beats." + id
  }

  /** `heartbeat_send`: stamp the record with the clock and the peer's current state, and
      write it into the heartbeats document under the peer's own id. */
  function HeartbeatSend(h: HeartbeatCtx, state: PeerState, nowMsec: nat, beats: map<PeerId, Heartbeat>)
    : (r: (HeartbeatCtx, map<PeerId, Heartbeat>))
    ensures r.0.record.sender.state == state && r.0.record.sentAtMsec == nowMsec
    ensures SamePeer(r.0.record.sender, h.record.sender) && r.0.peerId == h.peerId
    ensures r.1.Keys == beats.Keys + {h.peerId} && r.1[h.peerId] == r.0.record
    ensures forall k :: k in beats && k != h.peerId ==> r.1[k] == beats[k]
  {
    var record := Heartbeat(h.record.sender.(state := state), nowMsec);
    (h.(record := record), beats[h.peerId := record])
  }

  /** A heartbeat context whose record speaks for its own peer. */
  ghost predicate OwnRecord(h: HeartbeatCtx) {
    h.record.sender.peerId == h.peerId
  }

  /** Peers that each write their own record under their own id keep the document keyed
      by sender, which is what the coordinator's fold of it relies on. */
  lemma HeartbeatSendKeyed(h: HeartbeatCtx, state: PeerState, nowMsec: nat, beats: map<PeerId, Heartbeat>)
    requires OwnRecord(h) && Coordinator.KeyedBySender(beats)
    ensures Coordinator.KeyedBySender(HeartbeatSend(h, state, nowMsec, beats).1)
    ensures OwnRecord(HeartbeatSend(h, state, nowMsec, beats).0)
  {
  }

  /** `heartbeat_stop`: only raises the flag. */
  function HeartbeatStop(h: HeartbeatCtx): (r: HeartbeatCtx)
    ensures r.finished && r.record == h.record && r.peerId == h.peerId
  {
    h.(finished := true)
  }

  /** `heartbeat_loop`: send while the flag reads `false`. `checks` are the flag readings,
      `states` the peer's state and `clock` the time at each send. Returns the document
      and the number of sends. */
  function HeartbeatLoop(h: HeartbeatCtx, beats: map<PeerId, Heartbeat>, checks: seq<bool>,
                         states: seq<PeerState>, clock: seq<nat>): (r: (map<PeerId, Heartbeat>, nat))
    requires true in checks && |states| >= |checks| && |clock| >= |checks|
    ensures r.1 == Producer.SendsBeforeStop(checks)
    ensures r.1 == 0 ==> r.0 == beats
    ensures r.1 > 0 ==> h.peerId in r.0 && r.0[h.peerId].sender.state == states[r.1 - 1]
                        && r.0[h.peerId].sentAtMsec == clock[r.1 - 1]
    ensures forall k :: k in beats && k != h.peerId ==> k in r.0 && r.0[k] == beats[k]
    decreases |checks|
  {
    if checks[0] then (beats, 0)
    else
      var (h1, beats1) := HeartbeatSend(h, states[0], clock[0], beats);
      var rest := HeartbeatLoop(h1, beats1, checks[1..], states[1..], clock[1..]);
      (rest.0, rest.1 + 1)
  }

  // ---------------------------------------------------------------------------
  // connect_mesh

  /** The endpoints of the plan's peers named in `targets`, for those the plan lists. */
  function ListedAddresses(peers: seq<Peer>, targets: set<PeerId>): set<string> {
    set p | p in targets && FindPeer(peers, p).Some? :: Address(FindPeer(peers, p).value)
  }

  /** The ids a sequence of targets names. */
  function TargetIds(targets: seq<PeerId>): set<PeerId> {
    set i | 0 <= i < |targets| :: targets[i]
  }

  /** Some target is missing from the plan's peer list. */
  predicate SomeUnlisted(peers: seq<Peer>, targets: seq<PeerId>) {
    exists i :: 0 <= i < |targets| && FindPeer(peers, targets[i]).None?
  }

  lemma TargetsCons(peers: seq<Peer>, targets: seq<PeerId>)
    requires |targets| > 0
    ensures TargetIds(targets) == {targets[0]} + TargetIds(targets[1..])
    ensures SomeUnlisted(peers, targets) <==> FindPeer(peers, targets[0]).None? || SomeUnlisted(peers, targets[1..])
  {
    assert forall i :: 1 <= i < |targets| ==> targets[i] == targets[1..][i - 1];
    forall p | p in TargetIds(targets) ensures p in {targets[0]} + TargetIds(targets[1..]) {
      var i :| 0 <= i < |targets| && targets[i] == p;
      if i > 0 { assert targets[1..][i - 1] == p; }
    }
    if SomeUnlisted(peers, targets) {
      var i :| 0 <= i < |targets| && FindPeer(peers, targets[i]).None?;
      if i > 0 { assert targets[1..][i - 1] == targets[i]; }
    }
  }

  lemma ListedCons(peers: seq<Peer>, x: PeerId, rest: set<PeerId>)
    requires FindPeer(peers, x).Some?
    ensures ListedAddresses(peers, {x} + rest) == {Address(FindPeer(peers, x).value)} + ListedAddresses(peers, rest)
  {
  }

  /** Add the endpoint of each target in turn; `unwrap` panics at a target the plan's
      peer list does not have. */
  function AddTargets(servers: set<string>, peers: seq<Peer>, targets: seq<PeerId>): (r: Result<set<string>>)
    ensures r.Err? <==> SomeUnlisted(peers, targets)
    ensures r.Ok? ==> r.value == servers + ListedAddresses(peers, TargetIds(targets))
    decreases |targets|
  {
    if |targets| == 0 then
      Ok(servers)
    else
      var found := FindPeer(peers, targets[0]);
      TargetsCons(peers, targets);
      if found.None? then Err(Panic("called `Option::unwrap()` on a `None` value"))
      else
        var rest := AddTargets(servers + {Address(found.value)}, peers, targets[1..]);
        ListedCons(peers, targets[0], TargetIds(targets[1..]));
        rest
  }

  /** `connect_mesh`: the transport's server set grows by the endpoint of every peer the
      plan's graph links this peer to. It panics when there is no plan, when the graph
      has no entry for this peer, or when a linked peer is missing from the plan's peer
      list. `order` is the iteration order of the linked set. */
  function ConnectMesh(c: RustPeerContext, servers: set<string>, order: seq<PeerId>): (r: Result<set<string>>)
    requires GetPlan(c).Some? && c.id in GetPlan(c).value.connections ==>
      forall p :: p in order <==> p in GetPlan(c).value.connections[c.id]
    ensures GetPlan(c).None? ==> r.Err?
    ensures GetPlan(c).Some? ==> var plan := GetPlan(c).value;
      && (r.Err? <==> c.id !in plan.connections
                      || exists p :: p in plan.connections[c.id] && FindPeer(plan.peers, p).None?)
      && (r.Ok? ==> r.value == servers + ListedAddresses(plan.peers, plan.connections[c.id]))
  {
    match GetPlan(c)
    case None => Err(Panic("called `Option::unwrap()` on a `None` value"))
    case Some(plan) =>
      if c.id !in plan.connections then Err(Panic("called `Option::unwrap()` on a `None` value"))
      else
        var r := AddTargets(servers, plan.peers, order);
        assert TargetIds(order) == plan.connections[c.id] by {
          forall p | p in plan.connections[c.id] ensures p in TargetIds(order) {
            var i :| 0 <= i < |order| && order[i] == p;
          }
        }
        assert SomeUnlisted(plan.peers, order)
          <==> (exists p :: p in plan.connections[c.id] && FindPeer(plan.peers, p).None?) by {
          if exists p :: p in plan.connections[c.id] && FindPeer(plan.peers, p).None? {
            var p :| p in plan.connections[c.id] && FindPeer(plan.peers, p).None?;
            var i :| 0 <= i < |order| && order[i] == p;
          }
        }
        r
  }

  // ---------------------------------------------------------------------------
  // run_test

  /** The start-time wait: `start_time - now` milliseconds, or none once the start time
      has passed, so the subtraction never underflows. */
  function StartWait(startTime: nat, nowMsec: nat): (waitMsec: nat)
    ensures waitMsec == 0 <==> nowMsec >= startTime
    ensures nowMsec < startTime ==> nowMsec + waitMsec == startTime
  {
    if nowMsec > startTime then 0 else startTime - nowMsec
  }

  /** What a test run hands back: the context, the report, the start-time wait, the mesh
      endpoints and the peer's own log after the producer's writes. */
  datatype TestRun = TestRun(ctx: RustPeerContext, report: PeerReport, waitMsec: nat, servers: set<string>,
                             log: PeerLog)

  /** The producer thread `run_test` starts and joins: `producer_loop` from a fresh
      producer over this peer's plan and log, with the flag readings and the send times. */
  function ProducerThread(c: RustPeerContext, log: PeerLog, checks: seq<bool>, clock: seq<nat>)
    : (r: Result<(Producer.ProducerCtx, PeerLog, nat)>)
    requires GetPlan(c).Some?
    requires true in checks && |clock| >= |checks|
  {
    Producer.ProducerLoop(Producer.NewProducer(c.id, GetPlan(c).value), log, checks, clock)
  }

  /** `run_test`: connect the mesh, wait for the start time, move `Init` to `Running`, run
      the producer thread and join it (a panic in the thread makes the `unwrap` of the
      join panic too), take the consumer's statistics (`latency`), then `Running` to
      `Reporting` and `Reporting` to `Shutdown`. `log` is this peer's log when the
      producer starts, `checks` the values the producer reads from its stop flag (the
      flag is set once the test duration has passed) and `clock` its send times. */
  function RunTest(c: RustPeerContext, servers: set<string>, order: seq<PeerId>, nowMsec: nat,
                   log: PeerLog, checks: seq<bool>, clock: seq<nat>, latency: LatencyStats): (r: Result<TestRun>)
    requires GetPlan(c).Some? && c.id in GetPlan(c).value.connections ==>
      forall p :: p in order <==> p in GetPlan(c).value.connections[c.id]
    requires true in checks && |clock| >= |checks|
    ensures r.Ok? <==>
      && ConnectMesh(c, servers, order).Ok? && c.state == Init
      && (Producer.SendsBeforeStop(checks) == 0
          || GetPlan(c).value.minMsgDelayMsec < GetPlan(c).value.maxMsgDelayMsec)
    ensures r.Ok? ==> r.value.ctx == c.(state := Shutdown)
    ensures r.Ok? ==> r.value.report == PeerReport(latency, Producer.SendsBeforeStop(checks))
    ensures r.Ok? ==> r.value.log == ProducerThread(c, log, checks, clock).value.1
    ensures r.Ok? ==> r.value.waitMsec == StartWait(GetPlan(c).value.startTime, nowMsec)
  {
    var servers' :- ConnectMesh(c, servers, order);
    var plan := GetPlan(c).value;
    var waitMsec := StartWait(plan.startTime, nowMsec);
    var c1 :- StateTransition(c, Some(Init), Running);
    var (_, log', msgCount) :- ProducerThread(c1, log, checks, clock);
    // The later transitions expect the state the previous one set, so they cannot panic.
    var c2 := StateTransition(c1, Some(Running), Reporting).value;
    var report := PeerReport(latency, msgCount);
    var c3 := StateTransition(c2, Some(Reporting), Shutdown).value;
    Ok(TestRun(c3, report, waitMsec, servers', log'))
  }

  /** A peer fresh from bootstrap (still in `Init`, plan in hand) whose plan lists every
      peer its graph entry names and gives a non-empty delay range gets through the whole
      run and reports exactly the records its producer sent before it saw the stop flag. */
  lemma FreshPeerCompletes(id: PeerId, localIp: string, t0: nat, info: CoordinatorInfo, servers: set<string>,
                           order: seq<PeerId>, nowMsec: nat, log: PeerLog, checks: seq<bool>, clock: seq<nat>,
                           latency: LatencyStats)
    requires info.executionPlan.Some?
    requires var plan := info.executionPlan.value;
      && id in plan.connections
      && (forall p :: p in order <==> p in plan.connections[id])
      && (forall p :: p in plan.connections[id] ==> FindPeer(plan.peers, p).Some?)
      && plan.minMsgDelayMsec < plan.maxMsgDelayMsec
    requires true in checks && |clock| >= |checks|
    ensures var c := NewPeerContext(id, localIp, t0).(coordInfo := Some(info));
      var r := RunTest(c, servers, order, nowMsec, log, checks, clock, latency);
      && r.Ok?
      && r.value.report.recordsProduced == Producer.SendsBeforeStop(checks)
      && r.value.ctx.state == Shutdown
  {
  }

  /** A peer whose plan gives an empty delay range fails the run as soon as its producer
      sends once: the thread panics in `gen_range` and the join's `unwrap` passes it on. */
  lemma EmptyDelayRangeFailsRun(c: RustPeerContext, servers: set<string>, order: seq<PeerId>, nowMsec: nat,
                                log: PeerLog, checks: seq<bool>, clock: seq<nat>, latency: LatencyStats)
    requires GetPlan(c).Some? && c.id in GetPlan(c).value.connections ==>
      forall p :: p in order <==> p in GetPlan(c).value.connections[c.id]
    requires true in checks && |clock| >= |checks|
    requires GetPlan(c).Some? && GetPlan(c).value.minMsgDelayMsec >= GetPlan(c).value.maxMsgDelayMsec
    requires !checks[0]
    ensures RunTest(c, servers, order, nowMsec, log, checks, clock, latency).Err?
  {
  }
}

=== FILE: peer_set.dfy ===
/** The coordinator's set of known peers, fed by heartbeats, and the quorum test both
    coordinators wait on. `Peer` hashes and compares by id alone, so the source's
    `HashSet<Peer>` holds at most one peer per id: here it is a map from id to the
    stored peer. */
module PeerSets {
  import opened Wrappers
  import opened Types

  type PeerSet = map<PeerId, Peer>

  /** Every stored peer sits under its own id. */
  ghost predicate WellKeyed(s: PeerSet) {
    forall id :: id in s ==> s[id].peerId == id
  }

  /** What adding a peer whose id is already present does. */
  datatype Update =
    | ReplaceExisting   // `HashSet::replace`: the new peer takes the old one's place
    | KeepExisting      // `HashSet::insert`: the stored peer stays, the new one is dropped

  function Add(s: PeerSet, p: Peer, u: Update): (r: PeerSet)
    ensures r.Keys == s.Keys + {p.peerId}
    ensures WellKeyed(s) ==> WellKeyed(r)
    ensures forall id :: id in s && id != p.peerId ==> r[id] == s[id]
    ensures r[p.peerId] == (if u == KeepExisting && p.peerId in s then s[p.peerId] else p)
  {
    if u == KeepExisting && p.peerId in s then s else s[p.peerId := p]
  }

  /** The ids of a sequence of peers. */
  function IdsOf(ps: seq<Peer>): set<PeerId> {
    set i | 0 <= i < |ps| :: ps[i].peerId
  }

  lemma IdsOfSnoc(ps: seq<Peer>)
    requires |ps| > 0
    ensures IdsOf(ps) == IdsOf(ps[..|ps| - 1]) + {ps[|ps| - 1].peerId}
  {
    var n := |ps|;
    forall id ensures id in IdsOf(ps) <==> id in IdsOf(ps[..n - 1]) || id == ps[n - 1].peerId {
      if id in IdsOf(ps) {
        var i :| 0 <= i < n && ps[i].peerId == id;
        if i < n - 1 {
          assert ps[..n - 1][i] == ps[i];
        }
      }
      if id in IdsOf(ps[..n - 1]) {
        var i :| 0 <= i < n - 1 && ps[..n - 1][i].peerId == id;
        assert ps[i] == ps[..n - 1][i];
      }
    }
  }

  /** Add the senders one after the other, in arrival order. */
  function AddAll(s: PeerSet, senders: seq<Peer>, u: Update): (r: PeerSet)
    ensures WellKeyed(s) ==> WellKeyed(r)
    decreases |senders|
  {
    if |senders| == 0 then s
    else Add(AddAll(s, senders[..|senders| - 1], u), senders[|senders| - 1], u)
  }

  /** The ids present after adding the senders are the old ones and every sender's. */
  lemma {:induction false} AddAllKeys(s: PeerSet, senders: seq<Peer>, u: Update)
    ensures AddAll(s, senders, u).Keys == s.Keys + IdsOf(senders)
    decreases |senders|
  {
    if |senders| == 0 {
      assert IdsOf(senders) == {};
    } else {
      IdsOfSnoc(senders);
      AddAllKeys(s, senders[..|senders| - 1], u);
    }
  }

  /** Ids no sender carries keep their stored peer. */
  lemma {:induction false} AddAllFrame(s: PeerSet, senders: seq<Peer>, u: Update, id: PeerId)
    requires id in s && id !in IdsOf(senders)
    ensures id in AddAll(s, senders, u) && AddAll(s, senders, u)[id] == s[id]
    decreases |senders|
  {
    if |senders| > 0 {
      IdsOfSnoc(senders);
      AddAllFrame(s, senders[..|senders| - 1], u, id);
    }
  }

  /** The fold's last step. */
  lemma AddAllLast(s: PeerSet, senders: seq<Peer>, u: Update)
    requires |senders| > 0
    ensures AddAll(s, senders, u) == Add(AddAll(s, senders[..|senders| - 1], u), senders[|senders| - 1], u)
  {
  }

  /** With `replace`, the stored peer for a sender's id is the last sender with that id. */
  lemma {:induction false} ReplaceLastWins(s: PeerSet, senders: seq<Peer>, i: nat)
    requires i < |senders|
    requires forall j :: i < j < |senders| ==> senders[j].peerId != senders[i].peerId
    ensures senders[i].peerId in AddAll(s, senders, ReplaceExisting)
    ensures AddAll(s, senders, ReplaceExisting)[senders[i].peerId] == senders[i]
    decreases |senders|
  {
    var n := |senders|;
    var prefix := senders[..n - 1];
    var last := senders[n - 1];
    var id := senders[i].peerId;
    AddAllLast(s, senders, ReplaceExisting);
    var before := AddAll(s, prefix, ReplaceExisting);
    if i < n - 1 {
      assert prefix[i] == senders[i];
      forall j | i < j < |prefix| ensures prefix[j].peerId != prefix[i].peerId {
        assert prefix[j] == senders[j];
      }
      ReplaceLastWins(s, prefix, i);
      assert id in before && before[id] == senders[i];
      assert last.peerId != id;
    }
  }

  /** With `insert`, an id already present keeps the peer stored for it, whatever state
      later heartbeats report. */
  lemma {:induction false} InsertKeepsKnown(s: PeerSet, senders: seq<Peer>, id: PeerId)
    requires id in s
    ensures id in AddAll(s, senders, KeepExisting) && AddAll(s, senders, KeepExisting)[id] == s[id]
    decreases |senders|
  {
    if |senders| > 0 {
      InsertKeepsKnown(s, senders[..|senders| - 1], id);
    }
  }

  /** With `insert`, a sender only gets in if no earlier sender had its id: the first
      sender with a new id is the one stored. */
  lemma {:induction false} InsertFirstWins(s: PeerSet, senders: seq<Peer>, i: nat)
    requires i < |senders| && senders[i].peerId !in s
    requires forall j :: 0 <= j < i ==> senders[j].peerId != senders[i].peerId
    ensures senders[i].peerId in AddAll(s, senders, KeepExisting)
    ensures AddAll(s, senders, KeepExisting)[senders[i].peerId] == senders[i]
    decreases |senders|
  {
    var n := |senders|;
    var prefix := senders[..n - 1];
    var last := senders[n - 1];
    var id := senders[i].peerId;
    AddAllLast(s, senders, KeepExisting);
    var before := AddAll(s, prefix, KeepExisting);
    if i < n - 1 {
      assert prefix[i] == senders[i];
      forall j | 0 <= j < i ensures prefix[j].peerId != prefix[i].peerId {
        assert prefix[j] == senders[j];
      }
      InsertFirstWins(s, prefix, i);
      assert id in before && before[id] == senders[i];
    } else {
      forall j | 0 <= j < |prefix| ensures prefix[j].peerId != id {
        assert prefix[j] == senders[j];
      }
      assert id !in IdsOf(prefix);
      AddAllKeys(s, prefix, KeepExisting);
    }
  }

  // ---------------------------------------------------------------------------
  // wait_for_peer_states

  /** The known peers whose state is one of `states`: the `filter` of
      `wait_for_peer_states`. */
  function InStates(s: PeerSet, states: seq<PeerState>): set<PeerId> {
    set id | id in s && s[id].state in states
  }

  /** The condition that ends the wait: at least `minPeers` peers are in one of `states`. */
  predicate QuorumMet(s: PeerSet, states: seq<PeerState>, minPeers: nat) {
    |InStates(s, states)| >= minPeers
  }

  lemma {:induction false} SubsetCard<T>(a: set<T>, b: set<T>)
    requires a <= b
    ensures |a| <= |b|
    decreases |a|
  {
    if a != {} {
      var x :| x in a;
      SubsetCard(a - {x}, b - {x});
    }
  }

  /** A quorum needs that many known peers; it is met once that many peers are known and
      all of them are in a wanted state; and accepting more states keeps it met. */
  lemma QuorumBounds(s: PeerSet, states: seq<PeerState>, more: seq<PeerState>, minPeers: nat)
    ensures QuorumMet(s, states, minPeers) ==> |s| >= minPeers
    ensures (forall id :: id in s ==> s[id].state in states) && |s| >= minPeers ==> QuorumMet(s, states, minPeers)
    ensures (forall st :: st in states ==> st in more) && QuorumMet(s, states, minPeers) ==> QuorumMet(s, more, minPeers)
  {
    SubsetCard(InStates(s, states), s.Keys);
    assert |s.Keys| == |s|;
    if forall id :: id in s ==> s[id].state in states {
      assert InStates(s, states) == s.Keys;
    }
    if forall st :: st in states ==> st in more {
      SubsetCard(InStates(s, states), InStates(s, more));
    }
  }

  /** The peer set once the first `j` senders have been added. */
  function After(s0: PeerSet, senders: seq<Peer>, u: Update, j: nat): PeerSet
    requires j <= |senders|
  {
    AddAll(s0, senders[..j], u)
  }

  lemma AfterStep(s0: PeerSet, senders: seq<Peer>, u: Update, j: nat)
    requires j < |senders|
    ensures After(s0, senders, u, j + 1) == Add(After(s0, senders, u, j), senders[j], u)
  {
    assert senders[..j + 1][..j] == senders[..j];
  }

  /** `wait_for_peer_states`, with the heartbeats that arrive while it waits given as the
      sequence of senders they add, in arrival order. The wait re-tests the quorum each time
      a sender is added and returns how many senders it took, or `None` if the senders run
      out first (the source would go on waiting). */
  method WaitForPeerStates(s0: PeerSet, senders: seq<Peer>, u: Update, states: seq<PeerState>, minPeers: nat)
    returns (r: Option<nat>)
    ensures r.Some? ==> r.value <= |senders| && QuorumMet(After(s0, senders, u, r.value), states, minPeers)
    ensures r.Some? ==> forall j :: 0 <= j < r.value ==> !QuorumMet(After(s0, senders, u, j), states, minPeers)
    ensures r.None? ==> forall j :: 0 <= j <= |senders| ==> !QuorumMet(After(s0, senders, u, j), states, minPeers)
  {
    var j := 0;
    while true
      invariant j <= |senders|
      invariant forall k :: 0 <= k < j ==> !QuorumMet(After(s0, senders, u, k), states, minPeers)
      decreases |senders| - j
    {
      if QuorumMet(After(s0, senders, u, j), states, minPeers) {
        return Some(j);
      }
      if j == |senders| {
        return None;
      }
      j := j + 1;
    }
  }
}

=== FILE: producer.dfy ===
/** The Rust producer of peer/src/producer.rs: it writes a default record (stamped with
    the clock) into the next slot of its own ring log, then sleeps a random delay from the
    plan's range, until its `finished` flag is seen set. The document update is modelled as
    an update of the peer's own log; the clock readings and the values the loop reads from
    the shared flag are parameters. */
module Producer {
  import opened Wrappers
  import opened Types
  import opened RingScan
  import Defaults

  /** `msg_index` is an `i32` that starts at -1. */
  datatype ProducerCtx = ProducerCtx(peerId: PeerId, plan: ExecutionPlan, msgIndex: int, finished: bool)

  ghost predicate IndexInRange(p: ProducerCtx) {
    -1 <= p.msgIndex < N
  }

  /** `ProducerCtx::new`. */
  function NewProducer(peerId: PeerId, plan: ExecutionPlan): (p: ProducerCtx)
    ensures p.msgIndex == -1 && !p.finished && IndexInRange(p)
  {
    ProducerCtx(peerId, plan, -1, false)
  }

  /** `get_next_index`: advance, wrapping to 0 at the log size. The `u32` conversion never
      fails, since the index is never negative after the advance. */
  function GetNextIndex(p: ProducerCtx): (r: (ProducerCtx, nat))
    requires IndexInRange(p)
    ensures IndexInRange(r.0) && r.0.msgIndex == r.1 && r.1 < N
    ensures r.1 == (p.msgIndex + 1) % N
    ensures r.0 == p.(msgIndex := r.1)
  {
    var i := p.msgIndex + 1;
    var i' := if i >= N then 0 else i;
    (p.(msgIndex := i'), i')
  }

  /** The indices `k` advances hand out after a fresh start. */
  function Advance(p: ProducerCtx, k: nat): (r: ProducerCtx)
    requires IndexInRange(p)
    ensures IndexInRange(r)
  {
    if k == 0 then p else GetNextIndex(Advance(p, k - 1)).0
  }

  /** The `k`-th index a fresh producer uses (counting from 1) is `(k - 1) mod N`: the
      first record goes to slot 0. */
  lemma {:induction false} AdvanceFromNew(peerId: PeerId, plan: ExecutionPlan, k: nat)
    requires k >= 1
    ensures Advance(NewProducer(peerId, plan), k).msgIndex == (k - 1) % N
  {
    var p := NewProducer(peerId, plan);
    if k > 1 {
      AdvanceFromNew(peerId, plan, k - 1);
      var prev := Advance(p, k - 1);
      assert prev.msgIndex == (k - 2) % N;
      assert Advance(p, k) == GetNextIndex(prev).0;
      ModSucc(k - 2);
    } else {
      assert Advance(p, 1) == GetNextIndex(p).0;
    }
  }

  lemma ModSucc(a: nat)
    ensures (a % N + 1) % N == (a + 1) % N
  {
  }

  /** The document path of a record: `logs['<peer id>']['log']['<index>']`. */
  function RecordPath(peerId: PeerId, idx: nat): string {
    PathHead + peerId + PathMid + Key(idx) + PathEnd
  }

  const PathHead: string := "logs['"
  const PathMid: string := "']['log']['"
  const PathEnd: string := "']"

  lemma Regroup(h: string, a: string, m: string, k: string, e: string)
    ensures h + a + m + k + e == h + (a + (m + (k + e)))
  {
  }

  /** Splitting at the first quote: the quote-free prefixes before a quote agree. */
  lemma QuoteSplit(a: string, b: string, x: string, y: string)
    requires '\'' !in a && '\'' !in b
    requires |x| > 0 && x[0] == '\'' && |y| > 0 && y[0] == '\''
    requires a + x == b + y
    ensures a == b && x == y
  {
    var s := a + x;
    assert forall k :: 0 <= k < |a| ==> s[k] == a[k] && s[k] != '\'';
    assert forall k :: 0 <= k < |b| ==> s[k] == (b + y)[k] == b[k] && s[k] != '\'';
    assert s[|a|] == '\'' && (b + y)[|b|] == '\'';
    assert !(|a| < |b|);
    assert !(|b| < |a|);
    assert a == s[..|a|] && b == (b + y)[..|b|];
    assert x == s[|a|..] && y == (b + y)[|b|..];
  }

  /** Ids without a quote character give every (peer, slot) pair its own path, so
      producers never write over each other's records. */
  lemma RecordPathInjective(a: PeerId, b: PeerId, i: nat, j: nat)
    requires '\'' !in a && '\'' !in b
    ensures RecordPath(a, i) == RecordPath(b, j) <==> a == b && i == j
  {
    if RecordPath(a, i) == RecordPath(b, j) {
      var pre, mid, end := PathHead, PathMid, PathEnd;
      var x := mid + (Key(i) + end);
      var y := mid + (Key(j) + end);
      Regroup(pre, a, mid, Key(i), end);
      Regroup(pre, b, mid, Key(j), end);
      DropCommonPrefix(pre, a + x, b + y);
      QuoteSplit(a, b, x, y);
      DropCommonPrefix(mid, Key(i) + end, Key(j) + end);
      DropCommonSuffix(Key(i), Key(j), end);
      KeyInjective(i, j);
    }
  }

  lemma DropCommonPrefix(p: string, s: string, t: string)
    requires p + s == p + t
    ensures s == t
  {
    assert s == (p + s)[|p|..];
    assert t == (p + t)[|p|..];
  }

  lemma DropCommonSuffix(s: string, t: string, q: string)
    requires s + q == t + q
    ensures s == t
  {
    assert |s| == |t|;
    assert s == (s + q)[..|s|];
    assert t == (t + q)[..|t|];
  }

  /** `producer_send`: the next index, and a default record stamped `now` written under
      that index's key in the peer's log. */
  function ProducerSend(p: ProducerCtx, log: PeerLog, now: nat): (r: (ProducerCtx, PeerLog))
    requires IndexInRange(p)
    ensures var idx := (p.msgIndex + 1) % N;
      && r.0 == p.(msgIndex := idx)
      && r.1 == log[Key(idx) := PeerRecord(now, "")]
  {
    var (p', idx) := GetNextIndex(p);
    (p', log[Key(idx) := Defaults.DefaultPeerRecord(now)])
  }

  /** `producer_stop`: only raises the flag the loop polls. */
  function ProducerStop(p: ProducerCtx): (r: ProducerCtx)
    ensures r.finished && r.msgIndex == p.msgIndex && r.peerId == p.peerId && r.plan == p.plan
  {
    p.(finished := true)
  }

  /** The number of `false` readings before the first `true`. */
  function SendsBeforeStop(checks: seq<bool>): (k: nat)
    requires true in checks
    ensures k < |checks| && checks[k] && forall m :: 0 <= m < k ==> !checks[m]
  {
    if checks[0] then 0 else 1 + SendsBeforeStop(checks[1..])
  }

  /** `producer_loop`. `checks` are the values the loop reads from `finished`, one per
      iteration (the flag is eventually seen set); `clock[m]` is the time of the `m`-th
      send. `gen_range` panics on the empty range `min..max` with `min >= max`. Returns
      the producer, its log and the count of records sent. */
  function ProducerLoop(p: ProducerCtx, log: PeerLog, checks: seq<bool>, clock: seq<nat>): (r: Result<(ProducerCtx, PeerLog, nat)>)
    requires IndexInRange(p)
    requires true in checks && |clock| >= |checks|
    ensures r.Ok? <==> SendsBeforeStop(checks) == 0 || p.plan.minMsgDelayMsec < p.plan.maxMsgDelayMsec
    ensures r.Ok? ==> r.value.2 == SendsBeforeStop(checks)
    ensures r.Ok? ==> IndexInRange(r.value.0) && r.value.0 == Advance(p, r.value.2)
    decreases |checks|
  {
    if checks[0] then Ok((p, log, 0))
    else
      var (p1, log1) := ProducerSend(p, log, clock[0]);
      if p.plan.minMsgDelayMsec >= p.plan.maxMsgDelayMsec then Err(Panic("cannot sample empty range"))
      else
        var rest := ProducerLoop(p1, log1, checks[1..], clock[1..]);
        if rest.Err? then rest
        else
          AdvanceShift(p, rest.value.2);
          Ok((rest.value.0, rest.value.1, rest.value.2 + 1))
  }

  /** Advancing `k + 1` times is one step then `k` more. */
  lemma {:induction false} AdvanceShift(p: ProducerCtx, k: nat)
    requires IndexInRange(p)
    ensures Advance(GetNextIndex(p).0, k) == Advance(p, k + 1)
  {
    if k > 0 {
      AdvanceShift(p, k - 1);
    }
  }

  /** The sends of the loop, without the panic: the log after `k` sends at the given
      times, from index state `p`. */
  function Sends(p: ProducerCtx, log: PeerLog, clock: seq<nat>): (r: (ProducerCtx, PeerLog))
    requires IndexInRange(p)
    ensures IndexInRange(r.0)
    decreases |clock|
  {
    if |clock| == 0 then (p, log)
    else
      var (p1, log1) := ProducerSend(p, log, clock[0]);
      Sends(p1, log1, clock[1..])
  }

  /** A loop that does not panic writes exactly the records of its sends. */
  lemma {:induction false} LoopIsSends(p: ProducerCtx, log: PeerLog, checks: seq<bool>, clock: seq<nat>)
    requires IndexInRange(p)
    requires true in checks && |clock| >= |checks|
    requires ProducerLoop(p, log, checks, clock).Ok?
    ensures var r := ProducerLoop(p, log, checks, clock).value;
      (r.0, r.1) == Sends(p, log, clock[..r.2])
    decreases |checks|
  {
    if !checks[0] {
      var (p1, log1) := ProducerSend(p, log, clock[0]);
      LoopIsSends(p1, log1, checks[1..], clock[1..]);
      var k := ProducerLoop(p, log, checks, clock).value.2;
      assert clock[..k][1..] == clock[1..][..k - 1];
    } else {
      assert clock[..0] == [];
    }
  }
}

=== FILE: ring_scan.dfy ===
/** The read loop over one peer's ring log that `process_peer` runs
    (container-mesh/peer/src/consumer.rs and container-mesh/ts/src/consumer.ts): starting
    at the cursor, consume slot after slot until a slot is empty or holds a record older
    than the last one consumed. */
module RingScan {
  import opened Wrappers
  import opened Types
  import opened Decimal
  import Defaults

  const N: nat := Defaults.PEER_LOG_SIZE

  /** `incr_wrap(i, max)`: the next index, or 0 past `max`. */
  function IncrWrap(i: nat, max: nat): (r: nat)
    ensures r <= max || r == i + 1
    ensures r == 0 || r == i + 1
    ensures r == 0 <==> i + 1 > max
  {
    if i + 1 > max then 0 else i + 1
  }

  /** Within `0..max` the wrap is the successor modulo `max + 1`, and it wraps to 0 exactly
      when `i` is `max`. */
  lemma IncrWrapIsSuccessorMod(i: nat, max: nat)
    requires i <= max
    ensures IncrWrap(i, max) == (i + 1) % (max + 1)
    ensures IncrWrap(i, max) <= max
    ensures IncrWrap(i, max) == 0 <==> i == max
  {
  }

  /** The key slot `i` is stored under: `i.to_string()`. */
  function Key(i: nat): string {
    NatToString(i)
  }

  lemma KeyInjective(i: nat, j: nat)
    ensures Key(i) == Key(j) <==> i == j
  {
    NatToStringInjective(i, j);
  }

  /** The slots `0..N` of a ring log, as the loop sees them. */
  type Ring = r: seq<Option<PeerRecord>> | |r| == N witness seq(N, _ => None)

  /** The ring view of a log document: slot `j` is the record under key `Key(j)`, if any. */
  function RingOf(log: PeerLog): (ring: Ring)
    ensures forall j :: 0 <= j < N ==> (ring[j].Some? <==> Key(j) in log)
    ensures forall j :: 0 <= j < N && Key(j) in log ==> ring[j] == Some(log[Key(j)])
  {
    seq(N, j requires 0 <= j => if Key(j) in log then Some(log[Key(j)]) else None)
  }

  /** The slot `m` steps after `i`. */
  function Slot(i: nat, m: nat): (j: nat)
    ensures j < N
  {
    (i + m) % N
  }

  lemma SlotShift(i: nat, m: nat)
    requires i < N
    ensures Slot(IncrWrap(i, N - 1), m) == Slot(i, m + 1)
  {
  }

  /** The loop goes on at slot `i` when it holds a record no older than `ts`
      (the stop test "missing, or older than `ts`" is false). */
  predicate Passes(ring: Ring, ts: nat, i: nat)
    requires i < N
  {
    ring[i].Some? && ring[i].value.timestamp >= ts
  }

  /** The timestamp stored in slot `j`, 0 for an empty slot. */
  function SlotTs(ring: Ring, j: nat): nat
    requires j < N
  {
    if ring[j].Some? then ring[j].value.timestamp else 0
  }

  /** The timestamp step `m` from `(ts, i)` compares against: the starting one, then the
      one consumed just before. */
  function PrevTs(ring: Ring, ts: nat, i: nat, m: nat): nat {
    if m == 0 then ts else SlotTs(ring, Slot(i, m - 1))
  }

  /** The first `n` steps from `(ts, i)` all go on. */
  ghost predicate RunPasses(ring: Ring, ts: nat, i: nat, n: nat) {
    forall m {:trigger PrevTs(ring, ts, i, m)} :: 0 <= m < n ==> Passes(ring, PrevTs(ring, ts, i, m), Slot(i, m))
  }

  /** One passing step followed by a run from the next slot is a run one step longer. */
  lemma RunPassesCons(ring: Ring, ts: nat, i: nat, n: nat)
    requires i < N && Passes(ring, ts, i)
    requires RunPasses(ring, SlotTs(ring, i), IncrWrap(i, N - 1), n)
    ensures RunPasses(ring, ts, i, n + 1)
  {
    assert Slot(i, 0) == i;
    forall m | 0 < m < n + 1
      ensures Passes(ring, PrevTs(ring, ts, i, m), Slot(i, m))
    {
      SlotShift(i, m - 1);
      assert Passes(ring, PrevTs(ring, SlotTs(ring, i), IncrWrap(i, N - 1), m - 1), Slot(i, m));
      if m > 1 {
        SlotShift(i, m - 2);
      }
    }
  }

  /** `recs` are the records of the consecutive slots from `i`, each no older than the one
      before it, the first no older than `ts`. */
  ghost predicate ConsumedRun(ring: Ring, ts: nat, i: nat, recs: seq<PeerRecord>) {
    && (forall m :: 0 <= m < |recs| ==> ring[Slot(i, m)] == Some(recs[m]))
    && (|recs| > 0 ==> recs[0].timestamp >= ts)
    && (forall m :: 0 < m < |recs| ==> recs[m - 1].timestamp <= recs[m].timestamp)
  }

  /** Every slot holds a record, all with one timestamp, no older than `ts`. From such a
      ring the loop never leaves. */
  ghost predicate Saturated(ring: Ring, ts: nat) {
    && ring[0].Some?
    && ring[0].value.timestamp >= ts
    && forall j :: 0 <= j < N ==> ring[j].Some? && ring[j].value.timestamp == ring[0].value.timestamp
  }

  function LastTs(ts: nat, recs: seq<PeerRecord>): nat {
    if |recs| == 0 then ts else recs[|recs| - 1].timestamp
  }

  /** Where a finished loop left off: the records it consumed, in order, the timestamp of
      the last one (or the starting one), and the index it stopped at. */
  datatype Walk = Walk(consumed: seq<PeerRecord>, ts: nat, stop: nat)

  datatype Scan = Stopped(walk: Walk) | OutOfFuel

  /** `w` is a finished loop from `(ts, i)`: it consumed a run and stopped at the first
      slot after it, which fails. */
  ghost predicate WalkFrom(ring: Ring, ts: nat, i: nat, w: Walk) {
    && ConsumedRun(ring, ts, i, w.consumed)
    && w.ts == LastTs(ts, w.consumed)
    && w.stop == Slot(i, |w.consumed|)
    && !Passes(ring, w.ts, w.stop)
  }

  lemma WalkStep(ring: Ring, ts: nat, i: nat, w: Walk)
    requires i < N && Passes(ring, ts, i)
    requires WalkFrom(ring, ring[i].value.timestamp, IncrWrap(i, N - 1), w)
    ensures WalkFrom(ring, ts, i, Walk([ring[i].value] + w.consumed, w.ts, w.stop))
  {
    var recs := [ring[i].value] + w.consumed;
    forall m | 0 < m < |recs|
      ensures ring[Slot(i, m)] == Some(recs[m])
    {
      SlotShift(i, m - 1);
    }
    assert Slot(i, 0) == i;
    SlotShift(i, |w.consumed|);
  }

  /** The loop from `(ts, i)`, allowed to consume at most `fuel` records. */
  function ScanFrom(ring: Ring, ts: nat, i: nat, fuel: nat): (r: Scan)
    requires i < N
    ensures r.Stopped? ==> WalkFrom(ring, ts, i, r.walk) && |r.walk.consumed| <= fuel
    decreases fuel
  {
    if !Passes(ring, ts, i) then
      assert Slot(i, 0) == i;
      Stopped(Walk([], ts, i))
    else if fuel == 0 then OutOfFuel
    else
      match ScanFrom(ring, ring[i].value.timestamp, IncrWrap(i, N - 1), fuel - 1)
      case OutOfFuel => OutOfFuel
      case Stopped(w) =>
        WalkStep(ring, ts, i, w);
        Stopped(Walk([ring[i].value] + w.consumed, w.ts, w.stop))
  }

  /** A consumed run is a run of passing steps. */
  lemma ConsumedRunPasses(ring: Ring, ts: nat, i: nat, recs: seq<PeerRecord>)
    requires ConsumedRun(ring, ts, i, recs)
    ensures RunPasses(ring, ts, i, |recs|)
  {
    forall m | 0 <= m < |recs|
      ensures Passes(ring, PrevTs(ring, ts, i, m), Slot(i, m))
    {
      if m > 0 {
        assert ring[Slot(i, m - 1)] == Some(recs[m - 1]);
      }
    }
  }

  /** Once the ring is saturated every step goes on, so any fuel runs out. */
  lemma {:induction false} SaturatedRunsOut(ring: Ring, ts: nat, i: nat, fuel: nat)
    requires i < N
    requires Saturated(ring, ts)
    ensures ScanFrom(ring, ts, i, fuel).OutOfFuel?
    decreases fuel
  {
    assert ring[i].Some?;
    if fuel > 0 {
      SaturatedRunsOut(ring, ring[i].value.timestamp, IncrWrap(i, N - 1), fuel - 1);
    }
  }

  /** Running out of fuel means one more step than the fuel went on. */
  lemma {:induction false} OutOfFuelPasses(ring: Ring, ts: nat, i: nat, fuel: nat)
    requires i < N
    requires ScanFrom(ring, ts, i, fuel).OutOfFuel?
    ensures RunPasses(ring, ts, i, fuel + 1)
    decreases fuel
  {
    assert Slot(i, 0) == i;
    if fuel > 0 {
      OutOfFuelPasses(ring, SlotTs(ring, i), IncrWrap(i, N - 1), fuel - 1);
      RunPassesCons(ring, ts, i, fuel);
    }
  }

  /** Along a run of passing steps the timestamps never go down. */
  lemma {:induction false} RunMonotone(ring: Ring, ts: nat, i: nat, n: nat, a: nat, b: nat)
    requires RunPasses(ring, ts, i, n)
    requires a <= b < n
    ensures SlotTs(ring, Slot(i, a)) <= SlotTs(ring, Slot(i, b))
    decreases b - a
  {
    if a < b {
      RunMonotone(ring, ts, i, n, a, b - 1);
      assert Passes(ring, PrevTs(ring, ts, i, b), Slot(i, b));
    }
  }

  /** A run that comes back around to its first slot forces one timestamp on every slot. */
  lemma FullLapSaturates(ring: Ring, ts: nat, i: nat)
    requires i < N
    requires RunPasses(ring, ts, i, N + 1)
    ensures Saturated(ring, ts)
  {
    var t := SlotTs(ring, i);
    assert Slot(i, 0) == i;
    assert Slot(i, N) == i;
    assert Passes(ring, PrevTs(ring, ts, i, 0), Slot(i, 0));
    forall j | 0 <= j < N
      ensures ring[j].Some? && SlotTs(ring, j) == t
    {
      var m := (j + N - i) % N;
      assert Slot(i, m) == j;
      assert Passes(ring, PrevTs(ring, ts, i, m), Slot(i, m));
      RunMonotone(ring, ts, i, N + 1, 0, m);
      RunMonotone(ring, ts, i, N + 1, m, N);
    }
    assert ring[0].Some? && SlotTs(ring, 0) == t;
  }

  /** The bound of `PEER_LOG_SIZE` records is exact: the loop consumes more than that
      exactly when the ring is saturated, which is exactly when the source's unbounded
      loop never ends. */
  lemma OutOfFuelIffSaturated(ring: Ring, ts: nat, i: nat)
    requires i < N
    ensures ScanFrom(ring, ts, i, N).OutOfFuel? <==> Saturated(ring, ts)
  {
    if ScanFrom(ring, ts, i, N).OutOfFuel? {
      OutOfFuelPasses(ring, ts, i, N);
      FullLapSaturates(ring, ts, i);
    }
    if Saturated(ring, ts) {
      SaturatedRunsOut(ring, ts, i, N);
    }
  }

  /** The loop stops at the first slot that fails: no other length of passing steps ends
      at a failing slot. */
  lemma StopIsFirstFailure(ring: Ring, ts: nat, i: nat, k1: nat, k2: nat)
    requires i < N
    requires RunPasses(ring, ts, i, k1) && RunPasses(ring, ts, i, k2)
    requires !Passes(ring, PrevTs(ring, ts, i, k1), Slot(i, k1))
    requires !Passes(ring, PrevTs(ring, ts, i, k2), Slot(i, k2))
    ensures k1 == k2
  {
  }

  /** The stop test at the end of a consumed run compares against the run's last record. */
  lemma LastTsIsPrevTs(ring: Ring, ts: nat, i: nat, recs: seq<PeerRecord>)
    requires ConsumedRun(ring, ts, i, recs)
    ensures LastTs(ts, recs) == PrevTs(ring, ts, i, |recs|)
  {
    if |recs| > 0 {
      assert ring[Slot(i, |recs| - 1)] == Some(recs[|recs| - 1]);
    }
  }

  /** A finished loop is determined by where it starts: `WalkFrom` has one solution. */
  lemma WalkFromUnique(ring: Ring, ts: nat, i: nat, w1: Walk, w2: Walk)
    requires i < N
    requires WalkFrom(ring, ts, i, w1) && WalkFrom(ring, ts, i, w2)
    ensures w1 == w2
  {
    ConsumedRunPasses(ring, ts, i, w1.consumed);
    ConsumedRunPasses(ring, ts, i, w2.consumed);
    LastTsIsPrevTs(ring, ts, i, w1.consumed);
    LastTsIsPrevTs(ring, ts, i, w2.consumed);
    StopIsFirstFailure(ring, ts, i, |w1.consumed|, |w2.consumed|);
    assert w1.consumed == w2.consumed by {
      forall m | 0 <= m < |w1.consumed|
        ensures w1.consumed[m] == w2.consumed[m]
      {
        assert ring[Slot(i, m)] == Some(w1.consumed[m]);
      }
    }
  }

  /** The source's unbounded loop from `(ts, i)`, on a ring where it ends. */
  function Consume(ring: Ring, ts: nat, i: nat): (w: Walk)
    requires i < N
    requires !Saturated(ring, ts)
    ensures WalkFrom(ring, ts, i, w)
    ensures |w.consumed| <= N
  {
    OutOfFuelIffSaturated(ring, ts, i);
    ScanFrom(ring, ts, i, N).walk
  }

  /** A slot that fails stops the loop before it consumes anything. */
  lemma ConsumeNothing(ring: Ring, ts: nat, i: nat)
    requires i < N
    requires !Passes(ring, ts, i)
    ensures !Saturated(ring, ts)
    ensures Consume(ring, ts, i) == Walk([], ts, i)
  {
    assert Slot(i, 0) == i;
    WalkFromUnique(ring, ts, i, Consume(ring, ts, i), Walk([], ts, i));
  }

  /** A slot that passes is the first record the loop consumes. */
  lemma ConsumeStartsAt(ring: Ring, ts: nat, i: nat)
    requires i < N
    requires !Saturated(ring, ts)
    requires Passes(ring, ts, i)
    ensures |Consume(ring, ts, i).consumed| >= 1
    ensures Some(Consume(ring, ts, i).consumed[0]) == ring[i]
  {
    assert Slot(i, 0) == i;
  }
}

=== FILE: scenarios.dfy ===
/** End-to-end behaviour of one producer's ring log as a fresh consumer reads it, composing
    the Rust producer (peer/src/producer.rs) with the ring consumer
    (container-mesh/peer/src/consumer.rs). */
module RingScenarios {
  import opened Wrappers
  import opened Types
  import opened RingScan
  import opened Producer
  import opened Consumer

  /** The last of the first `k` sends that went to slot `j`: send `m` goes to slot
      `m mod N`. */
  function LatestSend(k: nat, j: nat): (m: Option<nat>)
    requires j < N
    ensures m.Some? ==> m.value < k && m.value % N == j
  {
    if k == 0 then None
    else
      var r := (k - 1) % N;
      if j <= r then Some(k - 1 - (r - j))
      else if k - 1 - r >= N then Some(k - 1 - r - N + j)
      else None
  }

  lemma LatestSendStep(k: nat, j: nat)
    requires j < N
    ensures LatestSend(k + 1, j) == if k % N == j then Some(k) else LatestSend(k, j)
  {
    if k > 0 {
      var r := (k - 1) % N;
      var q := (k - 1) / N;
      assert k - 1 == q * N + r;
      if r == N - 1 {
        assert k % N == 0;
        assert k == (q + 1) * N;
      } else {
        assert k % N == r + 1;
      }
    }
  }

  /** Writing slot `i` of a log changes slot `i` of its ring view and nothing else. */
  lemma RingOfUpdate(log: PeerLog, i: nat, rec: PeerRecord)
    requires i < N
    ensures RingOf(log[Key(i) := rec]) == RingOf(log)[i := Some(rec)]
  {
    var log2 := log[Key(i) := rec];
    var ring := RingOf(log);
    var ring2 := RingOf(log2);
    forall j | 0 <= j < N
      ensures ring2[j] == ring[i := Some(rec)][j]
    {
      KeyInjective(i, j);
    }
  }

  function SendRecord(clock: seq<nat>, m: Option<nat>): Option<PeerRecord>
    requires m.Some? ==> m.value < |clock|
  {
    if m.Some? then Some(PeerRecord(clock[m.value], "")) else None
  }

  lemma {:induction false} SendsSnoc(p: ProducerCtx, log: PeerLog, clock: seq<nat>, t: nat)
    requires IndexInRange(p)
    ensures Sends(p, log, clock + [t]) == ProducerSend(Sends(p, log, clock).0, Sends(p, log, clock).1, t)
    decreases |clock|
  {
    if |clock| > 0 {
      var (p1, log1) := ProducerSend(p, log, clock[0]);
      assert (clock + [t])[1..] == clock[1..] + [t];
      SendsSnoc(p1, log1, clock[1..], t);
    }
  }

  /** After `k` sends from a fresh producer into an empty log, its index is the slot of
      the last send and each slot holds the record of the last send to it. */
  lemma {:induction false} FreshSends(peerId: PeerId, plan: ExecutionPlan, clock: seq<nat>)
    ensures var r := Sends(NewProducer(peerId, plan), map[], clock);
      && r.0.msgIndex == (if |clock| == 0 then -1 else (|clock| - 1) % N)
      && forall j :: 0 <= j < N ==> RingOf(r.1)[j] == SendRecord(clock, LatestSend(|clock|, j))
    decreases |clock|
  {
    var p0 := NewProducer(peerId, plan);
    var k := |clock|;
    if k == 0 {
      forall j | 0 <= j < N
        ensures RingOf(map[])[j] == None
      {
      }
    } else {
      var front := clock[..k - 1];
      var t := clock[k - 1];
      assert clock == front + [t];
      FreshSends(peerId, plan, front);
      SendsSnoc(p0, map[], front, t);
      var prev := Sends(p0, map[], front);
      NextIndex(prev.0.msgIndex, k);
      var idx := (k - 1) % N;
      RingOfUpdate(prev.1, idx, PeerRecord(t, ""));
      forall j | 0 <= j < N
        ensures RingOf(prev.1)[idx := Some(PeerRecord(t, ""))][j] == SendRecord(clock, LatestSend(k, j))
      {
        SlotAfterSend(RingOf(prev.1), front, t, j);
      }
    }
  }

  /** The producer's next index after the `k - 1` earlier sends is the slot of send `k - 1`. */
  lemma NextIndex(prevIdx: int, k: nat)
    requires k > 0
    requires prevIdx == (if k - 1 == 0 then -1 else (k - 2) % N)
    ensures (prevIdx + 1) % N == (k - 1) % N
  {
    if k > 1 {
      ModSucc(k - 2);
    }
  }

  /** One more send, to slot `|front| mod N`, keeps each slot's record the last one sent there. */
  lemma SlotAfterSend(ring: Ring, front: seq<nat>, t: nat, j: nat)
    requires j < N
    requires ring[j] == SendRecord(front, LatestSend(|front|, j))
    ensures ring[|front| % N := Some(PeerRecord(t, ""))][j] == SendRecord(front + [t], LatestSend(|front| + 1, j))
  {
    LatestSendStep(|front|, j);
    var m := LatestSend(|front|, j);
    if m.Some? {
      assert (front + [t])[m.value] == front[m.value];
    }
    assert (front + [t])[|front|] == t;
  }

  /** The records a fresh consumer reads after `k` sends: slots `0..r` with
      `r = (k - 1) mod N`, the last lap of the producer. */
  function LastLap(clock: seq<nat>): (recs: seq<PeerRecord>)
    requires |clock| >= 1
    ensures |recs| == (|clock| - 1) % N + 1
  {
    var k := |clock|;
    var r := (k - 1) % N;
    seq(r + 1, j requires 0 <= j <= r => PeerRecord(clock[k - 1 - (r - j)], ""))
  }

  ghost predicate StrictlyIncreasing(clock: seq<nat>) {
    forall a, b :: 0 <= a < b < |clock| ==> clock[a] < clock[b]
  }

  /** On a saturated ring the slot after any consumed run passes. */
  lemma SaturatedRunGoesOn(ring: Ring, ts: nat, i: nat, recs: seq<PeerRecord>)
    requires i < N && ConsumedRun(ring, ts, i, recs) && Saturated(ring, ts)
    ensures Passes(ring, LastTs(ts, recs), Slot(i, |recs|))
  {
    if |recs| > 0 {
      assert ring[Slot(i, |recs| - 1)] == Some(recs[|recs| - 1]);
    }
  }

  /** A finished walk shows the ring is not saturated at its start. */
  lemma WalkNotSaturated(ring: Ring, ts: nat, i: nat, w: Walk)
    requires i < N && WalkFrom(ring, ts, i, w)
    ensures !Saturated(ring, ts)
  {
    if Saturated(ring, ts) {
      SaturatedRunGoesOn(ring, ts, i, w.consumed);
    }
  }

  /** Every slot of `ring` holds the record of the last send to it. */
  ghost predicate RingAfterSends(ring: Ring, clock: seq<nat>) {
    forall j :: 0 <= j < N ==> ring[j] == SendRecord(clock, LatestSend(|clock|, j))
  }

  lemma LastLapConsumed(ring: Ring, clock: seq<nat>)
    requires |clock| >= 1 && StrictlyIncreasing(clock) && RingAfterSends(ring, clock)
    ensures ConsumedRun(ring, 0, 0, LastLap(clock))
  {
    var k := |clock|;
    var r := (k - 1) % N;
    var recs := LastLap(clock);
    forall m | 0 <= m < |recs|
      ensures ring[Slot(0, m)] == Some(recs[m])
    {
      assert Slot(0, m) == m;
      assert ring[m] == SendRecord(clock, LatestSend(k, m));
    }
    forall m | 0 < m < |recs|
      ensures recs[m - 1].timestamp <= recs[m].timestamp
    {
      assert clock[k - 1 - (r - (m - 1))] < clock[k - 1 - (r - m)];
    }
  }

  lemma LastLapStops(ring: Ring, clock: seq<nat>)
    requires |clock| >= 1 && StrictlyIncreasing(clock) && RingAfterSends(ring, clock)
    ensures !Passes(ring, clock[|clock| - 1], Slot(0, (|clock| - 1) % N + 1))
  {
    var k := |clock|;
    var r := (k - 1) % N;
    var s := Slot(0, r + 1);
    assert ring[s] == SendRecord(clock, LatestSend(k, s));
    if r + 1 < N {
      assert s == r + 1;
    } else {
      assert s == 0;
    }
  }

  /** The loop from slot 0 over such a ring reads the last lap and stops after it. */
  lemma LastLapWalk(ring: Ring, clock: seq<nat>)
    requires |clock| >= 1 && StrictlyIncreasing(clock) && RingAfterSends(ring, clock)
    ensures !Saturated(ring, 0)
    ensures Consume(ring, 0, 0) == Walk(LastLap(clock), clock[|clock| - 1], Slot(0, (|clock| - 1) % N + 1))
  {
    var w := Walk(LastLap(clock), clock[|clock| - 1], Slot(0, (|clock| - 1) % N + 1));
    LastLapConsumed(ring, clock);
    LastLapStops(ring, clock);
    assert WalkFrom(ring, 0, 0, w);
    WalkNotSaturated(ring, 0, 0, w);
    WalkFromUnique(ring, 0, 0, w, Consume(ring, 0, 0));
  }

  /** `n` is the number of records in the last lap of `k` sends: all of them up to a full
      lap, and the sends since the last wrap to slot 0 after that. */
  predicate LastLapCount(n: nat, k: nat) {
    n == (k - 1) % N + 1
  }

  /** The log a fresh producer leaves after sending at the times of `clock`. */
  function FreshLog(peerId: PeerId, plan: ExecutionPlan, clock: seq<nat>): PeerLog {
    Sends(NewProducer(peerId, plan), map[], clock).1
  }

  /** With strictly increasing send times, a fresh consumer's first pass over a producer's
      log reads exactly the producer's last lap: `k` records while `k <= N`, and
      `(k - 1) mod N + 1` after wrapping, since the older records after the last write stop
      the loop. */
  lemma FreshScanReadsLastLap(localId: PeerId, peerId: PeerId, plan: ExecutionPlan, clock: seq<nat>, now: nat)
    requires |clock| >= 1
    requires StrictlyIncreasing(clock)
    requires forall m :: 0 <= m < |clock| ==> clock[m] <= now
    ensures CanProcess(NewConsumer(localId), peerId, FreshLog(peerId, plan, clock), now)
    ensures ConsumedWalk(NewConsumer(localId), peerId, FreshLog(peerId, plan, clock), now).consumed == LastLap(clock)
    ensures LastLapCount(ProcessPeer(NewConsumer(localId), peerId, FreshLog(peerId, plan, clock), now).tally.stats.numEvents,
                         |clock|)
  {
    var k := |clock|;
    var log := FreshLog(peerId, plan, clock);
    var ring := RingOf(log);
    FreshSends(peerId, plan, clock);
    assert RingAfterSends(ring, clock);
    assert RingNotAfter(ring, now) by {
      forall j | 0 <= j < N
        ensures SlotTs(ring, j) <= now
      {
        assert ring[j] == SendRecord(clock, LatestSend(k, j));
      }
    }
    LastLapWalk(ring, clock);
    var c0 := NewConsumer(localId);
    assert GetTsIdx(c0, peerId) == Cursor(0, 0);
    assert CanProcess(c0, peerId, log, now);
  }

  /** Up to a full lap every record is read; one send past the lap, only the newest. */
  lemma FreshScanCounts(localId: PeerId, peerId: PeerId, plan: ExecutionPlan, clock: seq<nat>, now: nat)
    requires 1 <= |clock| <= N + 1
    requires StrictlyIncreasing(clock)
    requires forall m :: 0 <= m < |clock| ==> clock[m] <= now
    ensures CanProcess(NewConsumer(localId), peerId, FreshLog(peerId, plan, clock), now)
    ensures ProcessPeer(NewConsumer(localId), peerId, FreshLog(peerId, plan, clock), now).tally.stats.numEvents
            == if |clock| <= N then |clock| else 1
  {
    FreshScanReadsLastLap(localId, peerId, plan, clock, now);
    LapCount(ProcessPeer(NewConsumer(localId), peerId, FreshLog(peerId, plan, clock), now).tally.stats.numEvents, |clock|);
  }

  lemma LapCount(n: nat, k: nat)
    requires 1 <= k <= N + 1 && LastLapCount(n, k)
    ensures n == if k <= N then k else 1
  {
    if k <= N {
      assert (k - 1) % N == k - 1;
    } else {
      assert k - 1 == N;
    }
  }

  /** The logs of the cursor finding are what the producer writes: its first send fills
      slot 0, its second slot 1. */
  lemma ProducerFirstSends(peerId: PeerId, plan: ExecutionPlan, t0: nat, t1: nat)
    ensures Sends(NewProducer(peerId, plan), map[], [t0]).1 == OneRecordLog(PeerRecord(t0, ""))
    ensures Sends(NewProducer(peerId, plan), map[], [t0, t1]).1
            == TwoRecordLog(PeerRecord(t0, ""), PeerRecord(t1, ""))
  {
    var p0 := NewProducer(peerId, plan);
    var (p1, l1) := ProducerSend(p0, map[], t0);
    assert Sends(p0, map[], [t0]) == Sends(p1, l1, []);
    var (p2, l2) := ProducerSend(p1, l1, t1);
    assert [t0, t1][1..] == [t1];
    assert Sends(p1, l1, [t1]) == Sends(p2, l2, []);
  }
}

=== FILE: sorting.dfy ===
/** Sorting peer ids the way `peers.sort_by(|a, b| b.cmp(a))` does: descending. */
module Sorting {
  import opened StrOrder

  /** Every element is at least as large as each element after it. */
  ghost predicate SortedDesc(s: seq<string>) {
    forall i, j :: 0 <= i < j < |s| ==> LexLeq(s[j], s[i])
  }

  ghost predicate Distinct<T>(s: seq<T>) {
    forall i, j :: 0 <= i < j < |s| ==> s[i] != s[j]
  }

  /** Place `x` into a descending sequence. */
  function Insert(x: string, s: seq<string>): (r: seq<string>)
    requires SortedDesc(s)
    ensures multiset(r) == multiset(s) + multiset{x}
    ensures SortedDesc(r)
  {
    if |s| == 0 then [x]
    else if LexLeq(s[0], x) then
      TopGoesFirst(x, s);
      [x] + s
    else
      TailFacts(s);
      var t := Insert(x, s[1..]);
      LexTotal(s[0], x);
      AllBelowHead(t, s, x);
      HeadThenSorted(s[0], t);
      [s[0]] + t
  }

  /** An element at least the head of a descending sequence can go in front of it. */
  lemma TopGoesFirst(x: string, s: seq<string>)
    requires SortedDesc(s) && |s| > 0 && LexLeq(s[0], x)
    ensures SortedDesc([x] + s)
  {
    forall j | 0 <= j < |s| ensures LexLeq(s[j], x) {
      LeqTransitive(s[j], s[0], x);
    }
    HeadThenSorted(x, s);
  }

  lemma HeadThenSorted(h: string, t: seq<string>)
    requires SortedDesc(t) && forall j :: 0 <= j < |t| ==> LexLeq(t[j], h)
    ensures SortedDesc([h] + t)
  {
    var r := [h] + t;
    forall i, j | 0 <= i < j < |r| ensures LexLeq(r[j], r[i]) {
      assert r[j] == t[j - 1];
      if i > 0 { assert r[i] == t[i - 1]; }
    }
  }

  /** What `Insert` puts after a kept head stays at or below that head. */
  lemma AllBelowHead(t: seq<string>, s: seq<string>, x: string)
    requires SortedDesc(s) && |s| > 0 && LexLeq(x, s[0])
    requires multiset(t) == multiset(s[1..]) + multiset{x}
    ensures forall j :: 0 <= j < |t| ==> LexLeq(t[j], s[0])
  {
    forall j | 0 <= j < |t| ensures LexLeq(t[j], s[0]) {
      assert t[j] in multiset(t);
      if t[j] != x {
        assert t[j] in multiset(s[1..]);
        var k :| 0 <= k < |s[1..]| && s[1..][k] == t[j];
        assert s[k + 1] == t[j];
      }
    }
  }

  /** Insertion sort, descending. */
  function SortDesc(s: seq<string>): (r: seq<string>)
    ensures multiset(r) == multiset(s)
    ensures |r| == |s|
    ensures SortedDesc(r)
  {
    if |s| == 0 then []
    else
      assert s == s[..|s| - 1] + [s[|s| - 1]];
      assert |Insert(s[|s| - 1], SortDesc(s[..|s| - 1]))| == |multiset(s)|;
      Insert(s[|s| - 1], SortDesc(s[..|s| - 1]))
  }

  function Reverse<T>(s: seq<T>): (r: seq<T>)
    ensures |r| == |s|
    ensures forall k :: 0 <= k < |s| ==> r[k] == s[|s| - 1 - k]
  {
    if |s| == 0 then [] else Reverse(s[1..]) + [s[0]]
  }

  lemma ReverseMultiset<T>(s: seq<T>)
    ensures multiset(Reverse(s)) == multiset(s)
  {
    if |s| > 0 {
      assert s == [s[0]] + s[1..];
      ReverseMultiset(s[1..]);
    }
  }

  /** A permutation of a duplicate-free sequence is duplicate-free. */
  lemma DistinctPermutation<T>(s: seq<T>, t: seq<T>)
    requires multiset(s) == multiset(t)
    requires Distinct(s)
    ensures Distinct(t)
  {
    forall i, j | 0 <= i < j < |t| ensures t[i] != t[j] {
      if t[i] == t[j] {
        var x := t[i];
        assert multiset(t)[x] >= 2 by {
          var front, back := t[..j], t[j..];
          assert t == front + back;
          assert front[i] == x && back[0] == x;
          assert multiset(front)[x] >= 1 && multiset(back)[x] >= 1;
        }
        MultisetCountAtMostOne(s, x);
      }
    }
  }

  lemma {:induction false} MultisetCountAtMostOne<T>(s: seq<T>, x: T)
    requires Distinct(s)
    ensures multiset(s)[x] <= 1
  {
    if |s| > 0 {
      assert s == [s[0]] + s[1..];
      MultisetCountAtMostOne(s[1..], x);
      if s[0] == x {
        assert x !in s[1..];
      }
    }
  }

  /** Two descending orders of the same multiset agree: sorting has only one answer. */
  lemma {:induction false} SortedDescUnique(a: seq<string>, b: seq<string>)
    requires SortedDesc(a) && SortedDesc(b)
    requires multiset(a) == multiset(b)
    ensures a == b
    decreases |a|
  {
    assert |a| == |multiset(a)| == |multiset(b)| == |b|;
    if |a| > 0 {
      HeadsAgree(a, b);
      TailFacts(a);
      TailFacts(b);
      SortedDescUnique(a[1..], b[1..]);
      HeadTailEq(a, b);
    }
  }

  lemma HeadTailEq(a: seq<string>, b: seq<string>)
    requires |a| > 0 && |b| > 0 && a[0] == b[0] && a[1..] == b[1..]
    ensures a == b
  {
    assert a == [a[0]] + a[1..] && b == [b[0]] + b[1..];
  }

  /** Both heads are the largest element of the common multiset. */
  lemma HeadsAgree(a: seq<string>, b: seq<string>)
    requires SortedDesc(a) && SortedDesc(b)
    requires multiset(a) == multiset(b) && |a| > 0 && |b| > 0
    ensures a[0] == b[0]
  {
    assert a[0] in multiset(b) && b[0] in multiset(a);
    var i :| 0 <= i < |b| && b[i] == a[0];
    var j :| 0 <= j < |a| && a[j] == b[0];
    assert LexLeq(a[0], b[0]) && LexLeq(b[0], a[0]);
    if a[0] != b[0] {
      LexAsymmetric(a[0], b[0]);
    }
  }

  /** Dropping the head of a descending sequence. */
  lemma TailFacts(a: seq<string>)
    requires SortedDesc(a) && |a| > 0
    ensures SortedDesc(a[1..])
    ensures multiset(a[1..]) == multiset(a) - multiset{a[0]}
  {
    assert a == [a[0]] + a[1..];
    forall i, j | 0 <= i < j < |a| - 1 ensures LexLeq(a[1..][j], a[1..][i]) {
      assert a[1..][j] == a[j + 1] && a[1..][i] == a[i + 1];
    }
  }
}

=== FILE: strorder.dfy ===
/** The ordering Rust's `Ord for String` uses: lexicographic on the UTF-8 bytes. UTF-8
    preserves the order of code points, so comparing the characters of a Dafny string
    one by one gives the same answer. */
module StrOrder {

  /** `a` sorts strictly before `b`. */
  predicate LexLess(a: string, b: string)
    decreases |a|
  {
    if |a| == 0 then |b| > 0
    else if |b| == 0 then false
    else if a[0] < b[0] then true
    else if a[0] == b[0] then LexLess(a[1..], b[1..])
    else false
  }

  predicate LexLeq(a: string, b: string) {
    a == b || LexLess(a, b)
  }

  lemma {:induction false} LexIrreflexive(a: string)
    ensures !LexLess(a, a)
    decreases |a|
  {
    if |a| > 0 {
      LexIrreflexive(a[1..]);
    }
  }

  lemma {:induction false} LexAsymmetric(a: string, b: string)
    requires LexLess(a, b)
    ensures !LexLess(b, a)
    decreases |a|
  {
    if |a| > 0 && |b| > 0 && a[0] == b[0] {
      LexAsymmetric(a[1..], b[1..]);
    }
  }

  lemma {:induction false} LexTransitive(a: string, b: string, c: string)
    requires LexLess(a, b) && LexLess(b, c)
    ensures LexLess(a, c)
    decreases |a|
  {
    if |a| > 0 && a[0] == b[0] && b[0] == c[0] {
      LexTransitive(a[1..], b[1..], c[1..]);
    }
  }

  /** Two different strings are always ordered one way or the other. */
  lemma {:induction false} LexTotal(a: string, b: string)
    requires a != b
    ensures LexLess(a, b) || LexLess(b, a)
    decreases |a|
  {
    if |a| > 0 && |b| > 0 && a[0] == b[0] {
      assert a == [a[0]] + a[1..] && b == [b[0]] + b[1..];
      LexTotal(a[1..], b[1..]);
    }
  }

  lemma LeqTransitive(a: string, b: string, c: string)
    requires LexLeq(a, b) && LexLeq(b, c)
    ensures LexLeq(a, c)
  {
    if a != b && b != c {
      LexTransitive(a, b, c);
    }
  }
}

=== FILE: ts_consumer.dfy ===
/** The TypeScript consumer of container-mesh/ts/src/consumer.ts. It runs the same ring
    loop as the Rust one, but on JavaScript numbers: a latency is `now - timestamp` with no
    sign restriction and the mean is exact. The observer only processes documents while
    the consumer is running. Collection creation and the live query are left out. */
module TsConsumer {
  import opened Wrappers
  import opened Types
  import opened RingScan
  import opened Latency
  import Consumer

  type Cursor = Consumer.Cursor

  datatype TsConsumer = TsConsumer(localId: PeerId, running: bool, cursors: map<PeerId, Cursor>, tally: TsTally)

  /** `new Consumer(...)`: not running, no cursors, fresh statistics. */
  function NewTsConsumer(localId: PeerId): (c: TsConsumer)
    ensures c.localId == localId && !c.running && c.cursors == map[] && c.tally == NewTsTally()
  {
    TsConsumer(localId, false, map[], NewTsTally())
  }

  /** `getTSIdx`: the stored cursor, or `{ts: 0, i: 0}`. */
  function GetTsIdx(c: TsConsumer, id: PeerId): (r: Cursor)
    ensures id in c.cursors ==> r == c.cursors[id]
    ensures id !in c.cursors ==> r == Consumer.Cursor(0, 0)
  {
    if id in c.cursors then c.cursors[id] else Consumer.Cursor(0, 0)
  }

  /** The signed latencies `now - timestamp` of records, in order. */
  function TsLatencies(recs: seq<PeerRecord>, now: int): (lats: seq<int>)
    ensures |lats| == |recs|
    ensures forall m :: 0 <= m < |recs| ==> lats[m] + recs[m].timestamp == now
  {
    seq(|recs|, m requires 0 <= m < |recs| => now - recs[m].timestamp)
  }

  ghost predicate CanProcess(c: TsConsumer, id: PeerId, log: PeerLog) {
    GetTsIdx(c, id).idx < N && !Saturated(RingOf(log), GetTsIdx(c, id).ts)
  }

  /** `processPeer`: the ring loop, the signed fold, and `setConsumedTSIdx`, which stores
      the index one past the stopping slot as the Rust consumer does. */
  function ProcessPeer(c: TsConsumer, id: PeerId, log: PeerLog, now: int): (r: TsConsumer)
    requires CanProcess(c, id, log)
    ensures var w := Consume(RingOf(log), GetTsIdx(c, id).ts, GetTsIdx(c, id).idx);
      && GetTsIdx(r, id) == Consumer.StoredCursor(w)
      && r.tally == TsFoldAll(c.tally, TsLatencies(w.consumed, now))
    ensures forall p :: p != id ==> GetTsIdx(r, p) == GetTsIdx(c, p)
    ensures r.cursors.Keys == c.cursors.Keys + {id}
    ensures r.localId == c.localId && r.running == c.running
  {
    var cur := GetTsIdx(c, id);
    var w := Consume(RingOf(log), cur.ts, cur.idx);
    c.(tally := TsFoldAll(c.tally, TsLatencies(w.consumed, now)),
       cursors := c.cursors[id := Consumer.StoredCursor(w)])
  }

  /** Unlike the Rust consumer, a record stamped after `now` is consumed with a negative
      latency rather than excluded by a precondition. */
  lemma FutureRecordGivesNegativeLatency(c: TsConsumer, id: PeerId, log: PeerLog, now: int)
    requires CanProcess(c, id, log)
    requires GetTsIdx(c, id).ts <= SlotTs(RingOf(log), GetTsIdx(c, id).idx)
    requires RingOf(log)[GetTsIdx(c, id).idx].Some?
    requires now < RingOf(log)[GetTsIdx(c, id).idx].value.timestamp
    ensures ProcessPeer(c, id, log, now).tally.stats.minMsec < 0
  {
    var cur := GetTsIdx(c, id);
    var ring := RingOf(log);
    ConsumeStartsAt(ring, cur.ts, cur.idx);
    var w := Consume(ring, cur.ts, cur.idx);
    TsFoldAllSummary(c.tally, TsLatencies(w.consumed, now));
    var lats := TsLatencies(w.consumed, now);
    assert lats[0] < 0;
    assert lats[0] in lats;
  }

  ghost predicate CanProcessDoc(c: TsConsumer, logs: map<PeerId, PeerLog>) {
    forall p :: p in logs && p != c.localId ==> CanProcess(c, p, logs[p])
  }

  lemma ProcessPeerKeepsOthers(c: TsConsumer, id: PeerId, logs: map<PeerId, PeerLog>, now: int)
    requires id in logs && id != c.localId
    requires CanProcessDoc(c, logs)
    ensures CanProcessDoc(ProcessPeer(c, id, logs[id], now), logs)
  {
    var c1 := ProcessPeer(c, id, logs[id], now);
    forall p | p in logs && p != c1.localId && p != id
      ensures CanProcess(c1, p, logs[p])
    {
      assert GetTsIdx(c1, p) == GetTsIdx(c, p);
    }
  }

  /** The loop over the document's logs, skipping our own. */
  function ProcessLogs(c: TsConsumer, logs: map<PeerId, PeerLog>, order: seq<PeerId>, now: int): (r: TsConsumer)
    requires forall k :: k in order ==> k in logs
    requires CanProcessDoc(c, logs)
    ensures r.localId == c.localId && r.running == c.running
    ensures r.tally.stats.distinctPeers == c.tally.stats.distinctPeers
    ensures r.tally.stats.numEvents >= c.tally.stats.numEvents
    ensures GetTsIdx(r, c.localId) == GetTsIdx(c, c.localId)
    decreases |order|
  {
    if |order| == 0 then c
    else if order[0] == c.localId then ProcessLogs(c, logs, order[1..], now)
    else
      ProcessPeerKeepsOthers(c, order[0], logs, now);
      ProcessLogs(ProcessPeer(c, order[0], logs[order[0]], now), logs, order[1..], now)
  }

  /** After a document the consumer holds a cursor for every remote peer it mentions, and
      our own cursor and the peers it does not mention keep theirs. */
  lemma {:induction false} ProcessLogsFrame(c: TsConsumer, logs: map<PeerId, PeerLog>, order: seq<PeerId>, now: int)
    requires forall k :: k in order ==> k in logs
    requires forall a, b :: 0 <= a < b < |order| ==> order[a] != order[b]
    requires CanProcessDoc(c, logs)
    ensures ProcessLogs(c, logs, order, now).cursors.Keys == c.cursors.Keys + (set p | p in order && p != c.localId)
    ensures forall p :: p !in order || p == c.localId ==> GetTsIdx(ProcessLogs(c, logs, order, now), p) == GetTsIdx(c, p)
    decreases |order|
  {
    if |order| > 0 {
      var id := order[0];
      Consumer.OrderTail(order);
      if id == c.localId {
        ProcessLogsFrame(c, logs, order[1..], now);
      } else {
        ProcessPeerKeepsOthers(c, id, logs, now);
        ProcessLogsFrame(ProcessPeer(c, id, logs[id], now), logs, order[1..], now);
      }
    }
  }

  /** After a document, each remote peer's cursor is where processing that peer's log
      alone from its old cursor leaves it, whatever the iteration order. */
  lemma {:induction false} ProcessLogsCursors(c: TsConsumer, logs: map<PeerId, PeerLog>, order: seq<PeerId>, now: int)
    requires forall k :: k in order ==> k in logs
    requires forall a, b :: 0 <= a < b < |order| ==> order[a] != order[b]
    requires CanProcessDoc(c, logs)
    ensures forall p :: p in order && p != c.localId ==>
      GetTsIdx(ProcessLogs(c, logs, order, now), p) == Consumer.NextCursor(GetTsIdx(c, p), logs[p])
    decreases |order|
  {
    if |order| > 0 {
      var id := order[0];
      Consumer.OrderTail(order);
      if id == c.localId {
        ProcessLogsCursors(c, logs, order[1..], now);
      } else {
        var c1 := ProcessPeer(c, id, logs[id], now);
        ProcessPeerKeepsOthers(c, id, logs, now);
        ProcessLogsCursors(c1, logs, order[1..], now);
        ProcessLogsFrame(c1, logs, order[1..], now);
        var r := ProcessLogs(c1, logs, order[1..], now);
        assert GetTsIdx(r, id) == Consumer.NextCursor(GetTsIdx(c, id), logs[id]);
        forall p | p in order[1..] && p != c.localId
          ensures GetTsIdx(r, p) == Consumer.NextCursor(GetTsIdx(c, p), logs[p])
        {
          assert GetTsIdx(c1, p) == GetTsIdx(c, p);
        }
      }
    }
  }

  /** The live-query observer: ignores events while stopped and events without a
      document; otherwise processes every other peer's log. */
  function Observe(c: TsConsumer, doc: Option<map<PeerId, PeerLog>>, order: seq<PeerId>, now: int): (r: TsConsumer)
    requires doc.Some? ==> (forall k :: k in order ==> k in doc.value) && CanProcessDoc(c, doc.value)
    ensures !c.running || doc.None? ==> r == c
    ensures c.running && doc.Some? ==> r == ProcessLogs(c, doc.value, order, now)
    ensures r.running == c.running && r.localId == c.localId
    ensures r.tally.stats.distinctPeers == c.tally.stats.distinctPeers
  {
    if !c.running then c
    else if doc.None? then c
    else ProcessLogs(c, doc.value, order, now)
  }

  /** `start`, apart from creating the collection and registering the observer. */
  function Start(c: TsConsumer): (r: TsConsumer)
    ensures r.running && r.cursors == c.cursors && r.tally == c.tally && r.localId == c.localId
  {
    c.(running := true)
  }

  /** `stop`: the observer turns inert and the statistics are returned as they are. */
  function Stop(c: TsConsumer): (res: (TsConsumer, TsStats))
    ensures !res.0.running && res.0.cursors == c.cursors && res.0.tally == c.tally
    ensures res.1 == c.tally.stats
  {
    (c.(running := false), c.tally.stats)
  }

  /** Once stopped, no document changes the consumer. */
  lemma StoppedIgnoresDocuments(c: TsConsumer, doc: Option<map<PeerId, PeerLog>>, order: seq<PeerId>, now: int)
    requires doc.Some? ==> (forall k :: k in order ==> k in doc.value) && CanProcessDoc(Stop(c).0, doc.value)
    ensures Observe(Stop(c).0, doc, order, now) == Stop(c).0
  {
  }
}

=== FILE: ts_producer.dfy ===
/** The TypeScript producer of container-mesh/ts/src/producer.ts: a timer-driven chain of
    `produce` calls, each writing a fresh record into the next ring slot and arming the
    next timer, until `stop` raises `finished`. Timers and the random delay are left out:
    each step says whether it arms another timer. */
module TsProducer {
  import opened Types
  import opened RingScan
  import Producer

  datatype TsProducer = TsProducer(peerId: PeerId, msgIndex: int, msgCount: nat, finished: bool)

  ghost predicate IndexInRange(p: TsProducer) {
    0 <= p.msgIndex < N
  }

  /** `new Producer(...)`: index 0, count 0, and `finished` until `start`. */
  function NewTsProducer(peerId: PeerId): (p: TsProducer)
    ensures p.msgIndex == 0 && p.msgCount == 0 && p.finished && IndexInRange(p)
  {
    TsProducer(peerId, 0, 0, true)
  }

  /** `getNextIdx`: advance, then wrap to 0 at the log size. */
  function GetNextIdx(p: TsProducer): (r: (TsProducer, nat))
    requires IndexInRange(p)
    ensures IndexInRange(r.0) && r.0.msgIndex == r.1
    ensures r.1 == (p.msgIndex + 1) % N
    ensures r.0 == p.(msgIndex := r.1)
  {
    var i := p.msgIndex + 1;
    var i' := if i >= N then 0 else i;
    (p.(msgIndex := i'), i')
  }

  /** One timer firing: what the producer, its log and the timer chain become. */
  datatype Step = Step(producer: TsProducer, log: PeerLog, rearmed: bool)

  /** `produce` as written: a no-op once finished (and no timer is armed); otherwise a
      record stamped `now` goes into the next slot and the next timer is armed. The count
      of produced messages is not touched. */
  function Produce(p: TsProducer, log: PeerLog, now: nat): (s: Step)
    requires IndexInRange(p)
    ensures IndexInRange(s.producer)
    ensures p.finished ==> s == Step(p, log, false)
    ensures !p.finished ==> (s.rearmed && s.producer.msgIndex == (p.msgIndex + 1) % N
                             && s.log == log[Key((p.msgIndex + 1) % N) := PeerRecord(now, "")])
    ensures s.producer.msgCount == p.msgCount
  {
    if p.finished then Step(p, log, false)
    else
      var (p1, idx) := GetNextIdx(p);
      Step(p1, log[Key(idx) := PeerRecord(now, "")], true)
  }

  /** `start`: clears `finished` and arms the first timer. */
  function Start(p: TsProducer): (r: TsProducer)
    ensures !r.finished && r.msgIndex == p.msgIndex && r.msgCount == p.msgCount
  {
    p.(finished := false)
  }

  /** `stop`: raises `finished` and returns the message count. */
  function Stop(p: TsProducer): (r: (TsProducer, nat))
    ensures r.0.finished && r.1 == p.msgCount && r.0.msgIndex == p.msgIndex
  {
    (p.(finished := true), p.msgCount)
  }

  /** The timer chain after `start`, firing at the given times while it stays armed;
      `counted` selects the corrected `produce`. */
  function Run(p: TsProducer, log: PeerLog, clock: seq<nat>, counted: bool): (s: Step)
    requires IndexInRange(p)
    ensures IndexInRange(s.producer)
    decreases |clock|
  {
    if |clock| == 0 then Step(p, log, true)
    else
      var s := if counted then ProduceCounted(p, log, clock[0]) else Produce(p, log, clock[0]);
      if !s.rearmed then s else Run(s.producer, s.log, clock[1..], counted)
  }

  lemma {:induction false} RunKeepsCount(p: TsProducer, log: PeerLog, clock: seq<nat>)
    requires IndexInRange(p) && !p.finished
    ensures Run(p, log, clock, false).producer.msgCount == p.msgCount
    decreases |clock|
  {
    if |clock| > 0 {
      var s := Produce(p, log, clock[0]);
      RunKeepsCount(s.producer, s.log, clock[1..]);
    }
  }

  /** As written: a producer that produced `|clock| >= 1` records reports 0 from `stop`. */
  lemma StopReportsZero(peerId: PeerId, clock: seq<nat>)
    requires |clock| >= 1
    ensures var p := Start(NewTsProducer(peerId));
      Stop(Run(p, map[], clock, false).producer).1 == 0
  {
    RunKeepsCount(Start(NewTsProducer(peerId)), map[], clock);
  }

  /** Corrected `produce`: the count goes up with every record written. */
  function ProduceCounted(p: TsProducer, log: PeerLog, now: nat): (s: Step)
    requires IndexInRange(p)
    ensures IndexInRange(s.producer)
    ensures p.finished ==> s == Step(p, log, false)
    ensures !p.finished ==> (s.rearmed && s.producer.msgCount == p.msgCount + 1
                             && s.log == Produce(p, log, now).log
                             && s.producer.msgIndex == Produce(p, log, now).producer.msgIndex)
  {
    if p.finished then Step(p, log, false)
    else
      var s := Produce(p, log, now);
      s.(producer := s.producer.(msgCount := p.msgCount + 1))
  }

  /** Corrected: `stop` returns the number of records the chain wrote. */
  lemma {:induction false} StopReportsProduced(p: TsProducer, log: PeerLog, clock: seq<nat>)
    requires IndexInRange(p) && !p.finished
    ensures Run(p, log, clock, true).producer.msgCount == p.msgCount + |clock|
    ensures !Run(p, log, clock, true).producer.finished
    decreases |clock|
  {
    if |clock| > 0 {
      var s := ProduceCounted(p, log, clock[0]);
      StopReportsProduced(s.producer, s.log, clock[1..]);
    }
  }

  /** The `k`-th record a fresh producer writes goes to slot `k mod N`: slot 0 is first
      written only after a wrap, unlike the Rust producer whose first record is slot 0. */
  lemma {:induction false} RunIndex(p: TsProducer, log: PeerLog, clock: seq<nat>)
    requires IndexInRange(p) && !p.finished
    ensures Run(p, log, clock, false).producer.msgIndex == (p.msgIndex + |clock|) % N
    decreases |clock|
  {
    if |clock| > 0 {
      var s := Produce(p, log, clock[0]);
      RunIndex(s.producer, s.log, clock[1..]);
      Producer.ModSucc(p.msgIndex);
      assert (s.producer.msgIndex + (|clock| - 1)) % N == (p.msgIndex + |clock|) % N by {
        ModAdd(p.msgIndex + 1, |clock| - 1);
      }
    }
  }

  lemma ModAdd(a: nat, b: nat)
    ensures (a % N + b) % N == (a + b) % N
  {
  }
}

=== FILE: ts_types.dfy ===
/** The TypeScript data model of container-mesh/ts/src/types.ts: numeric lifecycle states
    and the constructors of records and reports. Its `LatencyStats` constructor is
    `Latency.NewTsTally`. */
module TsTypes {
  import opened Wrappers
  import opened Types
  import opened Latency

  /** The number a TypeScript `enum PeerState` member stands for. */
  function Ordinal(s: PeerState): (n: nat)
    ensures n < 5
    ensures n == 0 <==> s == Init
    ensures n == 4 <==> s == Shutdown
  {
    match s
    case Init => 0
    case Ready => 1
    case Running => 2
    case Reporting => 3
    case Shutdown => 4
  }

  /** The state with a given number, if any. */
  function FromOrdinal(n: nat): (s: Option<PeerState>)
    ensures s.Some? <==> n < 5
  {
    if n == 0 then Some(Init)
    else if n == 1 then Some(Ready)
    else if n == 2 then Some(Running)
    else if n == 3 then Some(Reporting)
    else if n == 4 then Some(Shutdown)
    else None
  }

  /** The numbering is a bijection onto 0..4, and it follows the lifecycle: each state
      of the peer's run has the next number. */
  lemma OrdinalRoundTrip(s: PeerState, n: nat)
    ensures FromOrdinal(Ordinal(s)) == Some(s)
    ensures n < 5 ==> Ordinal(FromOrdinal(n).value) == n
    ensures Ordinal(Ready) == Ordinal(Init) + 1 && Ordinal(Running) == Ordinal(Ready) + 1
    ensures Ordinal(Reporting) == Ordinal(Running) + 1 && Ordinal(Shutdown) == Ordinal(Reporting) + 1
  {
  }

  datatype TsPeerReport = TsPeerReport(messageLatency: TsStats, recordsProduced: nat)

  /** `new PeerReport(latency, records)`: both arguments stored as given. */
  function NewPeerReport(latency: TsStats, records: nat): (r: TsPeerReport)
    ensures r.messageLatency == latency && r.recordsProduced == records
  {
    TsPeerReport(latency, records)
  }
}

=== FILE: types.dfy ===
/** The shared data model of common/src/types.rs: peer identities and lifecycle states,
    heartbeats, ring-log records, latency statistics, the execution plan, and the helpers
    on `PeerGraph`. */
module Types {
  import opened Wrappers
  import Decimal

  type PeerId = string

  /** Lifecycle of a peer, in the order the peer moves through it. */
  datatype PeerState = Init | Ready | Running | Reporting | Shutdown

  /** `Display for PeerState`: the variant's name. */
  function StateName(s: PeerState): (name: string)
    ensures |name| >= 4
  {
    match s
    case Init => "Init"
    case Ready => "Ready"
    case Running => "Running"
    case Reporting => "Reporting"
    case Shutdown => "Shutdown"
  }

  /** The inverse of `StateName`, as serde's `PascalCase` deserialisation reads a state. */
  function ParseStateName(name: string): Option<PeerState> {
    if name == "Init" then Some(Init)
    else if name == "Ready" then Some(Ready)
    else if name == "Running" then Some(Running)
    else if name == "Reporting" then Some(Reporting)
    else if name == "Shutdown" then Some(Shutdown)
    else None
  }

  /** A state read back from its displayed name is the same state, so the rendering is
      also injective. */
  lemma StateNameRoundTrip(s: PeerState)
    ensures ParseStateName(StateName(s)) == Some(s)
    ensures forall t :: StateName(t) == StateName(s) ==> t == s
  {
    forall t | StateName(t) == StateName(s) ensures t == s {
      assert ParseStateName(StateName(t)) == Some(t);
    }
  }

  /** Which connection graph the coordinator builds for the plan. */
  datatype GraphType = Complete | SpanningTree | LAModel

  datatype Peer = Peer(peerId: PeerId, ipAddr: string, port: nat, state: PeerState)

  /** `PartialEq for Peer` (and `Hash`): only the id takes part. */
  predicate SamePeer(a: Peer, b: Peer) {
    a.peerId == b.peerId
  }

  datatype Heartbeat = Heartbeat(sender: Peer, sentAtMsec: nat)

  /** `PartialEq for Heartbeat`: only the sender takes part, so only the sender's id. */
  predicate SameHeartbeat(a: Heartbeat, b: Heartbeat) {
    SamePeer(a.sender, b.sender)
  }

  /** Two heartbeats compare equal exactly when their senders have the same id, whatever
      their addresses, states and timestamps; the relation is an equivalence. */
  lemma HeartbeatEquality(a: Heartbeat, b: Heartbeat, c: Heartbeat)
    ensures SameHeartbeat(a, b) <==> a.sender.peerId == b.sender.peerId
    ensures SameHeartbeat(a, a)
    ensures SameHeartbeat(a, b) ==> SameHeartbeat(b, a)
    ensures SameHeartbeat(a, b) && SameHeartbeat(b, c) ==> SameHeartbeat(a, c)
    ensures SameHeartbeat(a, Heartbeat(a.sender.(state := c.sender.state, port := c.sender.port), c.sentAtMsec))
  {
  }

  /** One slot of a peer's ring log. */
  datatype PeerRecord = PeerRecord(timestamp: nat, data: string)

  /** `PeerLog.log`: slot index rendered as a string, to record. */
  type PeerLog = map<string, PeerRecord>

  /** `order` lists every key of `m` once: the iteration order of a Rust `HashMap` or
      `HashSet`, which the model does not fix. */
  ghost predicate Enumerates<V>(order: seq<PeerId>, m: map<PeerId, V>) {
    && (forall k :: k in m <==> k in order)
    && (forall a, b :: 0 <= a < b < |order| ==> order[a] != order[b])
  }

  /** `PeerGraph.nmap`: directed connection graph, `u -> v` meaning `u` dials `v`. */
  type PeerGraph = map<PeerId, set<PeerId>>

  const U64_MAX: nat := 0xFFFF_FFFF_FFFF_FFFF

  datatype LatencyStats = LatencyStats(
    numEvents: nat, minMsec: nat, maxMsec: nat, avgMsec: nat, distinctPeers: nat)

  /** `LatencyStats::new`: no events; the minimum starts at the largest `u64` so that the
      first latency folded in replaces it. */
  function NewLatencyStats(): (s: LatencyStats)
    ensures s.numEvents == 0 && s.distinctPeers == 0
    ensures s.minMsec == U64_MAX && s.maxMsec == 0 && s.avgMsec == 0
  {
    LatencyStats(0, U64_MAX, 0, 0, 0)
  }

  datatype ExecutionPlan = ExecutionPlan(
    startTime: nat,
    testDurationSec: nat,
    reportCollectionName: string,
    peerCollectionName: string,
    peerDocId: string,
    minMsgDelayMsec: nat,
    maxMsgDelayMsec: nat,
    peers: seq<Peer>,
    connections: PeerGraph)

  datatype CoordinatorInfo = CoordinatorInfo(
    heartbeatCollectionName: string,
    heartbeatIntervalSec: nat,
    executionPlan: Option<ExecutionPlan>)

  datatype PeerReport = PeerReport(messageLatency: LatencyStats, recordsProduced: nat)

  // ---------------------------------------------------------------------------
  // Finding a peer of the plan and its TCP address

  /** The first peer of `peers` with id `id`, as Rust's `Iterator::find` and JavaScript's
      `Array.prototype.find` return it. */
  function FindPeer(peers: seq<Peer>, id: PeerId): (r: Option<Peer>)
    ensures r.None? <==> forall i :: 0 <= i < |peers| ==> peers[i].peerId != id
    ensures r.Some? ==> r.value.peerId == id && r.value in peers
    decreases |peers|
  {
    if |peers| == 0 then None
    else if peers[0].peerId == id then Some(peers[0])
    else
      var r := FindPeer(peers[1..], id);
      assert forall i :: 1 <= i < |peers| ==> peers[i] == peers[1..][i - 1];
      r
  }

  /** The match found is the first one: no earlier peer has the id. */
  lemma {:induction false} FindPeerFirst(peers: seq<Peer>, id: PeerId, k: nat)
    requires k < |peers| && peers[k].peerId == id
    requires forall j :: 0 <= j < k ==> peers[j].peerId != id
    ensures FindPeer(peers, id) == Some(peers[k])
    decreases k
  {
    if k > 0 {
      assert forall j :: 0 <= j < k - 1 ==> peers[1..][j] == peers[j + 1];
      FindPeerFirst(peers[1..], id, k - 1);
    }
  }

  /** A peer's TCP endpoint, `<ip>:<port>`, as both the Rust and TypeScript peers format it. */
  function Address(p: Peer): string {
    p.ipAddr + ":" + Decimal.NatToString(p.port)
  }

  /** Splitting at the first occurrence of a separator `c`: the `c`-free prefixes agree. */
  lemma SeparatorSplit(a: string, b: string, x: string, y: string, c: char)
    requires c !in a && c !in b
    requires |x| > 0 && x[0] == c && |y| > 0 && y[0] == c
    requires a + x == b + y
    ensures a == b && x == y
  {
    var s := a + x;
    assert forall k :: 0 <= k < |a| ==> s[k] == a[k] && s[k] != c;
    assert forall k :: 0 <= k < |b| ==> s[k] == (b + y)[k] == b[k] && s[k] != c;
    assert s[|a|] == c && (b + y)[|b|] == c;
    assert !(|a| < |b|);
    assert !(|b| < |a|);
    assert a == s[..|a|] && b == (b + y)[..|b|];
  }

  /** For IPv4 addresses (no `:` in them), equal endpoint strings mean the same address
      and port: distinct endpoints are never merged into one server entry. */
  lemma AddressInjective(p: Peer, q: Peer)
    requires ':' !in p.ipAddr && ':' !in q.ipAddr
    ensures Address(p) == Address(q) <==> p.ipAddr == q.ipAddr && p.port == q.port
  {
    if Address(p) == Address(q) {
      var x := ":" + Decimal.NatToString(p.port);
      var y := ":" + Decimal.NatToString(q.port);
      assert Address(p) == p.ipAddr + x && Address(q) == q.ipAddr + y;
      SeparatorSplit(p.ipAddr, q.ipAddr, x, y, ':');
      assert Decimal.NatToString(p.port) == x[1..] && Decimal.NatToString(q.port) == y[1..];
      Decimal.NatToStringInjective(p.port, q.port);
    }
  }

  // ---------------------------------------------------------------------------
  // short_peer_str

  predicate HasPrefix(s: string, p: string) {
    |p| <= |s| && s[..|p|] == p
  }

  /** Rust's `str::strip_prefix`. */
  function StripPrefix(s: string, p: string): (r: Option<string>)
    ensures r.Some? <==> HasPrefix(s, p)
    ensures r.Some? ==> p + r.value == s
  {
    if HasPrefix(s, p) then
      assert s == s[..|p|] + s[|p|..];
      Some(s[|p|..])
    else None
  }

  /** Rust's `str::split_once(c)`: the text before and after the first `c`. */
  function SplitOnce(s: string, c: char): (r: Option<(string, string)>)
    ensures r.None? <==> c !in s
    ensures r.Some? ==> r.value.0 + [c] + r.value.1 == s && c !in r.value.0
  {
    if |s| == 0 then None
    else if s[0] == c then Some(([], s[1..]))
    else
      match SplitOnce(s[1..], c)
      case None => None
      case Some(p) => Some(([s[0]] + p.0, p.1))
  }

  /** `short_peer_str` as written. `unwrap_or` receives an argument that is computed
      before the call, so `n.split_at(4)` runs, and panics when `n` is shorter than four
      bytes, even when `n` contains an underscore. */
  function ShortPeerStr(name: string): (r: Result<string>)
    ensures HasPrefix(name, "peer") ==>
      (r.Err? <==> |name| < 8)
    ensures HasPrefix(name, "peer") && r.Ok? && '_' in name[4..] ==>
      r.value + ['_'] <= name[4..] && '_' !in r.value
    ensures HasPrefix(name, "peer") && r.Ok? && '_' !in name[4..] ==>
      r.value == name[4..8]
    ensures !HasPrefix(name, "peer") ==>
      r.Ok? && r.value <= name && |r.value| == if |name| < 4 then |name| else 4
  {
    match StripPrefix(name, "peer")
    case Some(n) =>
      if |n| < 4 then Err(Panic("byte index 4 is out of bounds"))
      else
        var fallback := (n[..4], "");
        (match SplitOnce(n, '_')
         case Some(parts) => Ok(parts.0)
         case None => Ok(fallback.0))
    case None =>
      if |name| <= 4 then Ok(name) else Ok(name[..4])
  }

  /** The evident intent of `short_peer_str`: the default is only computed when there is
      no underscore (`unwrap_or_else`). */
  function ShortPeerStrLazy(name: string): (r: Result<string>)
    ensures HasPrefix(name, "peer") && '_' in name[4..] ==>
      r.Ok? && r.value + ['_'] <= name[4..] && '_' !in r.value
    ensures HasPrefix(name, "peer") && '_' !in name[4..] ==>
      (r.Err? <==> |name| < 8)
    ensures !HasPrefix(name, "peer") ==> r == ShortPeerStr(name)
  {
    match StripPrefix(name, "peer")
    case Some(n) =>
      (match SplitOnce(n, '_')
       case Some(parts) => Ok(parts.0)
       case None => if |n| < 4 then Err(Panic("byte index 4 is out of bounds")) else Ok(n[..4]))
    case None =>
      if |name| <= 4 then Ok(name) else Ok(name[..4])
  }

  /** A peer id of the form `peer<n>_<hex>` whose remainder after `peer` is shorter than
      four characters makes the code as written panic, although it has an underscore. */
  lemma ShortPeerStrEagerPanic()
    ensures ShortPeerStr("peer1_a").Err?
    ensures ShortPeerStrLazy("peer1_a") == Ok("1")
  {
    assert HasPrefix("peer1_a", "peer");
    assert "peer1_a"[4..] == "1_a";
    assert "1_a"[1..] == "_a";
    assert SplitOnce("_a", '_') == Some(([], "a"));
    assert "1_a"[0] == '1' && "1_a"[0] != '_';
    var empty: string := [];
    assert ['1'] + empty == "1";
    assert SplitOnce("1_a", '_') == Some(("1", "a"));
  }

  // ---------------------------------------------------------------------------
  // PeerGraph helpers

  /** `PeerGraph::undirected_links`: every directed edge read as undirected. */
  function UndirectedLinks(g: PeerGraph, v: PeerId): (r: Option<set<PeerId>>)
    ensures r.None? <==> v !in g
    ensures r.Some? ==> forall u :: u in r.value <==> u in g[v] || (u in g && v in g[u])
  {
    if v !in g then None
    else Some(g[v] + set u | u in g && v in g[u])
  }

  /** Linking is symmetric between two vertices of the graph. */
  lemma UndirectedLinksSymmetric(g: PeerGraph, u: PeerId, v: PeerId)
    requires u in g && v in g
    ensures u in UndirectedLinks(g, v).value <==> v in UndirectedLinks(g, u).value
  {
  }

  /** `edges` lists each directed edge of `g` exactly once: the order `to_dot` visits
      them in follows `HashMap` iteration and is not modelled. */
  ghost predicate EnumeratesEdges(g: PeerGraph, edges: seq<(PeerId, PeerId)>) {
    && (forall i, j :: 0 <= i < j < |edges| ==> edges[i] != edges[j])
    && (forall k :: 0 <= k < |edges| ==> edges[k].0 in g && edges[k].1 in g[edges[k].0])
    && (forall u, v :: u in g && v in g[u] ==> (u, v) in edges)
  }

  const DotHeader: string := "digraph G {\n"
  const DotFooter: string := "}\n"

  function EdgeLine(su: string, sv: string): string {
    "  " + su + " -> " + sv + ";\n"
  }

  /** The body lines of `to_dot`, one per edge; fails when a short name panics. */
  function DotLines(edges: seq<(PeerId, PeerId)>): (r: Result<string>)
    ensures r.Ok? <==> forall k :: 0 <= k < |edges| ==>
      ShortPeerStr(edges[k].0).Ok? && ShortPeerStr(edges[k].1).Ok?
  {
    if |edges| == 0 then Ok("")
    else
      match ShortPeerStr(edges[0].0)
      case Err(e) => Err(e)
      case Ok(su) =>
        match ShortPeerStr(edges[0].1)
        case Err(e) => Err(e)
        case Ok(sv) =>
          match DotLines(edges[1..])
          case Err(e) => Err(e)
          case Ok(rest) => Ok(EdgeLine(su, sv) + rest)
  }

  /** `PeerGraph::to_dot`. */
  function ToDot(g: PeerGraph, edges: seq<(PeerId, PeerId)>): (r: Result<string>)
    requires EnumeratesEdges(g, edges)
    ensures r.Ok? ==> HasPrefix(r.value, DotHeader)
    ensures r.Ok? ==> |r.value| >= |DotFooter| && r.value[|r.value| - |DotFooter|..] == DotFooter
  {
    match DotLines(edges)
    case Err(e) => Err(e)
    case Ok(body) =>
      var s := DotHeader + body + DotFooter;
      assert s[..|DotHeader|] == DotHeader;
      assert s[|s| - |DotFooter|..] == DotFooter;
      Ok(s)
  }

  function CountChar(s: string, c: char): nat {
    if |s| == 0 then 0 else (if s[0] == c then 1 else 0) + CountChar(s[1..], c)
  }

  lemma {:induction false} CountCharAppend(a: string, b: string, c: char)
    ensures CountChar(a + b, c) == CountChar(a, c) + CountChar(b, c)
  {
    if |a| == 0 {
      assert a + b == b;
    } else {
      assert (a + b)[1..] == a[1..] + b;
      CountCharAppend(a[1..], b, c);
    }
  }

  lemma {:induction false} CountCharAbsent(s: string, c: char)
    requires c !in s
    ensures CountChar(s, c) == 0
  {
    if |s| > 0 {
      CountCharAbsent(s[1..], c);
    }
  }

  /** A short name is taken from the id, so it holds no newline the id did not hold. */
  lemma ShortPeerStrNoNewline(name: string)
    requires '\n' !in name
    requires ShortPeerStr(name).Ok?
    ensures '\n' !in ShortPeerStr(name).value
  {
    var r := ShortPeerStr(name).value;
    if HasPrefix(name, "peer") {
      assert r <= name[4..];
      forall k | 0 <= k < |r| ensures r[k] != '\n' {
        assert r[k] == name[4..][k] == name[4 + k];
      }
    } else {
      forall k | 0 <= k < |r| ensures r[k] != '\n' {
        assert r[k] == name[k];
      }
    }
  }

  /** When no id holds a newline, the body of the dot text has exactly one line per
      directed edge. */
  lemma {:induction false} DotLinesOnePerEdge(edges: seq<(PeerId, PeerId)>)
    requires forall k :: 0 <= k < |edges| ==> '\n' !in edges[k].0 && '\n' !in edges[k].1
    requires DotLines(edges).Ok?
    ensures CountChar(DotLines(edges).value, '\n') == |edges|
  {
    if |edges| > 0 {
      var su := ShortPeerStr(edges[0].0).value;
      var sv := ShortPeerStr(edges[0].1).value;
      ShortPeerStrNoNewline(edges[0].0);
      ShortPeerStrNoNewline(edges[0].1);
      DotLinesOnePerEdge(edges[1..]);
      var rest := DotLines(edges[1..]).value;
      var line := EdgeLine(su, sv);
      assert line == ("  " + su + " -> " + sv + ";") + "\n";
      CountCharAppend("  " + su, " -> ", '\n');
      CountCharAppend("  ", su, '\n');
      CountCharAppend("  " + su + " -> ", sv, '\n');
      CountCharAppend("  " + su + " -> " + sv, ";", '\n');
      CountCharAppend("  " + su + " -> " + sv + ";", "\n", '\n');
      CountCharAbsent(su, '\n');
      CountCharAbsent(sv, '\n');
      CountCharAppend(line, rest, '\n');
    }
  }

  /** The whole dot text: header line, one line per edge, footer line. */
  lemma DotOneLinePerEdge(g: PeerGraph, edges: seq<(PeerId, PeerId)>)
    requires EnumeratesEdges(g, edges)
    requires forall k :: 0 <= k < |edges| ==> '\n' !in edges[k].0 && '\n' !in edges[k].1
    requires ToDot(g, edges).Ok?
    ensures CountChar(ToDot(g, edges).value, '\n') == |edges| + 2
  {
    var body := DotLines(edges).value;
    DotLinesOnePerEdge(edges);
    CountCharAppend(DotHeader, body, '\n');
    CountCharAppend(DotHeader + body, DotFooter, '\n');
    assert CountChar(DotHeader, '\n') == 1;
    assert CountChar(DotFooter, '\n') == 1;
  }
}

=== FILE: wrappers.dfy ===
/** Failure-compatible wrappers shared by every module of the model. */
module Wrappers {

  /** An optional value: Rust's `Option`, or a JavaScript value that may be `undefined`/`null`. */
  datatype Option<+T> = None | Some(value: T) {
    predicate IsFailure() { None? }

    function PropagateFailure<U>(): Option<U>
      requires None?
    {
      None
    }

    function Extract(): T
      requires Some?
    {
      value
    }

    function GetOr(default: T): T {
      match this
      case Some(v) => v
      case None => default
    }
  }

  /** Why a modelled operation did not return normally. */
  datatype Failure =
    | Panic(reason: string)        // a Rust `panic!`, `assert!` or `unwrap` on `None`
    | Thrown(message: string)      // a JavaScript exception

  /** The outcome of an operation that can fail. */
  datatype Result<+R> = Ok(value: R) | Err(error: Failure) {
    predicate IsFailure() { Err? }

    function PropagateFailure<U>(): Result<U>
      requires Err?
    {
      Err(error)
    }

    function Extract(): R
      requires Ok?
    {
      value
    }
  }
}
